=== FILE: README.md ===
# Tyson conversion engine in Dafny

Tyson maps typed object graphs to and from plain JSON. A `Tyson` registry
keeps an ordered chain of adapter factories and a cache of adapters keyed
by the hash of a `TypeToken`. To convert a value it looks up the adapter for
the requested shape: a class, a one-element array shape `[T]`, or a tuple.
That adapter converts the value, and the object and array adapters re-enter
the registry for every property and element.

This project models that engine as pure functions:

- **Descriptors and tokens.** `TypeDesc` is a class or a list of descriptors.
  `TypeToken` carries the cache key, which is the type name plus a generated
  name. `GetTypeHash` is the recursive hash string.
- **Registry.** `Tyson` is the factory chain, the cache, the `serializeNulls`
  setting and a table of class declarations. The cache is threaded through
  every call: each operation returns a `Step` holding its result and the
  registry after the call.
- **Adapters.** The primitive adapters, the object adapter (metadata, name
  overrides, access direction, required fields, raw passthrough, error
  rewrapping, null omission) and the array adapter. The null guard wraps
  every adapter.
- **Entry points.** `fromJson` and `toJson`.

Values are one datatype, `Plain.Value`. It holds JSON and object graphs alike,
because raw passthrough copies values across unchanged. Errors are a
DeserializationError carrying a message and, optionally, the JSON, a plain
`Error`, or a JavaScript `TypeError`.

The registry of this model reads its property metadata through the
corrected `@JsonProperty` decorator and the corrected metadata builder
described under "## Findings": `Annotations.JsonProperty` keeps every option,
and `ReflectionUtils.GetJsonPropertyMetadata` carries `required` and
`ignoreType` into the metadata that `ObjectTypeAdapter.LoadMetadata`
records, which `ObjectTypeAdapter.Claim` gives the object adapters of
`Tyson.New`. So a required property is enforced and an ignoreType property
is copied raw, as the library's tests expect. The code as written drops
both flags, and `Annotations.JsonPropertyAsWritten`,
`ReflectionUtils.GetJsonPropertyMetadataAsWritten` and
`ObjectTypeAdapter.LoadMetadataAsWritten` model it.

Apart from those two corrections, where the code and the library's tests
disagree the model follows the code:

- A JSON `null` under a present key sets the field to undefined
  (`src/adapters/objectTypeAdapter.ts:55`, `src/typeAdapter.ts:24-26`), as
  the test at `test/basic-functionality.spec.ts:817-846` expects.
- The array factory claims only one-element shapes. Tuples of other lengths
  fail with "Tyson cannot handle …", although the tests at
  `test/basic-functionality.spec.ts:417-512` expect them to convert.
- The cache key is the token hash as written: the type name plus the
  generated name. So `[A]` and `[A, B]` share a key, every `[[X]]` has the
  key `ArrayArray`, and the element adapter of `[[[T]]]` is that adapter
  itself. `RegistryProperties` states these consequences. The source says
  nested arrays are not supported yet.

## Model

| member | source | states |
|---|---|---|
| TypeHash.ParseHashRoundTrip | src/reflect/reflectionUtils.ts:30-48 | parsing the hash of a well-named descriptor consumes it exactly and gives back that descriptor: the hash has an inverse |
| TypeHash.ParseElemsRoundTrip | src/reflect/reflectionUtils.ts:38-46 | parsing the "+"-joined element hashes of a list from element i onwards gives back exactly those elements, each nested list closed by its extra ")" |
| TypeHash.HashInjective | src/reflect/reflectionUtils.ts:30-48 | two well-named descriptors with the same recursive hash are the same descriptor |
| TokenProperties.ArrayTypeNameIgnoresElements | src/reflect/reflectionUtils.ts:21-23 | the type name of every list is "Array", whatever its elements |
| TokenProperties.TypeHashShape | src/reflect/reflectionUtils.ts:30-48 | a class hashes to its type name; a list hashes to "Array:(" + its joined element parts + ")", so it starts with "Array:(" and ends with ")" |
| TokenProperties.HashPartsJoin | src/reflect/reflectionUtils.ts:38-46 | element parts are joined with "+", with no separator before the first part |
| TokenProperties.TypeHashExample | src/reflect/reflectionUtils.ts:41-42 | a nested list contributes its own hash followed by an extra ")": `[A, [B]]` hashes to "Array:(A+Array:(B)))" |
| TokenProperties.TypeHashIdentifiesShape | src/reflect/reflectionUtils.ts:30-48 | for well-named descriptors, equal hashes if and only if equal descriptors |
| TokenProperties.ClassTokenHash | src/reflect/typeToken.ts:35-42 | a class always gets a token; its hash is n+n for a basic type n and n+"Object" for any other class |
| TokenProperties.ArrayTokenHash | src/reflect/typeToken.ts:36-37 | a non-empty list's token hash is "Array" followed by the type name of element 0 |
| TokenProperties.TupleSharesArrayHash | src/reflect/typeToken.ts:36-37 | `[a]` and `[a, b]` get the same token hash |
| TokenProperties.NestedArraysShareHash | src/reflect/typeToken.ts:36-37 | every shape `[[...]]` has the token hash "ArrayArray" |
| TokenProperties.TokenHashLosesShape | src/reflect/typeToken.ts:13-17 | two different descriptors exist whose tokens have the same hash |
| TokenProperties.EqualsByTypeComparesNames | src/reflect/typeToken.ts:31-33 | `equalsByType` holds if and only if the type names are equal, so any two lists match |
| TypeTokens.GenerateName | src/reflect/typeToken.ts:35-42 | fails with a TypeError exactly for the empty list; otherwise the type name of element 0 for a list, the name of a basic class, or "Object" |
| TypeTokens.NewToken | src/reflect/typeToken.ts:13-17 | a non-empty explicit name overrides the generated one; the hash is the type name followed by the name; it fails only for an unnamed empty list |
| ReflectionUtils.GetJsonPropertyMetadata | src/reflect/reflectionUtils.ts:5-15 | corrected (see ## Findings): no metadata if and only if there is no annotation; an explicit type is preferred over the design type; name and access come from the annotation, and so do required and ignoreType, which the code as written drops |
| ReflectionUtils.GetJsonPropertyMetadataAsWritten | src/reflect/reflectionUtils.ts:10-14 | the metadata as the code builds it: same presence and type, but never required and never ignoreType |
| ReflectionUtils.MetadataAgreesWithoutFlags | src/reflect/reflectionUtils.ts:5-15 | the metadata as written and the corrected metadata are equal if and only if the field is unannotated or its annotation sets neither `required` nor `ignoreType` |
| TypeAdapters.PrimRead | src/adapters/typeAdapters.ts:9-43 | BOOLEAN, NUMBER and STRING `fromJson` succeed if and only if the value has the expected `typeof`, return it unchanged, and otherwise raise a DeserializationError "Value '…' does not match the expected type: …" |
| TypeAdapters.PrimWrite | src/adapters/typeAdapters.ts:9-43 | the primitive `toJson` succeeds on every value and returns it unchanged, and reading back a written value of the right kind gives the value |
| TypeAdapters.NewFactoryCreate | src/adapters/typeAdapters.ts:59-75 | a token factory claims a token if and only if the hashes are equal; a class factory claims it if and only if the type names are equal; the answer is the one registered adapter |
| ObjectTypeAdapter.FreshFields | src/adapters/objectTypeAdapter.ts:34 | a fresh instance owns exactly the declared field keys |
| ObjectTypeAdapter.LoadMetadata | src/adapters/objectTypeAdapter.ts:96-106 | records at most one property per field |
| ObjectTypeAdapter.LoadMetadataRecordsAnnotated | src/adapters/objectTypeAdapter.ts:96-106 | every recorded property is an annotated field with that field's metadata, and every annotated field is recorded |
| ObjectTypeAdapter.LoadMetadataAsWritten | src/adapters/objectTypeAdapter.ts:96-106 | with the metadata as written, no recorded property is required or ignoreType |
| ObjectTypeAdapter.JsonKey | src/adapters/objectTypeAdapter.ts:38 | the JSON key is the name override when it is set and non-empty, else the field key |
| ObjectTypeAdapter.Rewrap | src/adapters/objectTypeAdapter.ts:56-64 | a DeserializationError becomes "Property 'k' of C does not match type of 'jsonKey'." carrying the JSON object; any other error passes through unchanged |
| ObjectTypeAdapter.Claim | src/adapters/objectTypeAdapter.ts:12-19 | the object factory claims a token if and only if its type is a class, with the metadata loaded from that class |
| ArrayTypeAdapter.Claim | src/adapters/arrayTypeAdapter.ts:9-20 | the array factory claims a shape if and only if it is a one-element list, with the token of element 0; it throws only for `[[]]` |
| Tyson.New | src/tyson.ts:38-55 | the builder's factories come first, then Boolean, Number, String, Date, Object, Array; the cache is empty; serializeNulls is false unless a builder sets it |
| Tyson.WalkChain | src/tyson.ts:116-122 | no answer if and only if every factory declines; otherwise the answer of the first factory that does not decline |
| Tyson.GetAdapter | src/tyson.ts:110-124 | a cache hit returns the stored adapter and changes nothing; a found adapter is cached under the token's hash and nothing else is added; a failure leaves the registry unchanged; on a miss, it fails with "Tyson cannot handle " + hash if and only if every factory declines |
| Tyson.Read | src/typeAdapter.ts:23-28 | reading keeps the factory chain, the settings and every existing cache entry |
| Tyson.ReadInner | src/adapters/arrayTypeAdapter.ts:31-37 | an adapter's own read keeps the chain, the settings and every existing cache entry |
| Tyson.ReadProps | src/adapters/objectTypeAdapter.ts:33-68 | the object read loop keeps the chain, the settings and every existing cache entry, and a successful read gives an instance of the class being read |
| Tyson.ReadAs | src/typeAdapter.ts:23-28 | looking up an adapter and reading with it keeps the registry invariant, and reads JSON null as undefined whatever the adapter |
| Tyson.ReadElems | src/adapters/arrayTypeAdapter.ts:31-37 | the array read loop keeps the chain, the settings and every existing cache entry, and a successful read gives an array with one item per element read |
| Tyson.Write | src/typeAdapter.ts:30-36 | writing keeps the chain, the settings and every existing cache entry |
| Tyson.WriteInner | src/adapters/arrayTypeAdapter.ts:39-45 | an adapter's own write keeps the chain, the settings and every existing cache entry |
| Tyson.WriteProps | src/adapters/objectTypeAdapter.ts:70-90 | the object write loop keeps the chain, the settings and every existing cache entry, and a successful write gives a JSON object |
| Tyson.WriteAs | src/typeAdapter.ts:30-36 | looking up an adapter and writing with it keeps the registry invariant, and writes null or undefined as null whatever the adapter |
| Tyson.WriteElems | src/adapters/arrayTypeAdapter.ts:39-45 | the array write loop keeps the chain, the settings and every existing cache entry, and a successful write gives an array with one item per element written |
| Tyson.RequestedShape | src/tyson.ts:77-79 | a class requested for a JSON array becomes `[class]`; any other request is used as it is |
| Tyson.FromJson | src/tyson.ts:73-82 | `fromJson` keeps the chain, the settings and every existing cache entry |
| Tyson.ConstructorOf | src/tyson.ts:95 | a value has a constructor if and only if it is neither null nor undefined, and the constructor is a class |
| Tyson.WriteShape | src/tyson.ts:95 | the explicit type when one is given, else the value's constructor |
| Tyson.ToJson | src/tyson.ts:94-97 | `toJson` keeps the chain, the settings and every existing cache entry |
| RegistryProperties.WalkChainAppend | src/tyson.ts:116-122 | walking two chains in a row consults the second only when the first gives no answer |
| RegistryProperties.UserFactoriesFirst | src/tyson.ts:43-54 | a token the builder's factories answer for never reaches the built-ins; otherwise the built-in answer is used |
| RegistryProperties.BuiltInChainResolves | src/tyson.ts:48-54 | the built-in chain answers Boolean, Number and String with the primitive adapters, Date with the Date adapter, any other class with an object adapter, `[e]` with an array adapter for e, `[[]]` with a TypeError, and other tuple lengths with nothing |
| RegistryProperties.BuiltInWalk | src/tyson.ts:116-122 | the built-in chain is consulted factory by factory: Boolean, Number, String, Date, Object, then Array, each only when all before it declined |
| RegistryProperties.BuiltInWalkTail | src/tyson.ts:116-122 | the last three built-in factories are consulted in the order Date, Object, Array |
| RegistryProperties.BuiltInChainOnClass | src/tyson.ts:48-54 | on a class, the built-in chain answers Boolean, Number, String and Date with their own adapters and any other class with an object adapter for its declaration |
| RegistryProperties.BuiltInChainOnList | src/adapters/arrayTypeAdapter.ts:9-20 | on a list, the built-in chain answers `[e]` with an array adapter for e, `[[]]` with a TypeError, and other lengths with nothing |
| RegistryProperties.WalkStep | src/tyson.ts:116-121 | the chain walk takes the first factory's answer unless it declines, and otherwise walks the rest |
| RegistryProperties.SameHashSameAdapter | src/tyson.ts:111-119 | once a token is resolved, any token with the same hash, in any later registry state, gets the identical adapter without changing the registry |
| RegistryProperties.FailedLookupCachesNothing | src/tyson.ts:123 | a failed lookup had no cache entry and adds none |
| RegistryProperties.TupleUnsupported | src/adapters/arrayTypeAdapter.ts:13-18 | on a fresh default registry, a two-element tuple fails with "Tyson cannot handle Array" + the type name of element 0 |
| RegistryProperties.TupleHitsArrayEntry | src/tyson.ts:111-114 | after `[a]` is resolved, the tuple `[a, b]` hits that cache entry and gets the array adapter of a |
| RegistryProperties.TripleArrayResolvesToItself | src/adapters/arrayTypeAdapter.ts:12-15 | the element adapter of `[[[c]]]` resolves to that same outer adapter |
| RegistryProperties.TripleArrayReadFails | src/adapters/arrayTypeAdapter.ts:31-37 | reading `[[[1]]]` as `[[[Number]]]` on a default registry fails with a "not iterable" TypeError |
| ObjectProperties.ReadPropFits | src/adapters/objectTypeAdapter.ts:36-65 | one iteration of `_fromJson` stores a value if and only if the property is not toJson-only and its JSON key is present; a required property's key was present; an ignoreType property takes the raw JSON value; a converted JSON null becomes undefined; a DeserializationError names the property as missing or as not matching; for a present, readable, typed property without ignoreType, the outcome is that of looking up the adapter of the property's type and reading the value under its JSON key with it: its value is stored, and its error is rewrapped to name the property and its JSON key |
| ObjectProperties.WritePropFits | src/adapters/objectTypeAdapter.ts:73-87 | one iteration of `_toJson` writes only owned, non-fromJson-only properties; no null is written unless nulls are serialized, and every such property is written when they are; an ignoreType value is copied as it is; a null or undefined value is written as null or dropped; for an owned, writable, typed property without ignoreType, the outcome is that of looking up the adapter of the property's type and writing the field's value with it: its error passes through unchanged, and its output is written, unless it is null and nulls are not serialized, in which case the property is dropped |
| ObjectProperties.ReadPropsStep | src/adapters/objectTypeAdapter.ts:35-66 | one turn of the `_fromJson` loop: the property's value fits it, its error ends the loop, and otherwise the loop goes on from the next property with that value stored |
| ObjectProperties.WritePropsStep | src/adapters/objectTypeAdapter.ts:72-88 | one turn of the `_toJson` loop: the property's output fits it, its error ends the loop, and otherwise the loop goes on with the output stored under the JSON key |
| ObjectProperties.ReadPropsAssembles | src/adapters/objectTypeAdapter.ts:33-68 | a successful `_fromJson` is the fresh instance with, property by property, a value that fits each property stored under its field key |
| ObjectProperties.WritePropsAssembles | src/adapters/objectTypeAdapter.ts:70-90 | a successful `_toJson` is the empty object with, property by property, an output that fits each property stored under its JSON key |
| ObjectProperties.ReadPropsRequiredPresent | src/adapters/objectTypeAdapter.ts:44-48 | a successful object read gives an instance of the class in which every required property was present in the JSON |
| ObjectProperties.ReadPropsFields | src/adapters/objectTypeAdapter.ts:33-68 | the instance has exactly its fresh fields plus the fields of the properties that were read |
| ObjectProperties.ReadPropsKeepsDefaults | src/adapters/objectTypeAdapter.ts:44-51 | a field that no property reads (unannotated, toJson-only or missing from the JSON) keeps its fresh default |
| ObjectProperties.ReadPropsValues | src/adapters/objectTypeAdapter.ts:54-55 | the last property read into a field fixes it: the raw JSON value under ignoreType, and undefined for a converted JSON null |
| ObjectProperties.ReadPropsErrorNamesProperty | src/adapters/objectTypeAdapter.ts:44-65 | a DeserializationError from an object read names a property it returns, either as required and missing or as not matching its JSON key, in which case it carries the JSON |
| ObjectProperties.ReadPropMissing | src/adapters/objectTypeAdapter.ts:43-51 | a property missing from the JSON is skipped, or fails with the required message if it is required |
| ObjectProperties.ReadPropsMissingStep | src/adapters/objectTypeAdapter.ts:43-51 | a property missing from the JSON ends the loop with the required message if it is required, and is skipped otherwise |
| ObjectProperties.ReadPropsAllMissing | src/adapters/objectTypeAdapter.ts:44-51 | when no property's key is in the JSON, the read succeeds if and only if no property is required, and then returns the fresh instance and leaves the registry unchanged |
| ObjectProperties.ReadPropsFirstMissing | src/adapters/objectTypeAdapter.ts:44-48 | when no property's key is in the JSON and the read fails, the error is the required message of the first required property |
| ObjectProperties.WritePropsShape | src/adapters/objectTypeAdapter.ts:70-90 | the output's keys are the JSON keys of the owned, non-fromJson-only properties; with serializeNulls all of them are present, and without it no value is null |
| ObjectProperties.WritePropsValues | src/adapters/objectTypeAdapter.ts:75-87 | the last property written under a JSON key fixes its value: the raw value under ignoreType, and null for a null or undefined value when nulls are serialized |
| ObjectProperties.WritePropsKeeps | src/adapters/objectTypeAdapter.ts:70-90 | an output entry that no later property writes survives |
| ObjectProperties.LoadMetadataKeysDistinct | src/adapters/objectTypeAdapter.ts:96-106 | a class's declared fields have distinct keys, as the own keys of an object do, so the recorded properties have distinct keys |
| ArrayProperties.ReadElemsStep | src/adapters/arrayTypeAdapter.ts:33-35 | one turn of the array read loop: element i's value is the element adapter's `fromJson` of it, read in the registry the lookup leaves, and that registry has the adapter cached under the element token's hash; a failed lookup is the turn's error; a null element reads as undefined; an error ends the loop, and otherwise the loop goes on with the value appended |
| ArrayProperties.WriteElemsStep | src/adapters/arrayTypeAdapter.ts:41-43 | one turn of the array write loop: element i's output is the element adapter's `toJson` of it, written in the registry the lookup leaves, and that registry has the adapter cached under the element token's hash; a failed lookup is the turn's error; a null or undefined element writes as null; an error ends the loop, and otherwise the loop goes on with the value appended |
| ArrayProperties.ReadElemsAssembles | src/adapters/arrayTypeAdapter.ts:31-37 | a successful array read is the accumulated array followed by one value per remaining element, with undefined wherever the element is null |
| ArrayProperties.WriteElemsAssembles | src/adapters/arrayTypeAdapter.ts:39-45 | a successful array write is the accumulated array followed by one value per remaining element, with null wherever the element is null or undefined |
| ArrayProperties.ReadElemsKeepsOrder | src/adapters/arrayTypeAdapter.ts:31-37 | a successful array read keeps what was accumulated in front, and a null element becomes undefined in its own place |
| ArrayProperties.WriteElemsKeepsOrder | src/adapters/arrayTypeAdapter.ts:39-45 | a successful array write keeps what was accumulated in front, and a null or undefined element becomes null in its own place |
| ArrayProperties.ElementAdapterFixed | src/adapters/arrayTypeAdapter.ts:31-45 | once the element token is cached, converting the elements with a lookup per element is the same as converting each with the one cached adapter |
| ArrayProperties.ElementAdapterResolved | src/adapters/arrayTypeAdapter.ts:31-45 | cached or not, when the element lookup succeeds, converting a non-empty array with a lookup per element is the same as converting each element with the one adapter the first lookup gives, starting from the registry it leaves |
| ArrayProperties.ElementLookupFailure | src/adapters/arrayTypeAdapter.ts:31-45 | an empty array converts to an empty array; for a non-empty array, a failing element lookup is the conversion's error |
| EntryPoints.NullGuard | src/typeAdapter.ts:23-36 | JSON null reads as undefined, and null or undefined write as null, whatever the adapter; any other value gets exactly the adapter's own conversion |
| EntryPoints.ToJsonInfersConstructor | src/tyson.ts:94-97 | without a type, `toJson` converts as if the value's constructor had been given; null and undefined fail with a TypeError and leave the registry unchanged |
| EntryPoints.FromJsonWrapsArrays | src/tyson.ts:73-82 | `fromJson` of a JSON array with a class is `fromJson` with `[class]`; an explicit list shape is used as it is |
| EntryPoints.NullsThroughEntryPoints | src/tyson.ts:81-96 | once the shape resolves, `fromJson(null)` is undefined and `toJson` of null or undefined is null |
| EntryPoints.UnresolvedShapeFails | src/tyson.ts:110-124 | a shape that does not resolve makes both entry points fail with the lookup error and leaves the registry unchanged |
| RoundTrip.PrimLookup | src/tyson.ts:111-114 | with the primitive adapters cached, looking up a primitive class is a cache hit |
| RoundTrip.PrimsCachedStable | src/tyson.ts:119 | every later registry state keeps the cached primitive adapters |
| RoundTrip.WarmUpStep | src/tyson.ts:116-121 | on the built-in chain, resolving a primitive class that is not cached yet adds exactly its primitive adapter to the cache |
| RoundTrip.WarmUpBoolean | src/tyson.ts:116-121 | resolving Boolean on a fresh default registry leaves exactly the Boolean adapter in the cache |
| RoundTrip.WarmUpNumber | src/tyson.ts:116-121 | resolving Number next adds exactly the Number adapter beside it |
| RoundTrip.WarmUpString | src/tyson.ts:116-121 | resolving String next leaves exactly the three primitive adapters in the cache |
| RoundTrip.WarmCacheHoldsPrims | src/reflect/typeToken.ts:16 | the cache holding the three primitive adapters maps each primitive class's hash to its adapter |
| RoundTrip.PrimsCachedAfterWarmUp | src/tyson.ts:48-51 | after Boolean, Number and String are resolved once on a default registry, all three primitive adapters are cached |
| RoundTrip.PrimHashesDistinct | src/reflect/typeToken.ts:16 | the three primitive classes have three different cache keys |
| RoundTrip.PrimHashInjective | src/reflect/typeToken.ts:16 | two different primitive classes never share a cache key |
| RoundTrip.NewPrimsReady | src/tyson.ts:38-55 | a fresh `new Tyson()` resolves every primitive class: its cache is empty and its chain is the built-in one |
| RoundTrip.CachedPrimsReady | src/tyson.ts:111-114 | a registry with the primitive adapters cached resolves every primitive class, whatever its chain |
| RoundTrip.PrimResolve | src/tyson.ts:110-121 | looking up a primitive class on a registry that resolves the primitives gives its primitive adapter, leaves a registry that still resolves them, and changes nothing on a cache hit |
| RoundTrip.ReadyAfterCaching | src/tyson.ts:119 | caching a primitive adapter under its own class's hash keeps every primitive class resolving |
| RoundTrip.ObjectHashNotPrim | src/reflect/typeToken.ts:39-40 | the hash of a non-basic class, which ends in "Object", is never a primitive cache key |
| RoundTrip.ClassHashIsPrim | src/reflect/typeToken.ts:13-17 | a class token's hash is a primitive cache key only when the class is that primitive class |
| RoundTrip.LookupKeepsReady | src/tyson.ts:110-124 | any lookup of a token whose hash is no primitive cache key keeps every primitive class resolving, whether it hits, caches or fails |
| RoundTrip.ObjectLookupKeepsReady | src/tyson.ts:110-124 | a class lookup that gives an object adapter keeps every primitive class resolving |
| RoundTrip.PrimToJson | src/tyson.ts:94-97 | `toJson` of a primitive value, with or without its class, gives the value itself, in the registry the primitive lookup leaves |
| RoundTrip.PrimFromJson | src/tyson.ts:73-82 | `fromJson` of a value that is neither null nor an array, as a primitive class, gives the primitive adapter's type check of the value, in the registry the primitive lookup leaves |
| RoundTrip.PrimitiveRoundTrip | src/adapters/typeAdapters.ts:9-43 | on any registry that resolves the primitive classes, a fresh `new Tyson()` included, a primitive value goes to JSON as itself, with or without its class, and reads back as itself, both before and after the `toJson` call; with the adapter already cached the registry is unchanged; a value of another kind (not null, not an array) is refused with the primitive adapter's message |
| RoundTrip.FlatWriteProp | src/adapters/objectTypeAdapter.ts:75-86 | on a registry that resolves the primitives, a primitive property holding a value of its kind is written as that value; the registry still resolves them, and is unchanged when they are cached |
| RoundTrip.FlatReadProp | src/adapters/objectTypeAdapter.ts:36-55 | on a registry that resolves the primitives, a primitive property whose JSON key holds a value of its kind is read as that value; the registry still resolves them, and is unchanged when they are cached |
| RoundTrip.FlatWriteStep | src/adapters/objectTypeAdapter.ts:72-88 | one turn of the `_toJson` loop over a primitive property writes its value under its JSON key and goes on in a registry that still resolves the primitives, the same one when they are cached |
| RoundTrip.FlatReadStep | src/adapters/objectTypeAdapter.ts:35-66 | one turn of the `_fromJson` loop over a primitive property stores the value under its JSON key in its field and goes on in a registry that still resolves the primitives, the same one when they are cached |
| RoundTrip.FlatWriteKeeps | src/adapters/objectTypeAdapter.ts:70-90 | writing a conforming instance of a flat class succeeds and keeps every output entry whose key no property writes |
| RoundTrip.FlatWriteRegistry | src/adapters/objectTypeAdapter.ts:70-90 | writing a conforming instance of a flat class leaves a registry that still resolves the primitives, the same registry when they are cached |
| RoundTrip.FlatWriteKeys | src/adapters/objectTypeAdapter.ts:70-90 | writing a conforming instance of a flat class succeeds and adds exactly the properties' JSON keys |
| RoundTrip.FlatWrite | src/adapters/objectTypeAdapter.ts:70-90 | writing a conforming instance of a flat class puts each property's value under its JSON key |
| RoundTrip.FlatReadRegistry | src/adapters/objectTypeAdapter.ts:33-68 | reading conforming JSON into a flat class leaves a registry that still resolves the primitives, the same registry when they are cached |
| RoundTrip.FlatReadKeeps | src/adapters/objectTypeAdapter.ts:33-68 | reading conforming JSON into a flat class succeeds and leaves fields that no property reads as they were |
| RoundTrip.FlatRead | src/adapters/objectTypeAdapter.ts:33-68 | reading conforming JSON into a flat class sets each property's field to the value under its JSON key |
| RoundTrip.FlatClassRoundTrip | src/adapters/objectTypeAdapter.ts:33-90 | on a registry that resolves the primitives (a fresh `new Tyson()` among them) and the class to its object adapter, `toJson` of an instance of a flat class gives an object with exactly the properties' JSON keys, and `fromJson` of it gives an instance of the same class whose recorded fields hold the original values and whose other fields hold fresh defaults |
| RoundTrip.NewRegistryRoundTrip | src/tyson.ts:73-97 | on a fresh `new Tyson()`, `toJson` of an instance of a non-basic class whose recorded properties are flat gives a JSON object, and `fromJson` of it gives an instance of that class whose recorded fields hold the original values |
| Findings.RequiredFlagLost | src/reflect/reflectionUtils.ts:10-14 | with the metadata as written, reading `{}` into a class with a required field succeeds; with the corrected metadata it fails with the required message |
| Findings.CityFromJson | src/tyson.ts:73-82 | `fromJson({}, City)` on a default registry is the object adapter's read loop over City's one required property |
| Findings.RequiredPropertyEnforced | src/adapters/objectTypeAdapter.ts:44-48 | through the registry's own object adapter, `fromJson({}, City)` fails with "Property 'beautiful' of City is set as required, but missing on the JSON." |
| Findings.DecoratorFlagLost | src/annotations/jsonProperty.ts:43-47 | the decorator as written records `@JsonProperty({ required: true })` without the flag, so even the corrected metadata of that field lets reading `{}` into City succeed with the field left at its default |
| Findings.DecoratorKeepsRequired | src/annotations/jsonProperty.ts:35-48 | the corrected decorator records `{ required: true }` as City's annotation, and with it `fromJson({}, City)` fails with the required message |
| Annotations.JsonPropertyAsWritten | src/annotations/jsonProperty.ts:35-48 | the decorator as written: a string sets only the name; options set only name, type and access; `required` and `ignoreType` are never recorded |
| Annotations.JsonProperty | src/annotations/jsonProperty.ts:35-48 | corrected (see ## Findings): a string sets only the name; no argument sets nothing; options set name, type, access, required and ignoreType as given |
| Annotations.AsWrittenAgreesWithoutFlags | src/annotations/jsonProperty.ts:35-48 | the decorator as written and the corrected one record the same annotation if and only if the argument does not set `required` or `ignoreType` |

## Left out

- Reflection is not modelled: `reflect-metadata`, `design:type` and `Function.prototype.toString`. A table of class declarations stands in for it. Each entry lists a class's own fields in `Object.keys` order, with each field's default, design type and annotation. The type name of a class is its declared name.
- The `@JsonProperty` decorator in src/annotations/jsonProperty.ts accepts only `name`, `type` and `access` (lines 9-13) and stores only those three (lines 37-47), so the real decorator discards the `required` and `ignoreType` options the library's tests pass to it. `Annotations.JsonPropertyAsWritten` models it as written; the class declarations of this model hold the record of the corrected `Annotations.JsonProperty`, which keeps both (see ## Findings). Attaching the record to the class through `Reflect.metadata` is not modelled.
- The Date adapter and user-written adapters are given as opaque read and write functions (a `Codec`) supplied as parameters, because their behaviour is JavaScript's `Date` or user code.
- Numbers are integers. Floating point is not modelled.
- Object key order is not modelled: objects are maps. `_toJson` is modelled over the recorded properties in declaration order, where the code uses `for … in` over the source. Inherited enumerable keys of the source are not modelled.
- The array adapter iterates only arrays. The code's `for … of` would also iterate the characters of a string. The model gives a TypeError instead, which keeps termination structural.
- The TypeError messages are indicative only: JavaScript's wording is not part of the library.
- DeserializationError's `json` holds the JSON value itself rather than its string form.
- The `TysonBuilder` is reduced to its factories and an optional `serializeNulls`. src/tysonBuilder.ts is not part of this model, and the builder in that file has no null setting, so a builder leaves it false.
- The capitalised older files (src/Tyson.ts, src/adapters/ObjectTypeAdapter.ts and the rest) are not part of this model. Only `isBasicType` and the type-name constants come from src/reflect/ReflectionUtils.ts:17-24 and src/Constants.ts:3-9, because src/reflect/typeToken.ts:38-40 calls `ReflectionUtils.isBasicType` and `Constants.OBJECT_TYPE`, which the lower-case src/reflect/reflectionUtils.ts and src/constants.ts do not define; the borrowing fills that gap and replaces nothing the lower-case files define.
- The primitive adapters in src/adapters/typeAdapters.ts are object literals. As written, they would not get the null guard of src/typeAdapter.ts:23-36. The model applies the guard to every adapter, which is what the tests at test/basic-functionality.spec.ts:817-869 expect.
- `new TypeToken([])` throws a TypeError when reading element 0, so token construction is a `Result`. Every class and every non-empty list gets a token.
- Cyclic object graphs are not modelled: values are finite trees, and conversion of a cycle does not terminate in the library either.
- Tyson.Read, Tyson.ReadInner, Tyson.ReadProps, Tyson.ReadElems, Tyson.Write, Tyson.WriteInner, Tyson.WriteProps, Tyson.WriteElems, Tyson.FromJson, Tyson.ToJson: their contracts state the registry invariant and, for the loops, the kind and length of the result. What they compute is stated by the lemmas in ObjectProperties, ArrayProperties, EntryPoints and RoundTrip; the one-property steps ReadProp and WriteProp are described by ObjectProperties.ReadPropFits and ObjectProperties.WritePropFits. The value each array element becomes, the element adapter's own conversion, is stated by ArrayProperties.ReadElemsStep, ArrayProperties.WriteElemsStep and ArrayProperties.ElementAdapterResolved.
- RoundTrip.FlatClassRoundTrip: the round trip is proved for classes whose recorded properties are primitive, read and written in both directions, with distinct field keys and distinct JSON keys. Nested classes and arrays are not covered. It holds on any registry that resolves the primitive classes: a fresh `new Tyson()`, or one with the three primitive adapters already cached. A registry built with user factories is covered only once the primitive adapters are cached, because a user factory could claim a primitive class first.
- RoundTrip.PrimitiveRoundTrip: holds on the same registries as RoundTrip.FlatClassRoundTrip. On a registry built with user factories whose primitive adapters are not cached yet, a user factory may answer for the primitive class, and nothing is promised.
- A user-supplied factory (src/typeAdapterFactory.ts:26, registered through src/tysonBuilder.ts:57-60) is modelled as a pure function of the token alone. It never throws and never consults the registry. In the library, `create` receives the `Tyson` instance and may throw or look up further adapters.
- `hasOwnProperty` is modelled only for objects and class instances, which are the only values with own keys here. In JavaScript it is also true for the indices and `length` of an array and for the `length` of a string, so reading into a class from an array or a string is not modelled as the library would do it.

## Findings

| source | as written | input that shows it | evidently intended | confidence | as-written member | corrected member |
|---|---|---|---|---|---|---|
| src/reflect/reflectionUtils.ts:10-14 | the metadata is built from the annotation's name, type and access only, so `required` and `ignoreType` are always undefined | a class with `@JsonProperty({ required: true }) beautiful`, read from `{}`: it returns an instance where the test at test/basic-functionality.spec.ts:697-718 expects "Property 'beautiful' of City is set as required, but missing on the JSON." That test catches the error without a failing branch, so it also passes when nothing is thrown. | the metadata carries the annotation's `required` and `ignoreType` flags | not executed | Findings.RequiredFlagLost | Findings.RequiredPropertyEnforced |
| src/annotations/jsonProperty.ts:35-48 | the decorator's options type has only `name`, `type` and `access`, and it stores only those three, so `@JsonProperty({ required: true })` records no `required` flag; fixing the metadata builder alone is not enough, both sites must keep the flags | the same City class: its recorded annotation has no `required`, so reading `{}` succeeds even through the corrected metadata builder | the decorator records `required` and `ignoreType` as given, and the metadata builder passes them on | not executed | Findings.DecoratorFlagLost | Findings.DecoratorKeepsRequired |

=== FILE: annotations.dfy ===
/**
 * The `@JsonProperty` decorator (src/annotations/jsonProperty.ts): the
 * options it is given and the annotation it records on the field.
 */
module Annotations {
  import opened Wrappers
  import opened ReflectionUtils

  /** The argument of `@JsonProperty(...)`: none, a bare JSON name, or an options object. */
  datatype JsonPropertyArg =
    | NoArg
    | NameOnly(jsonName: string)
    | Options(name: Option<string>, typ: Option<TypeDesc>, access: Option<Access>, required: bool, ignoreType: bool)

  /** An absent access option reads as "both directions". */
  function AccessOf(access: Option<Access>): Access {
    access.GetOr(Both)
  }

  /**
   * The annotation the decorator records as written: name, type and access
   * only, so `required` and `ignoreType` are dropped whatever the options say.
   */
  function JsonPropertyAsWritten(arg: JsonPropertyArg): (a: Annotation)
    ensures !a.required && !a.ignoreType
    ensures a.name == JsonProperty(arg).name && a.typ == JsonProperty(arg).typ && a.access == JsonProperty(arg).access
  {
    match arg
    case NoArg => Annotation(None, None, Both, false, false)
    case NameOnly(n) => Annotation(Some(n), None, Both, false, false)
    case Options(n, ty, acc, _, _) => Annotation(n, ty, AccessOf(acc), false, false)
  }

  /**
   * The annotation the decorator is meant to record: every option it is
   * given, with a bare string standing for the JSON name.
   */
  function JsonProperty(arg: JsonPropertyArg): (a: Annotation)
    ensures arg.NoArg? ==> a.name.None? && a.typ.None?
    ensures arg.NameOnly? ==> a.name == Some(arg.jsonName) && a.typ.None?
    ensures arg.Options? ==> a.name == arg.name && a.typ == arg.typ
    ensures arg.Options? ==> a.required == arg.required && a.ignoreType == arg.ignoreType
    ensures !arg.Options? ==> !a.required && !a.ignoreType
    ensures a.access == (if arg.Options? then AccessOf(arg.access) else Both)
  {
    match arg
    case NoArg => Annotation(None, None, Both, false, false)
    case NameOnly(n) => Annotation(Some(n), None, Both, false, false)
    case Options(n, ty, acc, req, ign) => Annotation(n, ty, AccessOf(acc), req, ign)
  }

  /** The two records differ exactly in the flags: without flags set, they agree. */
  lemma AsWrittenAgreesWithoutFlags(arg: JsonPropertyArg)
    ensures JsonPropertyAsWritten(arg) == JsonProperty(arg) <==> !(arg.Options? && (arg.required || arg.ignoreType))
  {
  }
}

=== FILE: array_properties.dfy ===
/**
 * What ArrayTypeAdapter's `_fromJson` and `_toJson`
 * (src/adapters/arrayTypeAdapter.ts) promise about the arrays they build.
 */
module ArrayProperties {
  import opened Wrappers
  import opened Plain
  import opened Errors
  import opened TypeTokens
  import opened TypeAdapter
  import opened Tyson

  /**
   * Every element from i onwards that is null (or, when `undefinedToo`,
   * undefined) became `to`; outs[0] belongs to element i.
   */
  predicate BlanksBecome(items: seq<Value>, i: nat, outs: seq<Value>, undefinedToo: bool, to: Value)
    requires i + |outs| == |items|
  {
    forall k :: i <= k < |items| && (items[k] == Null || (undefinedToo && items[k] == Undefined)) ==> outs[k - i] == to
  }

  /** Element i's result and those after it, put together. */
  lemma BlanksCons(items: seq<Value>, i: nat, o: Value, rest: seq<Value>, undefinedToo: bool, to: Value, acc: seq<Value>)
    requires i < |items| && i + 1 + |rest| == |items|
    requires items[i] == Null || (undefinedToo && items[i] == Undefined) ==> o == to
    requires BlanksBecome(items, i + 1, rest, undefinedToo, to)
    ensures BlanksBecome(items, i, [o] + rest, undefinedToo, to)
    ensures (acc + [o]) + rest == acc + ([o] + rest)
  {
  }

  /**
   * One turn of the `_fromJson` loop: `v` is what element i gives, after
   * looking its adapter up, and the loop stops with its error or goes on.
   */
  lemma ReadElemsStep(t: Tyson, elem: TypeToken, json: Value, i: nat, acc: seq<Value>) returns (v: Step<Value>)
    requires json.Arr? && i < |json.items|
    ensures Extends(t, v.tyson)
    ensures v.result.Ok? && json.items[i] == Null ==> v.result.value == Undefined
    ensures GetAdapter(t, elem).result.Err? ==> v == Step(Err(GetAdapter(t, elem).result.error), GetAdapter(t, elem).tyson)
    ensures GetAdapter(t, elem).result.Ok? ==>
      && v == Read(GetAdapter(t, elem).tyson, GetAdapter(t, elem).result.value, json.items[i])
      && elem.hash in v.tyson.cache && v.tyson.cache[elem.hash] == GetAdapter(t, elem).result.value
    ensures v.result.Err? ==> ReadElems(t, elem, json, i, acc) == Step(Err(v.result.error), v.tyson)
    ensures v.result.Ok? ==> ReadElems(t, elem, json, i, acc) == ReadElems(v.tyson, elem, json, i + 1, acc + [v.result.value])
  {
    var s := GetAdapter(t, elem);
    if s.result.Err? {
      v := Step(Err(s.result.error), s.tyson);
    } else {
      v := Read(s.tyson, s.result.value, json.items[i]);
    }
  }

  /**
   * One turn of the `_toJson` loop: `w` is what element i gives, after
   * looking its adapter up, and the loop stops with its error or goes on.
   */
  lemma WriteElemsStep(t: Tyson, elem: TypeToken, src: Value, i: nat, acc: seq<Value>) returns (w: Step<Value>)
    requires src.Arr? && i < |src.items|
    ensures Extends(t, w.tyson)
    ensures GetAdapter(t, elem).result.Err? ==> w == Step(Err(GetAdapter(t, elem).result.error), GetAdapter(t, elem).tyson)
    ensures GetAdapter(t, elem).result.Ok? ==>
      && w == Write(GetAdapter(t, elem).tyson, GetAdapter(t, elem).result.value, src.items[i])
      && elem.hash in w.tyson.cache && w.tyson.cache[elem.hash] == GetAdapter(t, elem).result.value
    ensures w.result.Ok? && (src.items[i] == Null || src.items[i] == Undefined) ==> w.result.value == Null
    ensures w.result.Err? ==> WriteElems(t, elem, src, i, acc) == Step(Err(w.result.error), w.tyson)
    ensures w.result.Ok? ==> WriteElems(t, elem, src, i, acc) == WriteElems(w.tyson, elem, src, i + 1, acc + [w.result.value])
  {
    var s := GetAdapter(t, elem);
    if s.result.Err? {
      w := Step(Err(s.result.error), s.tyson);
    } else {
      w := Write(s.tyson, s.result.value, src.items[i]);
    }
  }

  /**
   * A successful `_fromJson` appends one value per element to the ones
   * already built, a null element giving undefined.
   */
  lemma {:induction false} ReadElemsAssembles(t: Tyson, elem: TypeToken, json: Value, i: nat, acc: seq<Value>) returns (outs: seq<Value>)
    requires json.Arr? && i <= |json.items|
    ensures var r := ReadElems(t, elem, json, i, acc);
      r.result.Ok? ==>
        && i + |outs| == |json.items|
        && r.result.value == Arr(acc + outs)
        && BlanksBecome(json.items, i, outs, false, Undefined)
    decreases |json.items| - i
  {
    if i == |json.items| {
      outs := [];
      assert acc + outs == acc;
    } else {
      var v := ReadElemsStep(t, elem, json, i, acc);
      if v.result.Err? {
        outs := [];
      } else {
        var rest := ReadElemsAssembles(v.tyson, elem, json, i + 1, acc + [v.result.value]);
        outs := [v.result.value] + rest;
        if ReadElems(v.tyson, elem, json, i + 1, acc + [v.result.value]).result.Ok? {
          BlanksCons(json.items, i, v.result.value, rest, false, Undefined, acc);
        }
      }
    }
  }

  /**
   * A successful `_toJson` appends one value per element to the ones
   * already built, a null or undefined element giving null.
   */
  lemma {:induction false} WriteElemsAssembles(t: Tyson, elem: TypeToken, src: Value, i: nat, acc: seq<Value>) returns (outs: seq<Value>)
    requires src.Arr? && i <= |src.items|
    ensures var r := WriteElems(t, elem, src, i, acc);
      r.result.Ok? ==>
        && i + |outs| == |src.items|
        && r.result.value == Arr(acc + outs)
        && BlanksBecome(src.items, i, outs, true, Null)
    decreases |src.items| - i
  {
    if i == |src.items| {
      outs := [];
      assert acc + outs == acc;
    } else {
      var w := WriteElemsStep(t, elem, src, i, acc);
      if w.result.Err? {
        outs := [];
      } else {
        var rest := WriteElemsAssembles(w.tyson, elem, src, i + 1, acc + [w.result.value]);
        outs := [w.result.value] + rest;
        if WriteElems(w.tyson, elem, src, i + 1, acc + [w.result.value]).result.Ok? {
          BlanksCons(src.items, i, w.result.value, rest, true, Null, acc);
        }
      }
    }
  }

  /**
   * A successful `_fromJson` keeps every element, in order, after the ones
   * already built; a null element becomes undefined.
   */
  lemma ReadElemsKeepsOrder(t: Tyson, elem: TypeToken, json: Value, i: nat, acc: seq<Value>)
    requires json.Arr? && i <= |json.items|
    ensures var r := ReadElems(t, elem, json, i, acc);
      r.result.Ok? ==> (
        && r.result.value.items[..|acc|] == acc
        && forall k :: i <= k < |json.items| && json.items[k] == Null ==> r.result.value.items[|acc| + k - i] == Undefined)
  {
    var outs := ReadElemsAssembles(t, elem, json, i, acc);
    if ReadElems(t, elem, json, i, acc).result.Ok? {
      assert (acc + outs)[..|acc|] == acc;
    }
  }

  /**
   * A successful `_toJson` keeps every element, in order, after the ones
   * already built; unlike object properties, a null or undefined element is
   * not dropped but becomes null.
   */
  lemma WriteElemsKeepsOrder(t: Tyson, elem: TypeToken, src: Value, i: nat, acc: seq<Value>)
    requires src.Arr? && i <= |src.items|
    ensures var r := WriteElems(t, elem, src, i, acc);
      r.result.Ok? ==> (
        && r.result.value.items[..|acc|] == acc
        && forall k :: i <= k < |src.items| && (src.items[k] == Null || src.items[k] == Undefined) ==>
             r.result.value.items[|acc| + k - i] == Null)
  {
    var outs := WriteElemsAssembles(t, elem, src, i, acc);
    if WriteElems(t, elem, src, i, acc).result.Ok? {
      assert (acc + outs)[..|acc|] == acc;
    }
  }

  /** Reading elements i onwards with one fixed adapter. */
  function ReadWith(t: Tyson, a: Adapter, json: Value, i: nat, acc: seq<Value>): Step<Value>
    requires json.Arr? && i <= |json.items|
    decreases |json.items| - i
  {
    if i == |json.items| then Step(Ok(Arr(acc)), t)
    else
      var v := Read(t, a, json.items[i]);
      match v.result
      case Err(e) => Step(Err(e), v.tyson)
      case Ok(x) => ReadWith(v.tyson, a, json, i + 1, acc + [x])
  }

  /** Writing elements i onwards with one fixed adapter. */
  function WriteWith(t: Tyson, a: Adapter, src: Value, i: nat, acc: seq<Value>): Step<Value>
    requires src.Arr? && i <= |src.items|
    decreases |src.items| - i
  {
    if i == |src.items| then Step(Ok(Arr(acc)), t)
    else
      var w := Write(t, a, src.items[i]);
      match w.result
      case Err(e) => Step(Err(e), w.tyson)
      case Ok(x) => WriteWith(w.tyson, a, src, i + 1, acc + [x])
  }

  /**
   * The array adapter looks its element adapter up again for every element,
   * but once the element token is cached every element is converted by that
   * one adapter: the same as converting each with a fixed adapter.
   */
  lemma {:induction false} ElementAdapterFixed(t: Tyson, elem: TypeToken, json: Value, i: nat, acc: seq<Value>)
    requires json.Arr? && i <= |json.items| && elem.hash in t.cache
    ensures ReadElems(t, elem, json, i, acc) == ReadWith(t, t.cache[elem.hash], json, i, acc)
    ensures WriteElems(t, elem, json, i, acc) == WriteWith(t, t.cache[elem.hash], json, i, acc)
    decreases |json.items| - i
  {
    if i < |json.items| {
      var a := t.cache[elem.hash];
      var v := Read(t, a, json.items[i]);
      if v.result.Ok? {
        ElementAdapterFixed(v.tyson, elem, json, i + 1, acc + [v.result.value]);
      }
      var w := Write(t, a, json.items[i]);
      if w.result.Ok? {
        ElementAdapterFixed(w.tyson, elem, json, i + 1, acc + [w.result.value]);
      }
    }
  }

  /**
   * Whether or not the element token is cached yet, a non-empty array whose
   * element lookup succeeds is converted element by element with the one
   * adapter that lookup gives, in the registry the lookup leaves.
   */
  lemma ElementAdapterResolved(t: Tyson, elem: TypeToken, json: Value, i: nat, acc: seq<Value>)
    requires json.Arr? && i < |json.items| && GetAdapter(t, elem).result.Ok?
    ensures var s := GetAdapter(t, elem);
      && ReadElems(t, elem, json, i, acc) == ReadWith(s.tyson, s.result.value, json, i, acc)
      && WriteElems(t, elem, json, i, acc) == WriteWith(s.tyson, s.result.value, json, i, acc)
  {
    var v := ReadElemsStep(t, elem, json, i, acc);
    if v.result.Ok? {
      ElementAdapterFixed(v.tyson, elem, json, i + 1, acc + [v.result.value]);
    }
    var w := WriteElemsStep(t, elem, json, i, acc);
    if w.result.Ok? {
      ElementAdapterFixed(w.tyson, elem, json, i + 1, acc + [w.result.value]);
    }
  }

  /**
   * A non-empty array whose element shape no factory handles fails with the
   * registry's lookup error; an empty one converts to an empty array without
   * any lookup.
   */
  lemma ElementLookupFailure(t: Tyson, elem: TypeToken, json: Value)
    requires json.Arr?
    ensures |json.items| == 0 ==> ReadElems(t, elem, json, 0, []) == Step(Ok(Arr([])), t)
    ensures |json.items| > 0 && GetAdapter(t, elem).result.Err? ==>
      ReadElems(t, elem, json, 0, []).result == Err(GetAdapter(t, elem).result.error)
      && WriteElems(t, elem, json, 0, []).result == Err(GetAdapter(t, elem).result.error)
  {
  }
}

=== FILE: array_type_adapter.dfy ===
/**
 * The factory of ArrayTypeAdapter (src/adapters/arrayTypeAdapter.ts). Its
 * `_fromJson` and `_toJson` are in the Tyson module.
 */
module ArrayTypeAdapter {
  import opened Wrappers
  import opened Errors
  import opened ReflectionUtils
  import opened TypeTokens
  import opened TypeAdapter

  /**
   * FACTORY: only a one-element shape `[T]` is claimed, with an adapter
   * holding the token of T; classes and tuples of other lengths are not.
   */
  function Claim(tok: TypeToken): (r: Result<Option<Adapter>, Error>)
    ensures r.Ok? && r.value.Some? <==> tok.typ.List? && |tok.typ.elems| == 1 && Token(tok.typ.elems[0]).Ok?
    ensures r.Ok? && r.value.Some? ==> r.value.value == ArrayA(Token(tok.typ.elems[0]).value)
    ensures r.Err? ==> tok.typ == List([List([])]) && r.error == NO_ELEMENT_ZERO
  {
    if tok.typ.List? && |tok.typ.elems| == 1 then
      match Token(tok.typ.elems[0])
      case Err(e) => Err(e)
      case Ok(nested) => Ok(Some(ArrayA(nested)))
    else Ok(None)
  }
}

=== FILE: entry_points.dfy ===
/**
 * The public entry points `fromJson` and `toJson` (src/tyson.ts) in terms
 * of each other and of explicitly typed calls.
 */
module EntryPoints {
  import opened Wrappers
  import opened Plain
  import opened Errors
  import opened ReflectionUtils
  import opened TypeTokens
  import opened TypeAdapter
  import opened Tyson

  /**
   * The guard every adapter's public `fromJson`/`toJson` applies: JSON null
   * reads as undefined and null or undefined writes as null whatever the
   * adapter, so its own conversion is never run; any other value gets
   * exactly the adapter's own conversion.
   */
  lemma NullGuard(t: Tyson, a: Adapter, b: Adapter, v: Value)
    ensures Read(t, a, Null) == Read(t, b, Null) == Step(Ok(Undefined), t)
    ensures Write(t, a, Null) == Write(t, b, Undefined) == Step(Ok(Null), t)
    ensures v != Null ==> Read(t, a, v) == ReadInner(t, a, v)
    ensures v != Null && v != Undefined ==> Write(t, a, v) == WriteInner(t, a, v)
  {
  }

  /**
   * `toJson` without a type converts by the value's constructor, exactly as
   * if that class had been passed; null and undefined have no constructor
   * and fail with a TypeError without consulting the registry.
   */
  lemma ToJsonInfersConstructor(t: Tyson, src: Value)
    ensures src != Null && src != Undefined ==> ToJson(t, src, None) == ToJson(t, src, ConstructorOf(src))
    ensures src == Null || src == Undefined ==>
      && ToJson(t, src, None).tyson == t
      && ToJson(t, src, None).result.Err? && ToJson(t, src, None).result.error.TypeError?
  {
  }

  /**
   * `fromJson` of a JSON array with a class asks for an array of that
   * class, and with an explicit array shape uses it as it is.
   */
  lemma FromJsonWrapsArrays(t: Tyson, items: seq<Value>, c: string, es: seq<TypeDesc>)
    ensures FromJson(t, Arr(items), Class(c)) == FromJson(t, Arr(items), List([Class(c)]))
    ensures RequestedShape(Arr(items), List(es)) == List(es)
  {
  }

  /**
   * Once the requested shape resolves, a JSON null reads as undefined and a
   * null or undefined source writes as JSON null, whatever the adapter.
   */
  lemma NullsThroughEntryPoints(t: Tyson, d: TypeDesc)
    requires Token(d).Ok? && GetAdapter(t, Token(d).value).result.Ok?
    ensures FromJson(t, Null, d).result == Ok(Undefined)
    ensures ToJson(t, Null, Some(d)).result == Ok(Null)
    ensures ToJson(t, Undefined, Some(d)).result == Ok(Null)
  {
  }

  /**
   * A shape no factory handles makes both entry points fail with the
   * registry's lookup error, and leaves the registry as it was.
   */
  lemma UnresolvedShapeFails(t: Tyson, d: TypeDesc, json: Value)
    requires !json.Arr? && Token(d).Ok? && GetAdapter(t, Token(d).value).result.Err?
    ensures FromJson(t, json, d) == Step(Err(GetAdapter(t, Token(d).value).result.error), t)
    ensures ToJson(t, json, Some(d)) == Step(Err(GetAdapter(t, Token(d).value).result.error), t)
  {
  }
}

=== FILE: errors.dfy ===
/** The errors a conversion can throw. */
module Errors {
  import opened Wrappers
  import opened Plain

  datatype Error =
    /** A `DeserializationError`, carrying its message and optionally the offending JSON. */
    | Deserialization(message: string, json: Option<Value>)
    /** A plain `Error`, as the registry throws for a shape no factory claims. */
    | Failure(message: string)
    /** A JavaScript `TypeError`; its message text is engine-defined and only indicative here. */
    | TypeError(message: string)
}

=== FILE: findings.dfy ===
/**
 * `getJsonPropertyMetadata` (src/reflect/reflectionUtils.ts) builds the
 * metadata from the annotation's name, type and access only, so a
 * property's `required` and `ignoreType` flags never reach the object
 * adapter. The lemmas here exhibit what that loses, on the
 * required-property case the library's own test describes, and show the
 * corrected metadata the rest of the model uses.
 */
module Findings {
  import opened Wrappers
  import opened Plain
  import opened Errors
  import opened ReflectionUtils
  import opened TypeAdapter
  import opened Tyson
  import opened ObjectTypeAdapter
  import ObjectProperties
  import RegistryProperties
  import Annotations

  /** The options `{ required: true }` of the library's required-property test. */
  function RequiredOption(): Annotations.JsonPropertyArg {
    Annotations.Options(None, None, None, true, false)
  }

  /** City's field as the decorator as written records it: the required option is gone. */
  function CityAsDecorated(): ClassDecl {
    ClassDecl([FieldDecl("beautiful", Undefined, Class(BOOLEAN_TYPE), Some(Annotations.JsonPropertyAsWritten(RequiredOption())))])
  }

  /** A class with one boolean field annotated as required. */
  function City(): ClassDecl {
    ClassDecl([FieldDecl("beautiful", Undefined, Class(BOOLEAN_TYPE), Some(Annotation(None, None, Both, true, false)))])
  }

  /**
   * With the metadata as written, reading `{}` into City succeeds and leaves
   * the required field at its default: the required flag is lost. With the
   * corrected metadata the same read fails naming the property.
   */
  lemma RequiredFlagLost(t: Tyson)
    ensures var fields := City().fields;
      var obj := FreshFields(fields);
      && ReadProps(t, "City", LoadMetadataAsWritten(fields), 0, Obj(map[]), obj).result == Ok(Inst("City", map["beautiful" := Undefined]))
      && ReadProps(t, "City", LoadMetadata(fields), 0, Obj(map[]), obj).result
         == Err(Deserialization(RequiredMessage("beautiful", "City"), None))
  {
    var fields := City().fields;
    var obj := FreshFields(fields);
    var asWritten := LoadMetadataAsWritten(fields);
    var corrected := LoadMetadata(fields);
    assert asWritten == [Prop("beautiful", PropMeta(None, Class(BOOLEAN_TYPE), Both, false, false))];
    assert corrected == [Prop("beautiful", PropMeta(None, Class(BOOLEAN_TYPE), Both, true, false))];
    assert obj == map["beautiful" := Undefined];
    ObjectProperties.ReadPropsAllMissing(t, "City", asWritten, 0, Obj(map[]), obj);
    ObjectProperties.ReadPropsAllMissing(t, "City", corrected, 0, Obj(map[]), obj);
    var _ := ObjectProperties.ReadPropsFirstMissing(t, "City", corrected, 0, Obj(map[]), obj);
    assert ObjectProperties.FirstRequired(corrected, 0, 0);
  }

  /**
   * The corrected metadata keeps every flag of the annotation, so through
   * the registry's own object adapter, `fromJson({}, City)` fails with the
   * required-property message.
   */
  lemma RequiredPropertyEnforced(date: Codec)
    ensures var classes := map["City" := City()];
      FromJson(New(None, classes, date), Obj(map[]), Class("City")).result
      == Err(Deserialization(RequiredMessage("beautiful", "City"), None))
  {
    var classes := map["City" := City()];
    var t := New(None, classes, date);
    var tok := TypeTokens.Token(Class("City")).value;
    var corrected := LoadMetadata(City().fields);
    var obj := FreshFields(City().fields);
    CityFromJson(date);
    var s := GetAdapter(t, tok);
    ObjectProperties.ReadPropsAllMissing(s.tyson, "City", corrected, 0, Obj(map[]), obj);
    var _ := ObjectProperties.ReadPropsFirstMissing(s.tyson, "City", corrected, 0, Obj(map[]), obj);
    assert ObjectProperties.FirstRequired(corrected, 0, 0);
  }

  /** `fromJson({}, City)` through the default chain runs the object adapter's `_fromJson` with City's corrected metadata. */
  lemma CityFromJson(date: Codec)
    ensures var t := New(None, map["City" := City()], date);
      var s := GetAdapter(t, TypeTokens.Token(Class("City")).value);
      && LoadMetadata(City().fields) == [Prop("beautiful", PropMeta(None, Class(BOOLEAN_TYPE), Both, true, false))]
      && FromJson(t, Obj(map[]), Class("City"))
         == ReadProps(s.tyson, "City", LoadMetadata(City().fields), 0, Obj(map[]), FreshFields(City().fields))
  {
    var classes := map["City" := City()];
    var t := New(None, classes, date);
    var tok := TypeTokens.Token(Class("City")).value;
    var corrected := LoadMetadata(City().fields);
    CityResolves(classes, date, tok);
    var s := GetAdapter(t, tok);
    assert DeclOf(s.tyson.classes, "City") == City();
    assert FromJson(t, Obj(map[]), Class("City")) == Read(s.tyson, ObjectA("City", corrected), Obj(map[]));
  }

  /** The default chain gives City the object adapter with the corrected metadata. */
  lemma CityResolves(classes: map<string, ClassDecl>, date: Codec, tok: TypeTokens.TypeToken)
    requires classes == map["City" := City()] && tok == TypeTokens.Token(Class("City")).value
    ensures GetAdapter(New(None, classes, date), tok).result == Ok(ObjectA("City", LoadMetadata(City().fields)))
    ensures LoadMetadata(City().fields) == [Prop("beautiful", PropMeta(None, Class(BOOLEAN_TYPE), Both, true, false))]
  {
    assert !RegistryProperties.IsBuiltInClassName("City") by {
      assert "City"[0] == 'C';
    }
    RegistryProperties.BuiltInChainResolves(classes, date, tok);
  }

  /**
   * The decorator as written drops `required` before the metadata is even
   * built: even the corrected metadata of the field it records makes
   * reading `{}` succeed, leaving the field at its default.
   */
  lemma DecoratorFlagLost(t: Tyson)
    ensures var fields := CityAsDecorated().fields;
      ReadProps(t, "City", LoadMetadata(fields), 0, Obj(map[]), FreshFields(fields)).result
      == Ok(Inst("City", map["beautiful" := Undefined]))
  {
    var fields := CityAsDecorated().fields;
    var props := LoadMetadata(fields);
    assert props == [Prop("beautiful", PropMeta(None, Class(BOOLEAN_TYPE), Both, false, false))];
    assert FreshFields(fields) == map["beautiful" := Undefined];
    ObjectProperties.ReadPropsAllMissing(t, "City", props, 0, Obj(map[]), FreshFields(fields));
  }

  /**
   * The corrected decorator records `{ required: true }` as City's
   * annotation, so with the corrected metadata `fromJson({}, City)` fails
   * with the required-property message.
   */
  lemma DecoratorKeepsRequired(date: Codec)
    ensures City().fields[0].annotation == Some(Annotations.JsonProperty(RequiredOption()))
    ensures FromJson(New(None, map["City" := City()], date), Obj(map[]), Class("City")).result
         == Err(Deserialization(RequiredMessage("beautiful", "City"), None))
  {
    RequiredPropertyEnforced(date);
  }
}

=== FILE: object_properties.dfy ===
/**
 * What ObjectTypeAdapter's `_fromJson` and `_toJson`
 * (src/adapters/objectTypeAdapter.ts) promise about the whole instance and
 * the whole JSON object they build.
 */
module ObjectProperties {
  import opened Wrappers
  import opened Plain
  import opened Errors
  import opened ReflectionUtils
  import opened TypeTokens
  import opened TypeAdapter
  import opened Tyson
  import opened ObjectTypeAdapter

  /** No property from i onwards is read into field k. */
  predicate Untouched(props: seq<Prop>, i: nat, json: Value, k: string) {
    forall j :: i <= j < |props| && props[j].key == k ==> !Readable(json, props[j])
  }

  /** No property after j has the same field key. */
  predicate LastWithKey(props: seq<Prop>, j: nat) {
    forall j' :: j < j' < |props| ==> props[j'].key != props[j].key
  }

  /** No property after j has the same JSON key. */
  predicate LastWithJsonKey(props: seq<Prop>, j: nat) {
    forall j' :: j < j' < |props| ==> JsonKey(props[j']) != JsonKey(props[j])
  }

  /**
   * What one property contributes to `_fromJson`: a value exactly when it is
   * readable, the raw JSON value under `ignoreType` and undefined for a
   * converted null; and a required property was present.
   */
  predicate ReadFits(json: Value, p: Prop, o: Option<Value>) {
    && (o.Some? <==> Readable(json, p))
    && (p.meta.required ==> HasOwn(json, JsonKey(p)))
    && (o.Some? && p.meta.ignoreType ==> o.value == json.fields[JsonKey(p)])
    && (o.Some? && !p.meta.ignoreType && json.fields[JsonKey(p)] == Null ==> o.value == Undefined)
  }

  /**
   * What one property contributes to `_toJson`: a value only when it is
   * writable; with nulls serialized always one, without them never null;
   * an `ignoreType` property's own value, and null for a converted null or
   * undefined.
   */
  predicate WriteFits(nulls: bool, src: Value, p: Prop, o: Option<Value>) {
    && (o.Some? ==> Writable(src, p))
    && (o.Some? && !nulls ==> o.value != Null)
    && (Writable(src, p) && nulls ==> o.Some?)
    && (Writable(src, p) && p.meta.ignoreType && (nulls || src.fields[p.key] != Null) ==> o == Some(src.fields[p.key]))
    && (Writable(src, p) && !p.meta.ignoreType && (src.fields[p.key] == Null || src.fields[p.key] == Undefined) ==>
          o == (if nulls then Some(Null) else None))
  }

  /** Every property from i onwards fits its value in outs (outs[0] belongs to property i). */
  predicate AllReadFit(json: Value, props: seq<Prop>, i: nat, outs: seq<Option<Value>>)
    requires i + |outs| == |props|
  {
    forall j :: i <= j < |props| ==> ReadFits(json, props[j], outs[j - i])
  }

  /** Every property from i onwards fits its value in outs (outs[0] belongs to property i). */
  predicate AllWriteFit(nulls: bool, src: Value, props: seq<Prop>, i: nat, outs: seq<Option<Value>>)
    requires i + |outs| == |props|
  {
    forall j :: i <= j < |props| ==> WriteFits(nulls, src, props[j], outs[j - i])
  }

  /**
   * A DeserializationError that names property p of class cls: it is
   * required and missing, or its value did not convert and the error
   * carries the whole JSON object.
   */
  predicate NamesProperty(e: Error, cls: string, p: Prop, json: Value) {
    || e == Deserialization(RequiredMessage(p.key, cls), None)
    || e == Deserialization(MismatchMessage(p.key, cls, JsonKey(p)), Some(json))
  }

  /** The map after storing a value under k, when there is one. */
  function Store(m: map<string, Value>, k: string, o: Option<Value>): map<string, Value> {
    if o.Some? then m[k := o.value] else m
  }

  /** The fields after storing outs[j - i], when present, under the key of property j, for j from i on. */
  function Fill(props: seq<Prop>, i: nat, outs: seq<Option<Value>>, obj: map<string, Value>): map<string, Value>
    requires i + |outs| == |props|
    decreases |outs|
  {
    if |outs| == 0 then obj
    else Fill(props, i + 1, outs[1..], Store(obj, props[i].key, outs[0]))
  }

  /** The JSON object after storing outs[j - i], when present, under the JSON key of property j, for j from i on. */
  function Emit(props: seq<Prop>, i: nat, outs: seq<Option<Value>>, out: map<string, Value>): map<string, Value>
    requires i + |outs| == |props|
    decreases |outs|
  {
    if |outs| == 0 then out
    else Emit(props, i + 1, outs[1..], Store(out, JsonKey(props[i]), outs[0]))
  }

  /**
   * One iteration of `_fromJson`: a value it gives fits the property, and a
   * DeserializationError it throws names the property.
   */
  lemma ReadPropFits(t: Tyson, cls: string, p: Prop, json: Value)
    requires json != Null
    ensures var r := ReadProp(t, cls, p, json);
      && (r.result.Ok? ==> json != Undefined && ReadFits(json, p, r.result.value))
      && (r.result.Err? && r.result.error.Deserialization? ==> NamesProperty(r.result.error, cls, p, json))
    ensures var r := ReadProp(t, cls, p, json);
      json != Undefined && Token(p.meta.typ).Ok? && Readable(json, p) && !p.meta.ignoreType ==>
        var v := ReadAs(t, Token(p.meta.typ).value, json.fields[JsonKey(p)]);
        && r.tyson == v.tyson
        && (v.result.Ok? ==> r.result == Ok(Some(v.result.value)))
        && (v.result.Err? ==> r.result == Err(Rewrap(v.result.error, p.key, cls, JsonKey(p), json)))
  {
    var jsonKey := JsonKey(p);
    if json != Undefined && Token(p.meta.typ).Ok? && Readable(json, p) && !p.meta.ignoreType {
      var v := ReadAs(t, Token(p.meta.typ).value, json.fields[jsonKey]);
      assert ReadProp(t, cls, p, json).result
          == if v.result.Ok? then Ok(Some(v.result.value)) else Err(Rewrap(v.result.error, p.key, cls, jsonKey, json));
    }
  }

  /** One iteration of `_toJson`: a value it gives fits the property. */
  lemma WritePropFits(t: Tyson, p: Prop, src: Value)
    ensures var r := WriteProp(t, p, src);
      r.result.Ok? ==> WriteFits(t.serializeNulls, src, p, r.result.value)
    ensures var r := WriteProp(t, p, src);
      Writable(src, p) && Token(p.meta.typ).Ok? && !p.meta.ignoreType ==>
        var w := WriteAs(t, Token(p.meta.typ).value, src.fields[p.key]);
        && r.tyson == w.tyson
        && (w.result.Err? ==> r.result == Err(w.result.error))
        && (w.result.Ok? && (w.result.value != Null || t.serializeNulls) ==> r.result == Ok(Some(w.result.value)))
        && (w.result.Ok? && w.result.value == Null && !t.serializeNulls ==> r.result == Ok(None))
  {
  }

  /**
   * One turn of the `_fromJson` loop: `s` is what property i gives, and the
   * loop stops with its error or goes on from there.
   */
  lemma ReadPropsStep(t: Tyson, cls: string, props: seq<Prop>, i: nat, json: Value, obj: map<string, Value>)
      returns (s: Step<Option<Value>>)
    requires i < |props| && json != Null
    ensures Extends(t, s.tyson)
    ensures s.result.Ok? ==> ReadFits(json, props[i], s.result.value)
    ensures s.result.Err? && s.result.error.Deserialization? ==> NamesProperty(s.result.error, cls, props[i], json)
    ensures s.result.Err? ==> ReadProps(t, cls, props, i, json, obj) == Step(Err(s.result.error), s.tyson)
    ensures s.result.Ok? ==>
      ReadProps(t, cls, props, i, json, obj)
      == ReadProps(s.tyson, cls, props, i + 1, json, Store(obj, props[i].key, s.result.value))
  {
    s := ReadProp(t, cls, props[i], json);
    ReadPropFits(t, cls, props[i], json);
  }

  /**
   * One turn of the `_toJson` loop: `s` is what property i gives, and the
   * loop stops with its error or goes on from there.
   */
  lemma WritePropsStep(t: Tyson, props: seq<Prop>, i: nat, src: Value, out: map<string, Value>)
      returns (s: Step<Option<Value>>)
    requires i < |props|
    ensures Extends(t, s.tyson)
    ensures s.result.Ok? ==> WriteFits(t.serializeNulls, src, props[i], s.result.value)
    ensures s.result.Err? ==> WriteProps(t, props, i, src, out) == Step(Err(s.result.error), s.tyson)
    ensures s.result.Ok? ==>
      WriteProps(t, props, i, src, out)
      == WriteProps(s.tyson, props, i + 1, src, Store(out, JsonKey(props[i]), s.result.value))
  {
    s := WriteProp(t, props[i], src);
    WritePropFits(t, props[i], src);
  }

  /** Fill has the keys it started with plus those of the properties given a value. */
  lemma {:induction false} FillKeys(props: seq<Prop>, i: nat, outs: seq<Option<Value>>, obj: map<string, Value>)
    requires i + |outs| == |props|
    ensures forall k :: k in obj ==> k in Fill(props, i, outs, obj)
    ensures forall j :: i <= j < |props| && outs[j - i].Some? ==> props[j].key in Fill(props, i, outs, obj)
    ensures forall k :: k in Fill(props, i, outs, obj) ==> k in obj || exists j :: i <= j < |props| && props[j].key == k && outs[j - i].Some?
    decreases |outs|
  {
    if |outs| > 0 {
      var obj' := Store(obj, props[i].key, outs[0]);
      FillKeys(props, i + 1, outs[1..], obj');
      forall j | i + 1 <= j < |props| && outs[j - i].Some? ensures props[j].key in Fill(props, i, outs, obj) {
        assert outs[1..][j - (i + 1)] == outs[j - i];
      }
      forall k | k in Fill(props, i, outs, obj) && k !in obj
        ensures exists j :: i <= j < |props| && props[j].key == k && outs[j - i].Some?
      {
        if k in obj' {
          assert props[i].key == k && outs[i - i].Some?;
        } else {
          var j :| i + 1 <= j < |props| && props[j].key == k && outs[1..][j - (i + 1)].Some?;
          assert outs[1..][j - (i + 1)] == outs[j - i];
        }
      }
    }
  }

  /** A key of Fill's start that no property from i onwards gives a value keeps its value. */
  lemma {:induction false} FillKeeps(props: seq<Prop>, i: nat, outs: seq<Option<Value>>, obj: map<string, Value>, k: string)
    requires i + |outs| == |props|
    requires k in obj && forall j :: i <= j < |props| && props[j].key == k ==> outs[j - i].None?
    ensures k in Fill(props, i, outs, obj) && Fill(props, i, outs, obj)[k] == obj[k]
    decreases |outs|
  {
    if |outs| > 0 {
      var obj' := Store(obj, props[i].key, outs[0]);
      forall j | i + 1 <= j < |props| && props[j].key == k ensures outs[1..][j - (i + 1)].None? {
        assert outs[1..][j - (i + 1)] == outs[j - i];
      }
      FillKeeps(props, i + 1, outs[1..], obj', k);
    }
  }

  /** The last property with a given key that is given a value fixes that key in Fill. */
  lemma {:induction false} FillLast(props: seq<Prop>, i: nat, outs: seq<Option<Value>>, obj: map<string, Value>, j: nat)
    requires i + |outs| == |props|
    requires i <= j < |props| && outs[j - i].Some? && LastWithKey(props, j)
    ensures props[j].key in Fill(props, i, outs, obj) && Fill(props, i, outs, obj)[props[j].key] == outs[j - i].value
    decreases |outs|
  {
    var obj' := Store(obj, props[i].key, outs[0]);
    if j == i {
      assert forall j' :: i + 1 <= j' < |props| ==> props[j'].key != props[i].key;
      FillKeeps(props, i + 1, outs[1..], obj', props[i].key);
    } else {
      assert outs[1..][j - (i + 1)] == outs[j - i];
      FillLast(props, i + 1, outs[1..], obj', j);
    }
  }

  /** Emit has the keys it started with plus those of the properties given a value. */
  lemma {:induction false} EmitKeys(props: seq<Prop>, i: nat, outs: seq<Option<Value>>, out: map<string, Value>)
    requires i + |outs| == |props|
    ensures forall k :: k in out ==> k in Emit(props, i, outs, out)
    ensures forall j :: i <= j < |props| && outs[j - i].Some? ==> JsonKey(props[j]) in Emit(props, i, outs, out)
    ensures forall k :: k in Emit(props, i, outs, out) ==> k in out || exists j :: i <= j < |props| && JsonKey(props[j]) == k && outs[j - i].Some?
    decreases |outs|
  {
    if |outs| > 0 {
      var out' := Store(out, JsonKey(props[i]), outs[0]);
      EmitKeys(props, i + 1, outs[1..], out');
      forall j | i + 1 <= j < |props| && outs[j - i].Some? ensures JsonKey(props[j]) in Emit(props, i, outs, out) {
        assert outs[1..][j - (i + 1)] == outs[j - i];
      }
      forall k | k in Emit(props, i, outs, out) && k !in out
        ensures exists j :: i <= j < |props| && JsonKey(props[j]) == k && outs[j - i].Some?
      {
        if k in out' {
          assert JsonKey(props[i]) == k && outs[i - i].Some?;
        } else {
          var j :| i + 1 <= j < |props| && JsonKey(props[j]) == k && outs[1..][j - (i + 1)].Some?;
          assert outs[1..][j - (i + 1)] == outs[j - i];
        }
      }
    }
  }

  /** A key of Emit's start that no property from i onwards writes keeps its value. */
  lemma {:induction false} EmitKeeps(props: seq<Prop>, i: nat, outs: seq<Option<Value>>, out: map<string, Value>, k: string)
    requires i + |outs| == |props|
    requires k in out && forall j :: i <= j < |props| && JsonKey(props[j]) == k ==> outs[j - i].None?
    ensures k in Emit(props, i, outs, out) && Emit(props, i, outs, out)[k] == out[k]
    decreases |outs|
  {
    if |outs| > 0 {
      var out' := Store(out, JsonKey(props[i]), outs[0]);
      forall j | i + 1 <= j < |props| && JsonKey(props[j]) == k ensures outs[1..][j - (i + 1)].None? {
        assert outs[1..][j - (i + 1)] == outs[j - i];
      }
      EmitKeeps(props, i + 1, outs[1..], out', k);
    }
  }

  /** The last property with a given JSON key that is given a value fixes that key in Emit. */
  lemma {:induction false} EmitLast(props: seq<Prop>, i: nat, outs: seq<Option<Value>>, out: map<string, Value>, j: nat)
    requires i + |outs| == |props|
    requires i <= j < |props| && outs[j - i].Some? && LastWithJsonKey(props, j)
    ensures JsonKey(props[j]) in Emit(props, i, outs, out) && Emit(props, i, outs, out)[JsonKey(props[j])] == outs[j - i].value
    decreases |outs|
  {
    var out' := Store(out, JsonKey(props[i]), outs[0]);
    if j == i {
      assert forall j' :: i + 1 <= j' < |props| ==> JsonKey(props[j']) != JsonKey(props[i]);
      EmitKeeps(props, i + 1, outs[1..], out', JsonKey(props[i]));
    } else {
      assert outs[1..][j - (i + 1)] == outs[j - i];
      EmitLast(props, i + 1, outs[1..], out', j);
    }
  }

  /** Emit puts no null into an object without one when no value given is null. */
  lemma {:induction false} EmitNoNull(props: seq<Prop>, i: nat, outs: seq<Option<Value>>, out: map<string, Value>)
    requires i + |outs| == |props|
    requires forall k :: k in out ==> out[k] != Null
    requires forall o :: o in outs && o.Some? ==> o.value != Null
    ensures forall k :: k in Emit(props, i, outs, out) ==> Emit(props, i, outs, out)[k] != Null
    decreases |outs|
  {
    if |outs| > 0 {
      var out' := Store(out, JsonKey(props[i]), outs[0]);
      assert forall o :: o in outs[1..] ==> o in outs;
      EmitNoNull(props, i + 1, outs[1..], out');
    }
  }

  /**
   * With values that fit the properties, Fill's keys are those it started
   * with plus those of the readable properties.
   */
  lemma FillFields(props: seq<Prop>, i: nat, outs: seq<Option<Value>>, obj: map<string, Value>, json: Value)
    requires i + |outs| == |props|
    requires AllReadFit(json, props, i, outs)
    ensures forall k :: k in Fill(props, i, outs, obj) <==> k in obj || exists j :: i <= j < |props| && props[j].key == k && Readable(json, props[j])
  {
    FillKeys(props, i, outs, obj);
    forall k | k in Fill(props, i, outs, obj) && k !in obj
      ensures exists j :: i <= j < |props| && props[j].key == k && Readable(json, props[j])
    {
      var j :| i <= j < |props| && props[j].key == k && outs[j - i].Some?;
      assert ReadFits(json, props[j], outs[j - i]);
    }
    forall j | i <= j < |props| && Readable(json, props[j]) ensures props[j].key in Fill(props, i, outs, obj) {
      assert ReadFits(json, props[j], outs[j - i]);
    }
  }

  /**
   * With values that fit the properties, a field no property reads keeps
   * its value in Fill, and the last readable property with a key fixes it.
   */
  lemma FillValues(props: seq<Prop>, i: nat, outs: seq<Option<Value>>, obj: map<string, Value>, json: Value)
    requires i + |outs| == |props|
    requires AllReadFit(json, props, i, outs)
    ensures forall k :: k in obj && Untouched(props, i, json, k) ==>
      k in Fill(props, i, outs, obj) && Fill(props, i, outs, obj)[k] == obj[k]
    ensures forall j :: i <= j < |props| && Readable(json, props[j]) && LastWithKey(props, j) ==>
      && props[j].key in Fill(props, i, outs, obj)
      && (props[j].meta.ignoreType ==> Fill(props, i, outs, obj)[props[j].key] == json.fields[JsonKey(props[j])])
      && (!props[j].meta.ignoreType && json.fields[JsonKey(props[j])] == Null ==> Fill(props, i, outs, obj)[props[j].key] == Undefined)
  {
    forall k | k in obj && Untouched(props, i, json, k)
      ensures k in Fill(props, i, outs, obj) && Fill(props, i, outs, obj)[k] == obj[k]
    {
      forall j | i <= j < |props| && props[j].key == k ensures outs[j - i].None? {
        assert ReadFits(json, props[j], outs[j - i]);
      }
      FillKeeps(props, i, outs, obj, k);
    }
    forall j | i <= j < |props| && Readable(json, props[j]) && LastWithKey(props, j)
      ensures props[j].key in Fill(props, i, outs, obj) && Fill(props, i, outs, obj)[props[j].key] == outs[j - i].value
    {
      assert ReadFits(json, props[j], outs[j - i]);
      FillLast(props, i, outs, obj, j);
    }
  }

  /**
   * With values that fit the properties, Emit keeps the keys it started
   * with and adds only writable properties' JSON keys, all of them when
   * nulls are serialized, and adds no null when they are not.
   */
  lemma EmitShape(props: seq<Prop>, i: nat, outs: seq<Option<Value>>, out: map<string, Value>, src: Value, nulls: bool)
    requires i + |outs| == |props|
    requires AllWriteFit(nulls, src, props, i, outs)
    ensures forall k :: k in out ==> k in Emit(props, i, outs, out)
    ensures forall k :: k in Emit(props, i, outs, out) ==>
      k in out || exists j :: i <= j < |props| && JsonKey(props[j]) == k && Writable(src, props[j])
    ensures nulls ==> forall j :: i <= j < |props| && Writable(src, props[j]) ==> JsonKey(props[j]) in Emit(props, i, outs, out)
    ensures !nulls && (forall k :: k in out ==> out[k] != Null) ==>
      forall k :: k in Emit(props, i, outs, out) ==> Emit(props, i, outs, out)[k] != Null
  {
    EmitKeys(props, i, outs, out);
    forall k | k in Emit(props, i, outs, out) && k !in out
      ensures exists j :: i <= j < |props| && JsonKey(props[j]) == k && Writable(src, props[j])
    {
      var j :| i <= j < |props| && JsonKey(props[j]) == k && outs[j - i].Some?;
      assert WriteFits(nulls, src, props[j], outs[j - i]);
    }
    if nulls {
      forall j | i <= j < |props| && Writable(src, props[j]) ensures JsonKey(props[j]) in Emit(props, i, outs, out) {
        assert WriteFits(nulls, src, props[j], outs[j - i]);
      }
    }
    if !nulls && (forall k :: k in out ==> out[k] != Null) {
      forall o | o in outs && o.Some? ensures o.value != Null {
        var n :| 0 <= n < |outs| && outs[n] == o;
        assert WriteFits(nulls, src, props[i + n], outs[i + n - i]);
      }
      EmitNoNull(props, i, outs, out);
    }
  }

  /**
   * With values that fit the properties, an entry no property writes keeps
   * its value in Emit, and the last writable property with a JSON key fixes
   * it: to an `ignoreType` property's own value, and to null for a null or
   * undefined converted one when nulls are serialized.
   */
  lemma EmitValues(props: seq<Prop>, i: nat, outs: seq<Option<Value>>, out: map<string, Value>, src: Value, nulls: bool)
    requires i + |outs| == |props|
    requires AllWriteFit(nulls, src, props, i, outs)
    ensures forall k :: k in out && (forall j :: i <= j < |props| && JsonKey(props[j]) == k ==> !Writable(src, props[j])) ==>
      k in Emit(props, i, outs, out) && Emit(props, i, outs, out)[k] == out[k]
    ensures forall j :: i <= j < |props| && Writable(src, props[j]) && LastWithJsonKey(props, j) ==>
      && (props[j].meta.ignoreType && (nulls || src.fields[props[j].key] != Null) ==>
            JsonKey(props[j]) in Emit(props, i, outs, out) && Emit(props, i, outs, out)[JsonKey(props[j])] == src.fields[props[j].key])
      && (!props[j].meta.ignoreType && nulls && (src.fields[props[j].key] == Null || src.fields[props[j].key] == Undefined) ==>
            JsonKey(props[j]) in Emit(props, i, outs, out) && Emit(props, i, outs, out)[JsonKey(props[j])] == Null)
  {
    forall k | k in out && (forall j :: i <= j < |props| && JsonKey(props[j]) == k ==> !Writable(src, props[j]))
      ensures k in Emit(props, i, outs, out) && Emit(props, i, outs, out)[k] == out[k]
    {
      forall j | i <= j < |props| && JsonKey(props[j]) == k ensures outs[j - i].None? {
        assert WriteFits(nulls, src, props[j], outs[j - i]);
      }
      EmitKeeps(props, i, outs, out, k);
    }
    forall j | i <= j < |props| && Writable(src, props[j]) && LastWithJsonKey(props, j) && outs[j - i].Some?
      ensures JsonKey(props[j]) in Emit(props, i, outs, out) && Emit(props, i, outs, out)[JsonKey(props[j])] == outs[j - i].value
    {
      EmitLast(props, i, outs, out, j);
    }
  }

  /** Fitting values for property i and for those after it fit all properties from i, and Fill takes i's first. */
  lemma FillCons(props: seq<Prop>, i: nat, o: Option<Value>, rest: seq<Option<Value>>, obj: map<string, Value>, json: Value)
    requires i < |props| && i + 1 + |rest| == |props|
    requires ReadFits(json, props[i], o)
    requires AllReadFit(json, props, i + 1, rest)
    ensures AllReadFit(json, props, i, [o] + rest)
    ensures Fill(props, i, [o] + rest, obj) == Fill(props, i + 1, rest, Store(obj, props[i].key, o))
  {
    assert ([o] + rest)[1..] == rest;
  }

  /** Fitting values for property i and for those after it fit all properties from i, and Emit takes i's first. */
  lemma EmitCons(props: seq<Prop>, i: nat, o: Option<Value>, rest: seq<Option<Value>>, out: map<string, Value>, src: Value, nulls: bool)
    requires i < |props| && i + 1 + |rest| == |props|
    requires WriteFits(nulls, src, props[i], o)
    requires AllWriteFit(nulls, src, props, i + 1, rest)
    ensures AllWriteFit(nulls, src, props, i, [o] + rest)
    ensures Emit(props, i, [o] + rest, out) == Emit(props, i + 1, rest, Store(out, JsonKey(props[i]), o))
  {
    assert ([o] + rest)[1..] == rest;
  }

  /**
   * A successful `_fromJson` stores, property by property, values that fit
   * the properties: its instance is Fill of them.
   */
  lemma {:induction false} ReadPropsAssembles(t: Tyson, cls: string, props: seq<Prop>, i: nat, json: Value, obj: map<string, Value>)
      returns (outs: seq<Option<Value>>)
    requires i <= |props| && json != Null
    ensures var r := ReadProps(t, cls, props, i, json, obj);
      r.result.Ok? ==>
        && i + |outs| == |props|
        && AllReadFit(json, props, i, outs)
        && r.result.value == Inst(cls, Fill(props, i, outs, obj))
    decreases |props| - i
  {
    if i == |props| {
      outs := [];
    } else {
      var s := ReadPropsStep(t, cls, props, i, json, obj);
      if s.result.Err? {
        outs := [];
      } else {
        var obj' := Store(obj, props[i].key, s.result.value);
        var rest := ReadPropsAssembles(s.tyson, cls, props, i + 1, json, obj');
        outs := [s.result.value] + rest;
        if ReadProps(s.tyson, cls, props, i + 1, json, obj').result.Ok? {
          FillCons(props, i, s.result.value, rest, obj, json);
        }
      }
    }
  }

  /**
   * A successful `_toJson` writes, property by property, values that fit
   * the properties: its JSON object is Emit of them.
   */
  lemma {:induction false} WritePropsAssembles(t: Tyson, props: seq<Prop>, i: nat, src: Value, out: map<string, Value>)
      returns (outs: seq<Option<Value>>)
    requires i <= |props|
    ensures var r := WriteProps(t, props, i, src, out);
      r.result.Ok? ==>
        && i + |outs| == |props|
        && AllWriteFit(t.serializeNulls, src, props, i, outs)
        && r.result.value == Obj(Emit(props, i, outs, out))
    decreases |props| - i
  {
    if i == |props| {
      outs := [];
    } else {
      var s := WritePropsStep(t, props, i, src, out);
      if s.result.Err? {
        outs := [];
      } else {
        var out' := Store(out, JsonKey(props[i]), s.result.value);
        var rest := WritePropsAssembles(s.tyson, props, i + 1, src, out');
        outs := [s.result.value] + rest;
        if WriteProps(s.tyson, props, i + 1, src, out').result.Ok? {
          EmitCons(props, i, s.result.value, rest, out, src, t.serializeNulls);
        }
      }
    }
  }

  /** In a successful `_fromJson` every required property was present in the JSON. */
  lemma ReadPropsRequiredPresent(t: Tyson, cls: string, props: seq<Prop>, i: nat, json: Value, obj: map<string, Value>)
    requires i <= |props| && json != Null
    ensures ReadProps(t, cls, props, i, json, obj).result.Ok? ==>
      forall j :: i <= j < |props| && props[j].meta.required ==> HasOwn(json, JsonKey(props[j]))
  {
    var outs := ReadPropsAssembles(t, cls, props, i, json, obj);
  }

  /**
   * A successful `_fromJson` gives an instance with exactly the fields it
   * started with plus those of the properties it read.
   */
  lemma ReadPropsFields(t: Tyson, cls: string, props: seq<Prop>, i: nat, json: Value, obj: map<string, Value>)
    requires i <= |props| && json != Null
    ensures var r := ReadProps(t, cls, props, i, json, obj);
      r.result.Ok? ==>
        forall k :: k in r.result.value.fields <==> k in obj || exists j :: i <= j < |props| && props[j].key == k && Readable(json, props[j])
  {
    var outs := ReadPropsAssembles(t, cls, props, i, json, obj);
    if ReadProps(t, cls, props, i, json, obj).result.Ok? {
      FillFields(props, i, outs, obj, json);
    }
  }

  /**
   * In a successful `_fromJson`, a field no property reads keeps the value
   * it had: an unannotated field, a toJson-only one and one missing from the
   * JSON all keep the default of `new C()`.
   */
  lemma ReadPropsKeepsDefaults(t: Tyson, cls: string, props: seq<Prop>, i: nat, json: Value, obj: map<string, Value>)
    requires i <= |props| && json != Null
    ensures var r := ReadProps(t, cls, props, i, json, obj);
      r.result.Ok? ==>
        forall k :: k in obj && Untouched(props, i, json, k) ==> k in r.result.value.fields && r.result.value.fields[k] == obj[k]
  {
    var outs := ReadPropsAssembles(t, cls, props, i, json, obj);
    if ReadProps(t, cls, props, i, json, obj).result.Ok? {
      FillValues(props, i, outs, obj, json);
    }
  }

  /**
   * In a successful `_fromJson`, the last property read into a field fixes
   * it: to the raw JSON value under `ignoreType`, and to undefined when a
   * converted JSON value is null.
   */
  lemma ReadPropsValues(t: Tyson, cls: string, props: seq<Prop>, i: nat, json: Value, obj: map<string, Value>)
    requires i <= |props| && json != Null
    ensures var r := ReadProps(t, cls, props, i, json, obj);
      r.result.Ok? ==>
        forall j :: i <= j < |props| && Readable(json, props[j]) && LastWithKey(props, j) ==>
          && props[j].key in r.result.value.fields
          && (props[j].meta.ignoreType ==> r.result.value.fields[props[j].key] == json.fields[JsonKey(props[j])])
          && (!props[j].meta.ignoreType && json.fields[JsonKey(props[j])] == Null ==> r.result.value.fields[props[j].key] == Undefined)
  {
    var outs := ReadPropsAssembles(t, cls, props, i, json, obj);
    if ReadProps(t, cls, props, i, json, obj).result.Ok? {
      FillValues(props, i, outs, obj, json);
    }
  }

  /**
   * A DeserializationError out of `_fromJson` names one of the properties:
   * either it is required and missing, or its value did not convert, and
   * then the error carries the whole JSON object.
   */
  lemma {:induction false} ReadPropsErrorNamesProperty(t: Tyson, cls: string, props: seq<Prop>, i: nat, json: Value, obj: map<string, Value>)
      returns (j: nat)
    requires i <= |props| && json != Null
    ensures var r := ReadProps(t, cls, props, i, json, obj);
      r.result.Err? && r.result.error.Deserialization? ==>
        i <= j < |props| && NamesProperty(r.result.error, cls, props[j], json)
    decreases |props| - i
  {
    if i == |props| {
      j := i;
    } else {
      var s := ReadPropsStep(t, cls, props, i, json, obj);
      if s.result.Err? {
        j := i;
      } else {
        var obj' := Store(obj, props[i].key, s.result.value);
        j := ReadPropsErrorNamesProperty(s.tyson, cls, props, i + 1, json, obj');
      }
    }
  }

  /** No property from i onwards is required. */
  predicate NoneRequired(props: seq<Prop>, i: nat) {
    forall j :: i <= j < |props| ==> !props[j].meta.required
  }

  /** Property j is the first required one from i onwards. */
  predicate FirstRequired(props: seq<Prop>, i: nat, j: nat) {
    j < |props| && props[j].meta.required && forall j' :: i <= j' < j ==> !props[j'].meta.required
  }

  /** A property missing from a JSON object is skipped, or fails when it is required. */
  lemma ReadPropMissing(t: Tyson, cls: string, p: Prop, json: Value)
    requires HasFields(json) && !HasOwn(json, JsonKey(p)) && p.meta.typ != List([])
    ensures ReadProp(t, cls, p, json).tyson == t
    ensures ReadProp(t, cls, p, json).result
         == if p.meta.required then Err(Deserialization(RequiredMessage(p.key, cls), None)) else Ok(None)
  {
  }

  /** One turn of the `_fromJson` loop over a property missing from the JSON. */
  lemma ReadPropsMissingStep(t: Tyson, cls: string, props: seq<Prop>, i: nat, json: Value, obj: map<string, Value>)
    requires i < |props| && HasFields(json) && !HasOwn(json, JsonKey(props[i])) && props[i].meta.typ != List([])
    ensures ReadProps(t, cls, props, i, json, obj)
         == if props[i].meta.required then Step(Err(Deserialization(RequiredMessage(props[i].key, cls), None)), t)
            else ReadProps(t, cls, props, i + 1, json, obj)
  {
    ReadPropMissing(t, cls, props[i], json);
  }

  /**
   * When the JSON object has none of the properties' keys, `_fromJson`
   * succeeds exactly when none of them is required, and then returns the
   * fresh instance unchanged.
   */
  lemma {:induction false} ReadPropsAllMissing(t: Tyson, cls: string, props: seq<Prop>, i: nat, json: Value, obj: map<string, Value>)
    requires i <= |props| && HasFields(json)
    requires forall j :: i <= j < |props| ==> !HasOwn(json, JsonKey(props[j])) && props[j].meta.typ != List([])
    ensures var r := ReadProps(t, cls, props, i, json, obj);
      && (r.result.Ok? <==> NoneRequired(props, i))
      && (r.result.Ok? ==> r.result.value == Inst(cls, obj) && r.tyson == t)
    decreases |props| - i
  {
    if i == |props| {
      assert ReadProps(t, cls, props, i, json, obj) == Step(Ok(Inst(cls, obj)), t);
    } else {
      ReadPropsMissingStep(t, cls, props, i, json, obj);
      if props[i].meta.required {
        assert !NoneRequired(props, i);
      } else {
        ReadPropsAllMissing(t, cls, props, i + 1, json, obj);
        assert NoneRequired(props, i) <==> NoneRequired(props, i + 1);
      }
    }
  }

  /**
   * When the JSON object has none of the properties' keys and `_fromJson`
   * fails, it names the first required property.
   */
  lemma {:induction false} ReadPropsFirstMissing(t: Tyson, cls: string, props: seq<Prop>, i: nat, json: Value, obj: map<string, Value>)
      returns (j: nat)
    requires i <= |props| && HasFields(json)
    requires forall j :: i <= j < |props| ==> !HasOwn(json, JsonKey(props[j])) && props[j].meta.typ != List([])
    ensures var r := ReadProps(t, cls, props, i, json, obj);
      r.result.Err? ==>
        i <= j && FirstRequired(props, i, j) && r.result.error == Deserialization(RequiredMessage(props[j].key, cls), None)
    decreases |props| - i
  {
    if i == |props| {
      j := i;
      assert ReadProps(t, cls, props, i, json, obj) == Step(Ok(Inst(cls, obj)), t);
    } else {
      ReadPropsMissingStep(t, cls, props, i, json, obj);
      if props[i].meta.required {
        j := i;
        assert FirstRequired(props, i, j);
      } else {
        j := ReadPropsFirstMissing(t, cls, props, i + 1, json, obj);
        assert FirstRequired(props, i + 1, j) ==> FirstRequired(props, i, j);
      }
    }
  }

  /**
   * A successful `_toJson` gives a JSON object whose keys are the keys it
   * started with plus JSON keys of properties the source owns and that are
   * not fromJson-only; when nulls are serialized every such property's key
   * is there, and when they are not no value in it is null.
   */
  lemma WritePropsShape(t: Tyson, props: seq<Prop>, i: nat, src: Value, out: map<string, Value>)
    requires i <= |props|
    ensures var r := WriteProps(t, props, i, src, out);
      r.result.Ok? ==>
        && (forall k :: k in out ==> k in r.result.value.fields)
        && (forall k :: k in r.result.value.fields ==> k in out || exists j :: i <= j < |props| && JsonKey(props[j]) == k && Writable(src, props[j]))
        && (t.serializeNulls ==> forall j :: i <= j < |props| && Writable(src, props[j]) ==> JsonKey(props[j]) in r.result.value.fields)
        && (!t.serializeNulls && (forall k :: k in out ==> out[k] != Null) ==> forall k :: k in r.result.value.fields ==> r.result.value.fields[k] != Null)
  {
    var outs := WritePropsAssembles(t, props, i, src, out);
    if WriteProps(t, props, i, src, out).result.Ok? {
      EmitShape(props, i, outs, out, src, t.serializeNulls);
    }
  }

  /**
   * In a successful `_toJson`, the last property written under a JSON key
   * fixes its value: an `ignoreType` property's own value, and null for a
   * converted property whose value is null or undefined, when nulls are
   * serialized.
   */
  lemma WritePropsValues(t: Tyson, props: seq<Prop>, i: nat, src: Value, out: map<string, Value>)
    requires i <= |props|
    ensures var r := WriteProps(t, props, i, src, out);
      r.result.Ok? ==>
        forall j :: i <= j < |props| && Writable(src, props[j]) && LastWithJsonKey(props, j) ==>
          && (props[j].meta.ignoreType && (t.serializeNulls || src.fields[props[j].key] != Null) ==>
                JsonKey(props[j]) in r.result.value.fields && r.result.value.fields[JsonKey(props[j])] == src.fields[props[j].key])
          && (!props[j].meta.ignoreType && t.serializeNulls && (src.fields[props[j].key] == Null || src.fields[props[j].key] == Undefined) ==>
                JsonKey(props[j]) in r.result.value.fields && r.result.value.fields[JsonKey(props[j])] == Null)
  {
    var outs := WritePropsAssembles(t, props, i, src, out);
    if WriteProps(t, props, i, src, out).result.Ok? {
      EmitValues(props, i, outs, out, src, t.serializeNulls);
    }
  }

  /** In a successful `_toJson`, an entry of the JSON object built so far that no later property writes survives. */
  lemma WritePropsKeeps(t: Tyson, props: seq<Prop>, i: nat, src: Value, out: map<string, Value>)
    requires i <= |props|
    ensures var r := WriteProps(t, props, i, src, out);
      r.result.Ok? ==>
        forall k :: k in out && (forall j :: i <= j < |props| && JsonKey(props[j]) == k ==> !Writable(src, props[j])) ==>
          k in r.result.value.fields && r.result.value.fields[k] == out[k]
  {
    var outs := WritePropsAssembles(t, props, i, src, out);
    if WriteProps(t, props, i, src, out).result.Ok? {
      EmitValues(props, i, outs, out, src, t.serializeNulls);
    }
  }

  /**
   * `loadMetadata` fills a map keyed by field key: with the distinct keys of
   * `Object.keys`, the recorded properties have distinct keys too.
   */
  lemma {:induction false} LoadMetadataKeysDistinct(fields: FieldList)
    ensures var props := LoadMetadata(fields);
      forall j, j' :: 0 <= j < j' < |props| ==> props[j].key != props[j'].key
  {
    if |fields| > 0 {
      var tail := fields[1..];
      assert DistinctKeys(tail) by {
        forall i, j | 0 <= i < j < |tail| ensures tail[i].key != tail[j].key {
          assert tail[i] == fields[i + 1] && tail[j] == fields[j + 1];
        }
      }
      LoadMetadataKeysDistinct(tail);
      assert var ps := LoadMetadata(tail); forall j, j' :: 0 <= j < j' < |ps| ==> ps[j].key != ps[j'].key;
      LoadMetadataRecordsAnnotated(tail);
      var rest := LoadMetadata(tail);
      assert forall j, j' :: 0 <= j < j' < |rest| ==> rest[j].key != rest[j'].key;
      forall i | 0 <= i < |rest| ensures rest[i].key != fields[0].key {
        assert DeclaresProp(tail, rest[i]);
        var j :| 0 <= j < |tail| && tail[j].key == rest[i].key
          && GetJsonPropertyMetadata(tail[j].annotation, tail[j].designType) == Some(rest[i].meta);
        assert tail[j] == fields[j + 1];
      }
      var props := LoadMetadata(fields);
      match GetJsonPropertyMetadata(fields[0].annotation, fields[0].designType)
      case None =>
        assert props == rest;
        forall j, j' | 0 <= j < j' < |props| ensures props[j].key != props[j'].key {
          assert props[j] == rest[j] && props[j'] == rest[j'];
        }
      case Some(m) =>
        assert props == [Prop(fields[0].key, m)] + rest;
        assert forall i :: 0 < i < |props| ==> props[i] == rest[i - 1];
    }
  }
}

=== FILE: object_type_adapter.dfy ===
/**
 * The non-recursive parts of ObjectTypeAdapter
 * (src/adapters/objectTypeAdapter.ts): class declarations standing in for
 * reflection, `loadMetadata`, JSON key choice, error messages and FACTORY.
 * Its `_fromJson` and `_toJson` are in the Tyson module.
 */
module ObjectTypeAdapter {
  import opened Wrappers
  import opened Plain
  import opened Errors
  import opened ReflectionUtils
  import opened TypeTokens
  import opened TypeAdapter

  /**
   * A field a fresh instance of a class owns: its key, the value the
   * constructor gives it, its declared design type, and its annotation if any.
   */
  datatype FieldDecl = FieldDecl(key: string, init: Value, designType: TypeDesc, annotation: Option<Annotation>)

  /** Object keys are unique. */
  predicate DistinctKeys(fields: seq<FieldDecl>) {
    forall i, j :: 0 <= i < j < |fields| ==> fields[i].key != fields[j].key
  }

  /** The own fields of an object, as `Object.keys` lists them: no key twice. */
  type FieldList = fields: seq<FieldDecl> | DistinctKeys(fields)

  /** The own fields of `new C()`, in `Object.keys` order. */
  datatype ClassDecl = ClassDecl(fields: FieldList)

  /** The declaration of a class; a class that declares nothing owns no fields. */
  function DeclOf(classes: map<string, ClassDecl>, cls: string): ClassDecl {
    if cls in classes then classes[cls] else ClassDecl([])
  }

  /** The field values of a fresh `new C()`. */
  function FreshFields(fields: seq<FieldDecl>): (m: map<string, Value>)
    ensures forall k :: k in m <==> exists i :: 0 <= i < |fields| && fields[i].key == k
  {
    if |fields| == 0 then map[]
    else
      var f := fields[|fields| - 1];
      FreshFields(fields[..|fields| - 1])[f.key := f.init]
  }

  /**
   * `loadMetadata`: the fields carrying an annotation, in declaration order,
   * with their resolved metadata; unannotated fields are not recorded.
   */
  function LoadMetadata(fields: seq<FieldDecl>): (props: seq<Prop>)
    ensures |props| <= |fields|
  {
    if |fields| == 0 then []
    else
      var f := fields[0];
      var rest := LoadMetadata(fields[1..]);
      match GetJsonPropertyMetadata(f.annotation, f.designType)
      case None => rest
      case Some(m) => [Prop(f.key, m)] + rest
  }

  /** Some field has this key and this metadata. */
  predicate DeclaresProp(fields: seq<FieldDecl>, p: Prop) {
    exists j :: 0 <= j < |fields| && fields[j].key == p.key
      && GetJsonPropertyMetadata(fields[j].annotation, fields[j].designType) == Some(p.meta)
  }

  /** Some recorded property has this key. */
  predicate Records(props: seq<Prop>, key: string) {
    exists i :: 0 <= i < |props| && props[i].key == key
  }

  /**
   * Exactly the annotated fields are recorded: every recorded property is
   * an annotated field with its metadata, and every annotated field is recorded.
   */
  lemma {:induction false} LoadMetadataRecordsAnnotated(fields: seq<FieldDecl>)
    ensures forall i :: 0 <= i < |LoadMetadata(fields)| ==> DeclaresProp(fields, LoadMetadata(fields)[i])
    ensures forall j :: 0 <= j < |fields| ==> (fields[j].annotation.Some? ==> Records(LoadMetadata(fields), fields[j].key))
  {
    if |fields| > 0 {
      var f := fields[0];
      var tail := fields[1..];
      LoadMetadataRecordsAnnotated(tail);
      var rest := LoadMetadata(tail);
      var props := LoadMetadata(fields);
      forall i | 0 <= i < |rest|
        ensures DeclaresProp(fields, rest[i])
      {
        var j :| 0 <= j < |tail| && tail[j].key == rest[i].key
          && GetJsonPropertyMetadata(tail[j].annotation, tail[j].designType) == Some(rest[i].meta);
        assert fields[j + 1] == tail[j];
      }
      forall j | 1 <= j < |fields| && fields[j].annotation.Some?
        ensures Records(rest, fields[j].key)
      {
        assert fields[j] == tail[j - 1];
      }
      match GetJsonPropertyMetadata(f.annotation, f.designType)
      case None =>
        assert props == rest;
      case Some(m) =>
        assert props == [Prop(f.key, m)] + rest;
        assert DeclaresProp(fields, props[0]);
        assert forall i :: 0 <= i < |rest| ==> props[i + 1] == rest[i];
        forall k | Records(rest, k)
          ensures Records(props, k)
        {
          var i :| 0 <= i < |rest| && rest[i].key == k;
          assert props[i + 1].key == k;
        }
        assert Records(props, f.key) by { assert props[0].key == f.key; }
    }
  }

  /** `loadMetadata` as the source builds metadata: `required` and `ignoreType` dropped. */
  function LoadMetadataAsWritten(fields: seq<FieldDecl>): (props: seq<Prop>)
    ensures forall i :: 0 <= i < |props| ==> !props[i].meta.required && !props[i].meta.ignoreType
  {
    if |fields| == 0 then []
    else
      var f := fields[0];
      var rest := LoadMetadataAsWritten(fields[1..]);
      match GetJsonPropertyMetadataAsWritten(f.annotation, f.designType)
      case None => rest
      case Some(m) => [Prop(f.key, m)] + rest
  }

  /** The JSON key of a property: its name override when set (and non-empty), else its field key. */
  function JsonKey(p: Prop): (k: string)
    ensures p.meta.name.Some? && p.meta.name.value != "" ==> k == p.meta.name.value
    ensures p.meta.name.None? || p.meta.name.value == "" ==> k == p.key
  {
    if p.meta.name.Some? && p.meta.name.value != "" then p.meta.name.value else p.key
  }

  /** `_fromJson` converts this property: it is not toJson-only and its JSON key is present. */
  predicate Readable(json: Value, p: Prop) {
    p.meta.access != ToJsonOnly && HasOwn(json, JsonKey(p))
  }

  /** `_toJson` converts this property: the source owns it and it is not fromJson-only. */
  predicate Writable(src: Value, p: Prop) {
    HasOwn(src, p.key) && p.meta.access != FromJsonOnly
  }

  function RequiredMessage(key: string, cls: string): string {
    "Property '" + key + "' of " + cls + " is set as required, but missing on the JSON."
  }

  function MismatchMessage(key: string, cls: string, jsonKey: string): string {
    "Property '" + key + "' of " + cls + " does not match type of '" + jsonKey + "'."
  }

  /**
   * The `catch` around a nested conversion: a DeserializationError is
   * replaced by one naming the property and the class, carrying the whole
   * JSON object; any other error passes through unchanged.
   */
  function Rewrap(e: Error, key: string, cls: string, jsonKey: string, json: Value): (r: Error)
    ensures e.Deserialization? <==> r.Deserialization?
    ensures r.Deserialization? ==> r.message == MismatchMessage(key, cls, jsonKey) && r.json == Some(json)
    ensures !e.Deserialization? ==> r == e
  {
    if e.Deserialization? then Deserialization(MismatchMessage(key, cls, jsonKey), Some(json)) else e
  }

  /** FACTORY: any class (a function) gets an object adapter; an array does not. */
  function Claim(classes: map<string, ClassDecl>, tok: TypeToken): (r: Option<Adapter>)
    ensures r.Some? <==> tok.typ.Class?
    ensures r.Some? ==> r.value.ObjectA? && r.value.cls == tok.typ.name
    ensures r.Some? ==> r.value.props == LoadMetadata(DeclOf(classes, tok.typ.name).fields)
  {
    if tok.typ.Class? then Some(ObjectA(tok.typ.name, LoadMetadata(DeclOf(classes, tok.typ.name).fields)))
    else None
  }
}

=== FILE: plain.dfy ===
/**
 * The values the library converts between. JavaScript is untyped, and a
 * raw-passthrough property copies a JSON fragment straight into an object
 * (and back), so JSON trees and object graphs live in one universe:
 * `IsJson` picks out the plain JSON trees of src/interfaces/plain.interface.ts.
 * Numbers carry an integer payload; floating point is not modelled.
 */
module Plain {

  datatype Value =
    | Undefined
    | Null
    | Bool(b: bool)
    | Num(n: int)
    | Str(s: string)
    | Arr(items: seq<Value>)
    /** A plain object, which is what a JSON object is. */
    | Obj(fields: map<string, Value>)
    /** An instance of the declared class `cls` with its own enumerable fields. */
    | Inst(cls: string, fields: map<string, Value>)

  /** A plain JSON tree: null, booleans, numbers, strings, arrays and plain objects. */
  predicate IsJson(v: Value) {
    match v
    case Undefined => false
    case Inst(_, _) => false
    case Arr(items) => forall i :: 0 <= i < |items| ==> IsJson(items[i])
    case Obj(fields) => forall k :: k in fields ==> IsJson(fields[k])
    case _ => true
  }

  /** JavaScript's `typeof`. */
  function TypeOf(v: Value): string {
    match v
    case Undefined => "undefined"
    case Bool(_) => "boolean"
    case Num(_) => "number"
    case Str(_) => "string"
    case _ => "object"
  }

  /** True when the value has own keys that a `for..in` or `hasOwnProperty` can see. */
  predicate HasFields(v: Value) {
    v.Obj? || v.Inst?
  }

  /** `v.hasOwnProperty(k)`; index keys of arrays and strings are not modelled. */
  predicate HasOwn(v: Value, k: string) {
    HasFields(v) && k in v.fields
  }

  function DigitChar(d: nat): char
    requires d < 10
  {
    "0123456789"[d]
  }

  function NatToString(n: nat): string
    decreases n
  {
    if n < 10 then [DigitChar(n)] else NatToString(n / 10) + [DigitChar(n % 10)]
  }

  /** `String(v)`, as a template literal renders a value into an error message. */
  function Display(v: Value): string
    decreases v, 1
  {
    match v
    case Undefined => "undefined"
    case Null => "null"
    case Bool(b) => if b then "true" else "false"
    case Num(n) => if n < 0 then "-" + NatToString(-n) else NatToString(n)
    case Str(s) => s
    case Arr(_) => JoinDisplay(v, 0)
    case Obj(_) => "[object Object]"
    case Inst(_, _) => "[object Object]"
  }

  /** `Array.prototype.join(",")` from position i: null and undefined render as "". */
  function JoinDisplay(a: Value, i: nat): string
    requires a.Arr? && i <= |a.items|
    decreases a, 0, |a.items| - i
  {
    if i == |a.items| then ""
    else
      var e := a.items[i];
      (if i == 0 then "" else ",")
      + (if e == Null || e == Undefined then "" else Display(e))
      + JoinDisplay(a, i + 1)
  }
}

=== FILE: reflection_utils.dfy ===
/**
 * Type descriptors, type names, the recursive type hash and per-property
 * metadata (src/reflect/reflectionUtils.ts). A class is abstracted to its
 * name: what `getTypeName` extracts from the class's source text.
 */
module ReflectionUtils {
  import opened Wrappers

  /** A requested shape: one class, or an ordered list of shapes (array or tuple). */
  datatype TypeDesc = Class(name: string) | List(elems: seq<TypeDesc>)

  const OBJECT_TYPE := "Object"
  const ARRAY_TYPE := "Array"
  const BOOLEAN_TYPE := "Boolean"
  const NUMBER_TYPE := "Number"
  const STRING_TYPE := "String"

  /** Every array is named "Array", whatever it holds; a class is named by its name. */
  function GetTypeName(d: TypeDesc): string {
    if d.List? then ARRAY_TYPE else d.name
  }

  /** The type names the generated token name keeps as they are. */
  predicate IsBasicType(typeName: string) {
    typeName in [BOOLEAN_TYPE, NUMBER_TYPE, STRING_TYPE, ARRAY_TYPE]
  }

  /**
   * The recursive hash string: a class hashes to its name, an array to
   * "Array:(" followed by its element parts joined by "+" and a closing ")".
   */
  function GetTypeHash(d: TypeDesc): string
    decreases d, 1
  {
    match d
    case Class(n) => n
    case List(_) => "Array:(" + HashParts(d, 0) + ")"
  }

  /** The part an element contributes: a nested array adds an extra ")" after its own hash. */
  function HashPart(e: TypeDesc): string
    decreases e, 2
  {
    if e.List? then GetTypeHash(e) + ")" else GetTypeName(e)
  }

  /** The loop over the elements from position i, with "+" before every part but the first. */
  function HashParts(d: TypeDesc, i: nat): string
    requires d.List? && i <= |d.elems|
    decreases d, 0, |d.elems| - i
  {
    if i == |d.elems| then ""
    else (if i == 0 then "" else "+") + HashPart(d.elems[i]) + HashParts(d, i + 1)
  }

  /** Which directions a property takes part in. */
  datatype Access = Both | FromJsonOnly | ToJsonOnly

  /** The options a property annotation stores for a field. */
  datatype Annotation = Annotation(
    name: Option<string>,
    typ: Option<TypeDesc>,
    access: Access,
    required: bool,
    ignoreType: bool)

  /** The resolved metadata of one property. */
  datatype PropMeta = PropMeta(
    name: Option<string>,
    typ: TypeDesc,
    access: Access,
    required: bool,
    ignoreType: bool)

  /**
   * The metadata of a field with optional annotation `ann` and declared
   * design type `designType`: none without an annotation, otherwise the
   * annotation's options with the explicit type preferred over the design type.
   */
  function GetJsonPropertyMetadata(ann: Option<Annotation>, designType: TypeDesc): (r: Option<PropMeta>)
    ensures r.None? <==> ann.None?
    ensures r.Some? ==> r.value.typ == ann.value.typ.GetOr(designType)
    ensures r.Some? ==> r.value.name == ann.value.name && r.value.access == ann.value.access
    ensures r.Some? ==> r.value.required == ann.value.required && r.value.ignoreType == ann.value.ignoreType
  {
    match ann
    case None => None
    case Some(a) => Some(PropMeta(a.name, a.typ.GetOr(designType), a.access, a.required, a.ignoreType))
  }

  /**
   * The metadata as the source computes it: only name, type and access reach
   * the constructor, so `required` and `ignoreType` are left undefined, which
   * every later test reads as false.
   */
  function GetJsonPropertyMetadataAsWritten(ann: Option<Annotation>, designType: TypeDesc): (r: Option<PropMeta>)
    ensures r.None? <==> ann.None?
    ensures r.Some? ==> !r.value.required && !r.value.ignoreType
    ensures r.Some? ==> r.value.typ == ann.value.typ.GetOr(designType)
  {
    match ann
    case None => None
    case Some(a) => Some(PropMeta(a.name, a.typ.GetOr(designType), a.access, false, false))
  }

  /**
   * The metadata as written and the corrected metadata agree exactly for
   * annotations that set neither `required` nor `ignoreType`.
   */
  lemma MetadataAgreesWithoutFlags(ann: Option<Annotation>, designType: TypeDesc)
    ensures GetJsonPropertyMetadataAsWritten(ann, designType) == GetJsonPropertyMetadata(ann, designType)
        <==> !(ann.Some? && (ann.value.required || ann.value.ignoreType))
  {
  }
}

=== FILE: registry_properties.dfy ===
/**
 * Properties of the registry (src/tyson.ts): factory order, the chain walk,
 * and what the hash-keyed cache does.
 */
module RegistryProperties {
  import opened Wrappers
  import opened Plain
  import opened Errors
  import opened ReflectionUtils
  import opened TypeTokens
  import opened TypeAdapter
  import opened Tyson
  import TypeAdapters
  import ObjectTypeAdapter
  import TokenProperties
  import ArrayTypeAdapter

  /** Walking two chains in a row: the second is consulted only when the first has no answer. */
  lemma {:induction false} WalkChainAppend(classes: map<string, ObjectTypeAdapter.ClassDecl>, fs1: seq<Factory>, fs2: seq<Factory>, tok: TypeToken)
    ensures WalkChain(classes, fs1 + fs2, tok)
         == if WalkChain(classes, fs1, tok) == Ok(None) then WalkChain(classes, fs2, tok) else WalkChain(classes, fs1, tok)
  {
    if |fs1| > 0 {
      assert (fs1 + fs2)[0] == fs1[0];
      assert (fs1 + fs2)[1..] == fs1[1..] + fs2;
      WalkChainAppend(classes, fs1[1..], fs2, tok);
    } else {
      assert fs1 + fs2 == fs2;
    }
  }

  /**
   * The builder's factories come before every built-in one: a token one of
   * them answers for never reaches the built-ins.
   */
  lemma UserFactoriesFirst(b: Builder, classes: map<string, ObjectTypeAdapter.ClassDecl>, date: Codec, tok: TypeToken)
    ensures WalkChain(classes, New(Some(b), classes, date).factories, tok)
         == if WalkChain(classes, b.factories, tok) == Ok(None)
            then WalkChain(classes, BuiltInFactories(date), tok)
            else WalkChain(classes, b.factories, tok)
  {
    WalkChainAppend(classes, b.factories, BuiltInFactories(date), tok);
  }

  /** The names the built-in class factories claim before the object factory. */
  predicate IsBuiltInClassName(n: string) {
    n == BOOLEAN_TYPE || n == NUMBER_TYPE || n == STRING_TYPE || n == "Date"
  }

  /**
   * What the built-in chain (Boolean, Number, String, Date, Object, Array)
   * answers for each shape: the primitive and Date adapters for their
   * classes, an object adapter for any other class, an array adapter for a
   * one-element shape, and nothing for a tuple of any other length.
   */
  lemma BuiltInChainResolves(classes: map<string, ObjectTypeAdapter.ClassDecl>, date: Codec, tok: TypeToken)
    ensures tok.typ == Class(BOOLEAN_TYPE) ==> WalkChain(classes, BuiltInFactories(date), tok) == Ok(Some(Prim(BooleanKind)))
    ensures tok.typ == Class(NUMBER_TYPE) ==> WalkChain(classes, BuiltInFactories(date), tok) == Ok(Some(Prim(NumberKind)))
    ensures tok.typ == Class(STRING_TYPE) ==> WalkChain(classes, BuiltInFactories(date), tok) == Ok(Some(Prim(StringKind)))
    ensures tok.typ == Class("Date") ==> WalkChain(classes, BuiltInFactories(date), tok) == Ok(Some(Custom("Date", date)))
    ensures tok.typ.Class? && !IsBuiltInClassName(tok.typ.name) ==>
      WalkChain(classes, BuiltInFactories(date), tok)
      == Ok(Some(ObjectA(tok.typ.name, ObjectTypeAdapter.LoadMetadata(ObjectTypeAdapter.DeclOf(classes, tok.typ.name).fields))))
    ensures tok.typ.List? && |tok.typ.elems| == 1 && tok.typ.elems[0] != List([]) ==>
      WalkChain(classes, BuiltInFactories(date), tok) == Ok(Some(ArrayA(Token(tok.typ.elems[0]).value)))
    ensures tok.typ == List([List([])]) ==> WalkChain(classes, BuiltInFactories(date), tok) == Err(NO_ELEMENT_ZERO)
    ensures tok.typ.List? && |tok.typ.elems| != 1 ==> WalkChain(classes, BuiltInFactories(date), tok) == Ok(None)
  {
    if tok.typ.Class? {
      BuiltInChainOnClass(classes, date, tok);
    } else {
      BuiltInChainOnList(classes, date, tok);
    }
  }

  /** The built-in chain on a class: the first four factories claim their own classes, the object factory the rest. */
  lemma BuiltInChainOnClass(classes: map<string, ObjectTypeAdapter.ClassDecl>, date: Codec, tok: TypeToken)
    requires tok.typ.Class?
    ensures tok.typ == Class(BOOLEAN_TYPE) ==> WalkChain(classes, BuiltInFactories(date), tok) == Ok(Some(Prim(BooleanKind)))
    ensures tok.typ == Class(NUMBER_TYPE) ==> WalkChain(classes, BuiltInFactories(date), tok) == Ok(Some(Prim(NumberKind)))
    ensures tok.typ == Class(STRING_TYPE) ==> WalkChain(classes, BuiltInFactories(date), tok) == Ok(Some(Prim(StringKind)))
    ensures tok.typ == Class("Date") ==> WalkChain(classes, BuiltInFactories(date), tok) == Ok(Some(Custom("Date", date)))
    ensures !IsBuiltInClassName(tok.typ.name) ==>
      WalkChain(classes, BuiltInFactories(date), tok)
      == Ok(Some(ObjectA(tok.typ.name, ObjectTypeAdapter.LoadMetadata(ObjectTypeAdapter.DeclOf(classes, tok.typ.name).fields))))
  {
    BuiltInWalk(classes, date, tok);
  }

  /** The built-in chain on a list: only the array factory, the last one, answers. */
  lemma BuiltInChainOnList(classes: map<string, ObjectTypeAdapter.ClassDecl>, date: Codec, tok: TypeToken)
    requires tok.typ.List?
    ensures |tok.typ.elems| == 1 && tok.typ.elems[0] != List([]) ==>
      WalkChain(classes, BuiltInFactories(date), tok) == Ok(Some(ArrayA(Token(tok.typ.elems[0]).value)))
    ensures tok.typ == List([List([])]) ==> WalkChain(classes, BuiltInFactories(date), tok) == Err(NO_ELEMENT_ZERO)
    ensures |tok.typ.elems| != 1 ==> WalkChain(classes, BuiltInFactories(date), tok) == Ok(None)
  {
    BuiltInWalk(classes, date, tok);
  }

  /** An answer, or the fallback when the answer is "declined". */
  function OrElse(c: Result<Option<Adapter>, Error>, fallback: Result<Option<Adapter>, Error>): Result<Option<Adapter>, Error> {
    if c.Ok? && c.value.None? then fallback else c
  }

  /** The built-in chain walked out: each factory in turn, the array factory last. */
  lemma BuiltInWalk(classes: map<string, ObjectTypeAdapter.ClassDecl>, date: Codec, tok: TypeToken)
    ensures WalkChain(classes, BuiltInFactories(date), tok)
         == OrElse(Ok(TypeAdapters.NewFactoryCreate(TypeAdapters.PrimFactory(BooleanKind), tok)),
            OrElse(Ok(TypeAdapters.NewFactoryCreate(TypeAdapters.PrimFactory(NumberKind), tok)),
            OrElse(Ok(TypeAdapters.NewFactoryCreate(TypeAdapters.PrimFactory(StringKind), tok)),
            OrElse(Ok(TypeAdapters.NewFactoryCreate(TypeAdapters.DateFactory(date), tok)),
            OrElse(Ok(ObjectTypeAdapter.Claim(classes, tok)),
                   ArrayTypeAdapter.Claim(tok))))))
  {
    var fs := BuiltInFactories(date);
    var s1 := fs[1..];
    var s2 := s1[1..];
    assert s2[1..] == fs[3..];
    BuiltInWalkTail(classes, date, tok);
    WalkStep(classes, s2, tok);
    WalkStep(classes, s1, tok);
    WalkStep(classes, fs, tok);
  }

  /** The last three built-in factories: Date, Object, Array. */
  lemma BuiltInWalkTail(classes: map<string, ObjectTypeAdapter.ClassDecl>, date: Codec, tok: TypeToken)
    ensures WalkChain(classes, BuiltInFactories(date)[3..], tok)
         == OrElse(Ok(TypeAdapters.NewFactoryCreate(TypeAdapters.DateFactory(date), tok)),
            OrElse(Ok(ObjectTypeAdapter.Claim(classes, tok)),
                   ArrayTypeAdapter.Claim(tok)))
  {
    var s3 := BuiltInFactories(date)[3..];
    var s4 := s3[1..];
    var s5 := s4[1..];
    assert s5[1..] == [];
    assert WalkChain(classes, s5, tok) == ArrayTypeAdapter.Claim(tok);
    WalkStep(classes, s4, tok);
    WalkStep(classes, s3, tok);
  }

  /** One step of the chain walk. */
  lemma WalkStep(classes: map<string, ObjectTypeAdapter.ClassDecl>, fs: seq<Factory>, tok: TypeToken)
    requires |fs| > 0
    ensures WalkChain(classes, fs, tok)
         == if Create(classes, fs[0], tok) == Ok(None) then WalkChain(classes, fs[1..], tok) else Create(classes, fs[0], tok)
  {
  }

  /**
   * Once a token's adapter is resolved, any later lookup with a token of the
   * same hash, in any registry state that followed, gives the identical adapter.
   */
  lemma SameHashSameAdapter(t: Tyson, tok1: TypeToken, t': Tyson, tok2: TypeToken)
    requires GetAdapter(t, tok1).result.Ok?
    requires Extends(GetAdapter(t, tok1).tyson, t')
    requires tok2.hash == tok1.hash
    ensures GetAdapter(t', tok2).result == GetAdapter(t, tok1).result
    ensures GetAdapter(t', tok2).tyson == t'
  {
  }

  /** A lookup that fails leaves the registry exactly as it was. */
  lemma FailedLookupCachesNothing(t: Tyson, tok: TypeToken)
    requires GetAdapter(t, tok).result.Err?
    ensures tok.hash !in t.cache
    ensures GetAdapter(t, tok).tyson == t
  {
  }

  /**
   * On a fresh default registry a two-element tuple is unsupported: the
   * lookup fails with the message naming the tuple's hash, `"Array"` followed
   * by the type name of element 0.
   */
  lemma TupleUnsupported(classes: map<string, ObjectTypeAdapter.ClassDecl>, date: Codec, a: TypeDesc, b: TypeDesc)
    ensures var tuple := Token(List([a, b])).value;
      && tuple.hash == ARRAY_TYPE + GetTypeName(a)
      && GetAdapter(New(None, classes, date), tuple).result == Err(CannotHandle(tuple))
  {
    var tuple := Token(List([a, b])).value;
    TokenProperties.ArrayTokenHash([a, b]);
    BuiltInChainResolves(classes, date, tuple);
  }

  /**
   * Once the one-element shape `[a]` has been resolved, the tuple `[a, b]`
   * hits that cache entry and gets the array adapter of element 0.
   */
  lemma TupleHitsArrayEntry(classes: map<string, ObjectTypeAdapter.ClassDecl>, date: Codec, a: TypeDesc, b: TypeDesc)
    requires a != List([])
    ensures var single := Token(List([a])).value;
      var s := GetAdapter(New(None, classes, date), single);
      && s.result == Ok(ArrayA(Token(a).value))
      && GetAdapter(s.tyson, Token(List([a, b])).value).result == s.result
  {
    var single := Token(List([a])).value;
    TokenProperties.TupleSharesArrayHash(a, b);
    BuiltInChainResolves(classes, date, single);
  }

  /**
   * With three levels of arrays, the element token of the outer array adapter
   * has the same hash as the outer token, so the element adapter the cache
   * returns is the outer adapter itself.
   */
  lemma TripleArrayResolvesToItself(classes: map<string, ObjectTypeAdapter.ClassDecl>, date: Codec, c: TypeDesc)
    ensures var t := New(None, classes, date);
      var outer := Token(List([List([List([c])])])).value;
      var s := GetAdapter(t, outer);
      && s.result == Ok(ArrayA(Token(List([List([c])])).value))
      && GetAdapter(s.tyson, s.result.value.elem).result == s.result
  {
    var t := New(None, classes, date);
    var outer := Token(List([List([List([c])])])).value;
    BuiltInChainResolves(classes, date, outer);
    TokenProperties.NestedArraysShareHash([List([c])], [c]);
  }

  /**
   * Because of that, reading `[[[1]]]` as `[[[Number]]]` on a default
   * registry never reaches the number adapter: every level is read by the
   * outer array adapter, and the innermost `1` is refused as not iterable.
   */
  lemma TripleArrayReadFails(classes: map<string, ObjectTypeAdapter.ClassDecl>, date: Codec)
    ensures FromJson(New(None, classes, date), Arr([Arr([Arr([Num(1)])])]), List([List([List([Class(NUMBER_TYPE)])])])).result
         == Err(TypeError("json is not iterable"))
  {
    var t := New(None, classes, date);
    var d := List([List([List([Class(NUMBER_TYPE)])])]);
    var outer := Token(d).value;
    TripleArrayResolvesToItself(classes, date, Class(NUMBER_TYPE));
    var s := GetAdapter(t, outer);
    var a := s.result.value;
    var t1 := s.tyson;
    var elem := a.elem;
    assert GetAdapter(t1, elem) == Step(Ok(a), t1);
    var j3 := Arr([Num(1)]);
    var j2 := Arr([j3]);
    var j1 := Arr([j2]);
    assert Read(t1, a, Num(1)) == Step(Err(TypeError("json is not iterable")), t1);
    assert ReadElems(t1, elem, j3, 0, []) == Step(Err(TypeError("json is not iterable")), t1);
    assert Read(t1, a, j3) == Step(Err(TypeError("json is not iterable")), t1);
    assert ReadElems(t1, elem, j2, 0, []) == Step(Err(TypeError("json is not iterable")), t1);
    assert Read(t1, a, j2) == Step(Err(TypeError("json is not iterable")), t1);
    assert ReadElems(t1, elem, j1, 0, []) == Step(Err(TypeError("json is not iterable")), t1);
    assert Read(t1, a, j1) == Step(Err(TypeError("json is not iterable")), t1);
    assert RequestedShape(j1, d) == d;
  }
}

=== FILE: round_trip.dfy ===
/**
 * Round trips through the public entry points `toJson` and `fromJson`
 * (src/tyson.ts): primitives, and classes whose recorded properties are
 * all primitive.
 */
module RoundTrip {
  import opened Wrappers
  import opened Plain
  import opened Errors
  import opened ReflectionUtils
  import opened TypeTokens
  import opened TypeAdapter
  import opened Tyson
  import opened ObjectTypeAdapter
  import TypeAdapters
  import RegistryProperties
  import TokenProperties

  /** The primitive kind a declared type stands for, if any. */
  function PrimOf(d: TypeDesc): (k: Option<PrimKind>)
    ensures k.None? ==> forall pk :: d != TypeAdapters.PrimClass(pk)
    ensures k.Some? ==> d == TypeAdapters.PrimClass(k.value)
  {
    if d == Class(BOOLEAN_TYPE) then Some(BooleanKind)
    else if d == Class(NUMBER_TYPE) then Some(NumberKind)
    else if d == Class(STRING_TYPE) then Some(StringKind)
    else None
  }

  /** The cache key of a primitive class's token. */
  function PrimHash(k: PrimKind): (h: string)
    ensures Token(TypeAdapters.PrimClass(k)).Ok? && Token(TypeAdapters.PrimClass(k)).value.hash == h
  {
    var n := GetTypeName(TypeAdapters.PrimClass(k));
    n + n
  }

  /** The registry has resolved the three primitive classes to the primitive adapters. */
  ghost predicate PrimsCached(t: Tyson) {
    forall k :: PrimHash(k) in t.cache && t.cache[PrimHash(k)] == Prim(k)
  }

  /** With the primitive adapters cached, looking up a primitive class is a cache hit. */
  lemma PrimLookup(t: Tyson, k: PrimKind)
    requires PrimsCached(t)
    ensures GetAdapter(t, Token(TypeAdapters.PrimClass(k)).value) == Step(Ok(Prim(k)), t)
  {
    assert t.cache[PrimHash(k)] == Prim(k);
  }

  /** Every registry state that follows one with the primitive adapters cached still has them. */
  lemma PrimsCachedStable(t: Tyson, t': Tyson)
    requires PrimsCached(t) && Extends(t, t')
    ensures PrimsCached(t')
  {
    forall k ensures PrimHash(k) in t'.cache && t'.cache[PrimHash(k)] == Prim(k) {
      assert PrimHash(k) in t.cache;
    }
  }

  /** Resolving one primitive class on a registry with the built-in chain caches its adapter. */
  lemma WarmUpStep(t: Tyson, date: Codec, k: PrimKind)
    requires t.factories == BuiltInFactories(date) && PrimHash(k) !in t.cache
    ensures var s := GetAdapter(t, Token(TypeAdapters.PrimClass(k)).value);
      && s.tyson.factories == t.factories
      && PrimHash(k) in s.tyson.cache && s.tyson.cache[PrimHash(k)] == Prim(k)
      && s.tyson.cache == t.cache[PrimHash(k) := Prim(k)]
  {
    RegistryProperties.BuiltInChainResolves(t.classes, date, Token(TypeAdapters.PrimClass(k)).value);
  }

  /** The cache a default registry holds once Boolean, Number and String have been resolved. */
  ghost function WarmCache(): map<string, Adapter> {
    map[PrimHash(BooleanKind) := Prim(BooleanKind),
        PrimHash(NumberKind) := Prim(NumberKind),
        PrimHash(StringKind) := Prim(StringKind)]
  }

  /** Resolving Boolean on a fresh default registry caches exactly the Boolean adapter. */
  lemma WarmUpBoolean(classes: map<string, ClassDecl>, date: Codec)
    ensures var t1 := GetAdapter(New(None, classes, date), Token(Class(BOOLEAN_TYPE)).value).tyson;
      t1.factories == BuiltInFactories(date) && t1.cache == map[PrimHash(BooleanKind) := Prim(BooleanKind)]
  {
    WarmUpStep(New(None, classes, date), date, BooleanKind);
  }

  /** Resolving Number after Boolean caches the Number adapter beside it. */
  lemma WarmUpNumber(t1: Tyson, date: Codec)
    requires t1.factories == BuiltInFactories(date) && t1.cache == map[PrimHash(BooleanKind) := Prim(BooleanKind)]
    ensures var t2 := GetAdapter(t1, Token(Class(NUMBER_TYPE)).value).tyson;
      t2.factories == BuiltInFactories(date)
      && t2.cache == map[PrimHash(BooleanKind) := Prim(BooleanKind), PrimHash(NumberKind) := Prim(NumberKind)]
  {
    PrimHashesDistinct();
    WarmUpStep(t1, date, NumberKind);
  }

  /** Resolving String after Boolean and Number completes the warm cache. */
  lemma WarmUpString(t2: Tyson, date: Codec)
    requires t2.factories == BuiltInFactories(date)
    requires t2.cache == map[PrimHash(BooleanKind) := Prim(BooleanKind), PrimHash(NumberKind) := Prim(NumberKind)]
    ensures GetAdapter(t2, Token(Class(STRING_TYPE)).value).tyson.cache == WarmCache()
  {
    PrimHashesDistinct();
    WarmUpStep(t2, date, StringKind);
  }

  /**
   * Resolving Boolean, Number and String once on a default registry caches
   * the primitive adapters.
   */
  lemma PrimsCachedAfterWarmUp(classes: map<string, ClassDecl>, date: Codec)
    ensures var t0 := New(None, classes, date);
      var t1 := GetAdapter(t0, Token(Class(BOOLEAN_TYPE)).value).tyson;
      var t2 := GetAdapter(t1, Token(Class(NUMBER_TYPE)).value).tyson;
      var t3 := GetAdapter(t2, Token(Class(STRING_TYPE)).value).tyson;
      PrimsCached(t3)
  {
    WarmUpBoolean(classes, date);
    var t1 := GetAdapter(New(None, classes, date), Token(Class(BOOLEAN_TYPE)).value).tyson;
    WarmUpNumber(t1, date);
    var t2 := GetAdapter(t1, Token(Class(NUMBER_TYPE)).value).tyson;
    WarmUpString(t2, date);
    WarmCacheHoldsPrims();
  }

  /** The warm cache maps every primitive cache key to its primitive adapter. */
  lemma WarmCacheHoldsPrims()
    ensures forall k :: PrimHash(k) in WarmCache() && WarmCache()[PrimHash(k)] == Prim(k)
  {
    PrimHashesDistinct();
    forall k ensures PrimHash(k) in WarmCache() && WarmCache()[PrimHash(k)] == Prim(k) {
      assert k == BooleanKind || k == NumberKind || k == StringKind;
    }
  }

  /** The three primitive classes have three different cache keys. */
  lemma PrimHashesDistinct()
    ensures PrimHash(BooleanKind) != PrimHash(NumberKind)
    ensures PrimHash(BooleanKind) != PrimHash(StringKind)
    ensures PrimHash(NumberKind) != PrimHash(StringKind)
  {
    assert PrimHash(BooleanKind)[0] == 'B' && PrimHash(NumberKind)[0] == 'N' && PrimHash(StringKind)[0] == 'S';
  }

  /**
   * Looking up primitive class k gives its primitive adapter: either the
   * cache already maps its hash to that adapter, or the registry still has
   * the built-in chain (with Date codec `date`) to resolve it.
   */
  ghost predicate PrimReady(t: Tyson, date: Codec, k: PrimKind) {
    if PrimHash(k) in t.cache then t.cache[PrimHash(k)] == Prim(k) else t.factories == BuiltInFactories(date)
  }

  /** Every primitive class resolves to its primitive adapter. */
  ghost predicate PrimsReady(t: Tyson, date: Codec) {
    forall k :: PrimReady(t, date, k)
  }

  /** A fresh `new Tyson()` resolves every primitive class. */
  lemma NewPrimsReady(classes: map<string, ClassDecl>, date: Codec)
    ensures PrimsReady(New(None, classes, date), date)
  {
    var t := New(None, classes, date);
    forall k ensures PrimReady(t, date, k) {
      assert PrimHash(k) !in t.cache;
    }
  }

  /** A registry with the primitive adapters cached resolves them, whatever its chain. */
  lemma CachedPrimsReady(t: Tyson, date: Codec)
    requires PrimsCached(t)
    ensures PrimsReady(t, date)
  {
    forall k ensures PrimReady(t, date, k) {
      assert PrimHash(k) in t.cache;
    }
  }

  /**
   * Looking up a primitive class on a registry that resolves the primitives
   * gives its primitive adapter, changes nothing on a cache hit, and leaves
   * a registry that still resolves them.
   */
  lemma PrimResolve(t: Tyson, date: Codec, k: PrimKind)
    requires PrimsReady(t, date)
    ensures var s := GetAdapter(t, Token(TypeAdapters.PrimClass(k)).value);
      && s.result == Ok(Prim(k))
      && PrimsReady(s.tyson, date)
      && (PrimHash(k) in t.cache ==> s.tyson == t)
  {
    assert PrimReady(t, date, k);
    if PrimHash(k) !in t.cache {
      WarmUpStep(t, date, k);
      ReadyAfterCaching(t, GetAdapter(t, Token(TypeAdapters.PrimClass(k)).value).tyson, date, k);
    }
  }

  /** Caching a primitive adapter under its own hash keeps the primitives resolving. */
  lemma ReadyAfterCaching(t: Tyson, t': Tyson, date: Codec, k: PrimKind)
    requires PrimsReady(t, date)
    requires t'.factories == t.factories && t'.cache == t.cache[PrimHash(k) := Prim(k)]
    ensures PrimsReady(t', date)
  {
    forall j ensures PrimReady(t', date, j) {
      assert PrimReady(t, date, j);
      if j != k {
        PrimHashInjective(j, k);
      }
    }
  }

  /** A non-basic class's hash, which ends in "Object", is never a primitive cache key. */
  lemma ObjectHashNotPrim(cls: string, k: PrimKind)
    ensures cls + OBJECT_TYPE != PrimHash(k)
  {
    var x := cls + OBJECT_TYPE;
    var h := PrimHash(k);
    assert x[|x| - 1] == 't';
    assert h[|h| - 1] != 't';
  }

  /** A class token's hash is a primitive cache key only for that primitive class. */
  lemma ClassHashIsPrim(cls: string, k: PrimKind)
    requires Token(Class(cls)).value.hash == PrimHash(k)
    ensures Class(cls) == TypeAdapters.PrimClass(k)
  {
    var n := GetTypeName(TypeAdapters.PrimClass(k));
    var h := PrimHash(k);
    assert h == n + n;
    ObjectHashNotPrim(cls, k);
    TokenProperties.ClassTokenHash(cls);
    assert Token(Class(cls)).value.hash == cls + cls;
    assert |cls| == |n|;
    assert cls == h[..|cls|] == n;
    assert TypeAdapters.PrimClass(k) == Class(n);
  }

  /** A lookup of a token whose hash is no primitive cache key keeps the primitives resolving. */
  lemma LookupKeepsReady(t: Tyson, date: Codec, tok: TypeToken)
    requires PrimsReady(t, date)
    requires forall k :: tok.hash != PrimHash(k)
    ensures PrimsReady(GetAdapter(t, tok).tyson, date)
  {
    var s := GetAdapter(t, tok);
    forall k ensures PrimReady(s.tyson, date, k) {
      assert PrimReady(t, date, k);
    }
  }

  /** Different primitive classes have different cache keys. */
  lemma PrimHashInjective(j: PrimKind, k: PrimKind)
    requires j != k
    ensures PrimHash(j) != PrimHash(k)
  {
    PrimHashesDistinct();
  }

  /** The primitive kind of a primitive value. */
  function KindOf(v: Value): (k: PrimKind)
    requires v.Bool? || v.Num? || v.Str?
    ensures TypeAdapters.IsKind(k, v) && ConstructorOf(v) == Some(TypeAdapters.PrimClass(k))
  {
    if v.Bool? then BooleanKind else if v.Num? then NumberKind else StringKind
  }

  /**
   * `toJson` of a primitive value, with or without its class, looks up the
   * primitive adapter and gives the value itself.
   */
  lemma PrimToJson(t: Tyson, date: Codec, k: PrimKind, v: Value)
    requires PrimsReady(t, date) && TypeAdapters.IsKind(k, v)
    ensures var s := GetAdapter(t, Token(TypeAdapters.PrimClass(k)).value);
      && ToJson(t, v, None) == Step(Ok(v), s.tyson)
      && ToJson(t, v, Some(TypeAdapters.PrimClass(k))) == Step(Ok(v), s.tyson)
  {
    PrimResolve(t, date, k);
    var s := GetAdapter(t, Token(TypeAdapters.PrimClass(k)).value);
    assert KindOf(v) == k;
    assert Write(s.tyson, Prim(k), v) == Step(Ok(v), s.tyson);
  }

  /**
   * `fromJson` of a non-null, non-array value as a primitive class looks up
   * the primitive adapter and gives that adapter's own type check.
   */
  lemma PrimFromJson(t: Tyson, date: Codec, k: PrimKind, v: Value)
    requires PrimsReady(t, date) && v != Null && !v.Arr?
    ensures var s := GetAdapter(t, Token(TypeAdapters.PrimClass(k)).value);
      FromJson(t, v, TypeAdapters.PrimClass(k)) == Step(TypeAdapters.PrimRead(k, v), s.tyson)
  {
    PrimResolve(t, date, k);
    var s := GetAdapter(t, Token(TypeAdapters.PrimClass(k)).value);
    assert RequestedShape(v, TypeAdapters.PrimClass(k)) == TypeAdapters.PrimClass(k);
    assert Read(s.tyson, Prim(k), v) == Step(TypeAdapters.PrimRead(k, v), s.tyson);
  }

  /**
   * On a registry that resolves the primitive classes (a fresh `new Tyson()`
   * among them), a primitive value converts to JSON as itself and reads
   * back as itself; with the adapter cached neither call changes the
   * registry, and after `toJson` it is cached. A value of another kind (not
   * null, not an array) is refused with the primitive adapter's message.
   */
  lemma PrimitiveRoundTrip(t: Tyson, date: Codec, k: PrimKind, v: Value)
    requires PrimsReady(t, date)
    ensures TypeAdapters.IsKind(k, v) ==>
      var w := ToJson(t, v, None);
      && w.result == Ok(v)
      && ToJson(t, v, Some(TypeAdapters.PrimClass(k))) == w
      && FromJson(t, v, TypeAdapters.PrimClass(k)) == w
      && (PrimHash(k) in t.cache ==> w.tyson == t)
      && FromJson(w.tyson, v, TypeAdapters.PrimClass(k)) == Step(Ok(v), w.tyson)
    ensures !TypeAdapters.IsKind(k, v) && v != Null && !v.Arr? ==>
      var r := FromJson(t, v, TypeAdapters.PrimClass(k));
      && r.result == Err(Deserialization(TypeAdapters.MismatchMessage(k, v), None))
      && (PrimHash(k) in t.cache ==> r.tyson == t)
  {
    PrimResolve(t, date, k);
    var s := GetAdapter(t, Token(TypeAdapters.PrimClass(k)).value);
    if TypeAdapters.IsKind(k, v) {
      PrimToJson(t, date, k, v);
      PrimFromJson(t, date, k, v);
      PrimResolve(s.tyson, date, k);
      PrimFromJson(s.tyson, date, k, v);
    } else if v != Null && !v.Arr? {
      PrimFromJson(t, date, k, v);
    }
  }

  /** A property `_toJson` and `_fromJson` treat as a primitive field read and written in both directions. */
  predicate FlatProp(p: Prop) {
    PrimOf(p.meta.typ).Some? && p.meta.access == Both
  }

  /** Every recorded property is flat, and no two share a field key or a JSON key. */
  predicate FlatClass(props: seq<Prop>) {
    && (forall j :: 0 <= j < |props| ==> FlatProp(props[j]))
    && (forall j, j' :: 0 <= j < j' < |props| ==> props[j].key != props[j'].key)
    && (forall j, j' :: 0 <= j < j' < |props| ==> JsonKey(props[j]) != JsonKey(props[j']))
  }

  /** The value of field `key` in `fields` is a value of the primitive kind of `p`. */
  predicate HoldsKind(fields: map<string, Value>, key: string, p: Prop)
    requires FlatProp(p)
  {
    key in fields && TypeAdapters.IsKind(PrimOf(p.meta.typ).value, fields[key])
  }

  /** Every recorded property's field holds a value of its declared primitive type. */
  predicate Conforms(src: Value, props: seq<Prop>)
    requires forall j :: 0 <= j < |props| ==> FlatProp(props[j])
  {
    src.Inst? && forall j :: 0 <= j < |props| ==> HoldsKind(src.fields, props[j].key, props[j])
  }

  /**
   * A flat property whose field holds a value of its kind is written as that
   * value; the registry still resolves the primitives, and is untouched when
   * they are cached.
   */
  lemma FlatWriteProp(t: Tyson, date: Codec, p: Prop, src: Value)
    requires PrimsReady(t, date) && FlatProp(p) && HasFields(src) && HoldsKind(src.fields, p.key, p)
    ensures var r := WriteProp(t, p, src);
      && r.result == Ok(Some(src.fields[p.key]))
      && PrimsReady(r.tyson, date)
      && (PrimsCached(t) ==> r.tyson == t)
  {
    var k := PrimOf(p.meta.typ).value;
    PrimResolve(t, date, k);
    var tok := Token(TypeAdapters.PrimClass(k)).value;
    assert Token(p.meta.typ) == Ok(tok);
    var s := GetAdapter(t, tok);
    assert Write(s.tyson, Prim(k), src.fields[p.key]) == Step(Ok(src.fields[p.key]), s.tyson);
  }

  /**
   * A flat property whose JSON key holds a value of its kind is read as
   * that value; the registry still resolves the primitives, and is
   * untouched when they are cached.
   */
  lemma FlatReadProp(t: Tyson, date: Codec, cls: string, p: Prop, json: Value)
    requires PrimsReady(t, date) && FlatProp(p) && json.Obj? && HoldsKind(json.fields, JsonKey(p), p)
    ensures var r := ReadProp(t, cls, p, json);
      && r.result == Ok(Some(json.fields[JsonKey(p)]))
      && PrimsReady(r.tyson, date)
      && (PrimsCached(t) ==> r.tyson == t)
  {
    var k := PrimOf(p.meta.typ).value;
    PrimResolve(t, date, k);
    var tok := Token(TypeAdapters.PrimClass(k)).value;
    assert Token(p.meta.typ) == Ok(tok);
    var s := GetAdapter(t, tok);
    assert Read(s.tyson, Prim(k), json.fields[JsonKey(p)]) == Step(Ok(json.fields[JsonKey(p)]), s.tyson);
  }

  /**
   * One turn of the `_toJson` loop over a flat property: its value goes in
   * under its JSON key and the loop goes on in registry `s`.
   */
  lemma FlatWriteStep(t: Tyson, date: Codec, props: seq<Prop>, i: nat, src: Value, out: map<string, Value>)
      returns (s: Tyson)
    requires PrimsReady(t, date) && i < |props| && FlatProp(props[i]) && HasFields(src) && HoldsKind(src.fields, props[i].key, props[i])
    ensures PrimsReady(s, date) && (PrimsCached(t) ==> s == t)
    ensures WriteProps(t, props, i, src, out)
         == WriteProps(s, props, i + 1, src, out[JsonKey(props[i]) := src.fields[props[i].key]])
  {
    FlatWriteProp(t, date, props[i], src);
    s := WriteProp(t, props[i], src).tyson;
  }

  /**
   * One turn of the `_fromJson` loop over a flat property: its field takes
   * the value under its JSON key and the loop goes on in registry `s`.
   */
  lemma FlatReadStep(t: Tyson, date: Codec, cls: string, props: seq<Prop>, i: nat, json: Value, obj: map<string, Value>)
      returns (s: Tyson)
    requires PrimsReady(t, date) && i < |props| && FlatProp(props[i]) && json.Obj? && HoldsKind(json.fields, JsonKey(props[i]), props[i])
    ensures PrimsReady(s, date) && (PrimsCached(t) ==> s == t)
    ensures ReadProps(t, cls, props, i, json, obj)
         == ReadProps(s, cls, props, i + 1, json, obj[props[i].key := json.fields[JsonKey(props[i])]])
  {
    FlatReadProp(t, date, cls, props[i], json);
    s := ReadProp(t, cls, props[i], json).tyson;
  }

  /**
   * `_toJson` of a conforming instance of a flat class leaves a registry
   * that still resolves the primitives, the same one when they are cached.
   */
  lemma {:induction false} FlatWriteRegistry(t: Tyson, date: Codec, props: seq<Prop>, i: nat, src: Value, out: map<string, Value>)
    requires PrimsReady(t, date) && FlatClass(props) && Conforms(src, props) && i <= |props|
    ensures var r := WriteProps(t, props, i, src, out);
      PrimsReady(r.tyson, date) && (PrimsCached(t) ==> r.tyson == t)
    decreases |props| - i
  {
    if i < |props| {
      var p := props[i];
      var s := FlatWriteStep(t, date, props, i, src, out);
      FlatWriteRegistry(s, date, props, i + 1, src, out[JsonKey(p) := src.fields[p.key]]);
    }
  }

  /**
   * `_toJson` of a conforming instance of a flat class succeeds and adds
   * exactly the properties' JSON keys.
   */
  lemma {:induction false} FlatWriteKeys(t: Tyson, date: Codec, props: seq<Prop>, i: nat, src: Value, out: map<string, Value>)
    requires PrimsReady(t, date) && FlatClass(props) && Conforms(src, props) && i <= |props|
    ensures var r := WriteProps(t, props, i, src, out);
      && r.result.Ok? && r.result.value.Obj?
      && (forall k :: k in r.result.value.fields <==> k in out || exists j :: i <= j < |props| && JsonKey(props[j]) == k)
    decreases |props| - i
  {
    if i < |props| {
      var p := props[i];
      var s := FlatWriteStep(t, date, props, i, src, out);
      var out' := out[JsonKey(p) := src.fields[p.key]];
      FlatWriteKeys(s, date, props, i + 1, src, out');
      var fields := WriteProps(s, props, i + 1, src, out').result.value.fields;
      forall k
        ensures k in fields <==> k in out || exists j :: i <= j < |props| && JsonKey(props[j]) == k
      {
        if k == JsonKey(p) {
          assert JsonKey(props[i]) == k;
        }
      }
    }
  }

  /** `_toJson` of a conforming instance of a flat class keeps every entry built so far that no property writes. */
  lemma {:induction false} FlatWriteKeeps(t: Tyson, date: Codec, props: seq<Prop>, i: nat, src: Value, out: map<string, Value>)
    requires PrimsReady(t, date) && FlatClass(props) && Conforms(src, props) && i <= |props|
    ensures var r := WriteProps(t, props, i, src, out);
      && r.result.Ok? && r.result.value.Obj?
      && (forall k :: k in out && (forall j :: i <= j < |props| ==> JsonKey(props[j]) != k) ==>
            k in r.result.value.fields && r.result.value.fields[k] == out[k])
    decreases |props| - i
  {
    if i < |props| {
      var p := props[i];
      var s := FlatWriteStep(t, date, props, i, src, out);
      FlatWriteKeeps(s, date, props, i + 1, src, out[JsonKey(p) := src.fields[p.key]]);
    }
  }

  /**
   * `_toJson` of a conforming instance of a flat class puts each property's
   * value under its JSON key.
   */
  lemma {:induction false} FlatWrite(t: Tyson, date: Codec, props: seq<Prop>, i: nat, src: Value, out: map<string, Value>)
    requires PrimsReady(t, date) && FlatClass(props) && Conforms(src, props) && i <= |props|
    ensures var r := WriteProps(t, props, i, src, out);
      && r.result.Ok? && r.result.value.Obj?
      && forall j :: i <= j < |props| ==>
           JsonKey(props[j]) in r.result.value.fields && r.result.value.fields[JsonKey(props[j])] == src.fields[props[j].key]
    decreases |props| - i
  {
    if i < |props| {
      var p := props[i];
      var s := FlatWriteStep(t, date, props, i, src, out);
      var out' := out[JsonKey(p) := src.fields[p.key]];
      FlatWrite(s, date, props, i + 1, src, out');
      FlatWriteKeeps(s, date, props, i + 1, src, out');
      var fields := WriteProps(s, props, i + 1, src, out').result.value.fields;
      forall j | i <= j < |props|
        ensures JsonKey(props[j]) in fields && fields[JsonKey(props[j])] == src.fields[props[j].key]
      {
        if j == i {
          assert forall j' :: i < j' < |props| ==> JsonKey(props[j']) != JsonKey(p);
        }
      }
    }
  }

  /** The JSON object holds a value of the right kind under the JSON key of every property from i onwards. */
  predicate JsonConforms(json: Value, props: seq<Prop>, i: nat)
    requires forall j :: 0 <= j < |props| ==> FlatProp(props[j])
  {
    json.Obj? && forall j :: i <= j < |props| ==> HoldsKind(json.fields, JsonKey(props[j]), props[j])
  }

  /**
   * `_fromJson` of a JSON object conforming to a flat class leaves a
   * registry that still resolves the primitives, the same one when they are
   * cached.
   */
  lemma {:induction false} FlatReadRegistry(t: Tyson, date: Codec, cls: string, props: seq<Prop>, i: nat, json: Value, obj: map<string, Value>)
    requires PrimsReady(t, date) && FlatClass(props) && i <= |props| && JsonConforms(json, props, i)
    ensures var r := ReadProps(t, cls, props, i, json, obj);
      PrimsReady(r.tyson, date) && (PrimsCached(t) ==> r.tyson == t)
    decreases |props| - i
  {
    if i < |props| {
      var p := props[i];
      assert HoldsKind(json.fields, JsonKey(p), p);
      var s := FlatReadStep(t, date, cls, props, i, json, obj);
      FlatReadRegistry(s, date, cls, props, i + 1, json, obj[p.key := json.fields[JsonKey(p)]]);
    }
  }

  /**
   * `_fromJson` of a JSON object conforming to a flat class succeeds and
   * leaves every field no property reads as it was.
   */
  lemma {:induction false} FlatReadKeeps(t: Tyson, date: Codec, cls: string, props: seq<Prop>, i: nat, json: Value, obj: map<string, Value>)
    requires PrimsReady(t, date) && FlatClass(props) && i <= |props| && JsonConforms(json, props, i)
    ensures var r := ReadProps(t, cls, props, i, json, obj);
      && r.result.Ok? && r.result.value.Inst? && r.result.value.cls == cls
      && (forall k :: k in obj ==> k in r.result.value.fields)
      && (forall k :: k in obj && (forall j :: i <= j < |props| ==> props[j].key != k) ==> r.result.value.fields[k] == obj[k])
    decreases |props| - i
  {
    if i < |props| {
      var p := props[i];
      assert HoldsKind(json.fields, JsonKey(p), p);
      var s := FlatReadStep(t, date, cls, props, i, json, obj);
      var obj' := obj[p.key := json.fields[JsonKey(p)]];
      FlatReadKeeps(s, date, cls, props, i + 1, json, obj');
    }
  }

  /**
   * `_fromJson` of a JSON object conforming to a flat class sets each
   * property's field to the value under its JSON key.
   */
  lemma {:induction false} FlatRead(t: Tyson, date: Codec, cls: string, props: seq<Prop>, i: nat, json: Value, obj: map<string, Value>)
    requires PrimsReady(t, date) && FlatClass(props) && i <= |props| && JsonConforms(json, props, i)
    ensures var r := ReadProps(t, cls, props, i, json, obj);
      && r.result.Ok? && r.result.value.Inst?
      && forall j :: i <= j < |props| ==>
           && JsonKey(props[j]) in json.fields && props[j].key in r.result.value.fields
           && r.result.value.fields[props[j].key] == json.fields[JsonKey(props[j])]
    decreases |props| - i
  {
    if i < |props| {
      var p := props[i];
      assert HoldsKind(json.fields, JsonKey(p), p);
      var s := FlatReadStep(t, date, cls, props, i, json, obj);
      var obj' := obj[p.key := json.fields[JsonKey(p)]];
      FlatRead(s, date, cls, props, i + 1, json, obj');
      FlatReadKeeps(s, date, cls, props, i + 1, json, obj');
      var fields := ReadProps(s, cls, props, i + 1, json, obj').result.value.fields;
      forall j | i <= j < |props|
        ensures props[j].key in fields && fields[props[j].key] == json.fields[JsonKey(props[j])]
      {
        if j == i {
          assert forall j' :: i < j' < |props| ==> props[j'].key != p.key;
        }
      }
    }
  }

  /**
   * A class lookup that gives an object adapter, on a registry that
   * resolves the primitives, was not for a primitive hash, so the registry
   * after it still resolves them.
   */
  lemma ObjectLookupKeepsReady(t: Tyson, date: Codec, cls: string, props: seq<Prop>)
    requires PrimsReady(t, date)
    requires GetAdapter(t, Token(Class(cls)).value).result == Ok(ObjectA(cls, props))
    ensures PrimsReady(GetAdapter(t, Token(Class(cls)).value).tyson, date)
  {
    var tok := Token(Class(cls)).value;
    forall k ensures tok.hash != PrimHash(k) {
      if tok.hash == PrimHash(k) {
        ClassHashIsPrim(cls, k);
        PrimResolve(t, date, k);
        assert false;
      }
    }
    LookupKeepsReady(t, date, tok);
  }

  /**
   * `toJson` then `fromJson` of an instance of a flat class, on a registry
   * that resolves the primitive classes and the class itself to its object
   * adapter, gives back an instance of the same class whose recorded fields
   * hold the original values and whose other fields are those of a fresh
   * `new C()`.
   */
  lemma FlatClassRoundTrip(t: Tyson, date: Codec, cls: string, props: seq<Prop>, src: Value)
    requires PrimsReady(t, date) && FlatClass(props) && Conforms(src, props) && src.cls == cls
    requires GetAdapter(t, Token(Class(cls)).value).result == Ok(ObjectA(cls, props))
    ensures var w := ToJson(t, src, None);
      && w.result.Ok? && w.result.value.Obj?
      && (forall k :: k in w.result.value.fields <==> exists j :: 0 <= j < |props| && JsonKey(props[j]) == k)
      && var r := FromJson(w.tyson, w.result.value, Class(cls));
         && r.result.Ok? && r.result.value.Inst? && r.result.value.cls == cls
         && (forall j :: 0 <= j < |props| ==>
               props[j].key in r.result.value.fields && r.result.value.fields[props[j].key] == src.fields[props[j].key])
         && (forall k :: k in FreshFields(DeclOf(t.classes, cls).fields) && !Records(props, k) ==>
               k in r.result.value.fields && r.result.value.fields[k] == FreshFields(DeclOf(t.classes, cls).fields)[k])
  {
    var tok := Token(Class(cls)).value;
    var s := GetAdapter(t, tok);
    var a := ObjectA(cls, props);
    ObjectLookupKeepsReady(t, date, cls, props);
    FlatWriteRegistry(s.tyson, date, props, 0, src, map[]);
    FlatWriteKeys(s.tyson, date, props, 0, src, map[]);
    FlatWrite(s.tyson, date, props, 0, src, map[]);
    var w := WriteProps(s.tyson, props, 0, src, map[]);
    assert Write(s.tyson, a, src) == w;
    assert ToJson(t, src, None) == w;
    var json := w.result.value;
    forall j | 0 <= j < |props|
      ensures HoldsKind(json.fields, JsonKey(props[j]), props[j])
    {
      assert HoldsKind(src.fields, props[j].key, props[j]);
    }
    RegistryProperties.SameHashSameAdapter(t, tok, w.tyson, tok);
    var obj := FreshFields(DeclOf(t.classes, cls).fields);
    FlatReadKeeps(w.tyson, date, cls, props, 0, json, obj);
    FlatRead(w.tyson, date, cls, props, 0, json, obj);
    assert Read(w.tyson, a, json) == ReadProps(w.tyson, cls, props, 0, json, obj);
    assert FromJson(w.tyson, json, Class(cls)) == ReadProps(w.tyson, cls, props, 0, json, obj);
  }

  /**
   * On a fresh `new Tyson()`, a class the built-in object factory claims and
   * whose recorded properties are flat round-trips through `toJson` and
   * `fromJson`.
   */
  lemma NewRegistryRoundTrip(classes: map<string, ClassDecl>, date: Codec, cls: string, src: Value)
    requires !RegistryProperties.IsBuiltInClassName(cls)
    requires FlatClass(LoadMetadata(DeclOf(classes, cls).fields))
    requires Conforms(src, LoadMetadata(DeclOf(classes, cls).fields)) && src.cls == cls
    ensures var t := New(None, classes, date);
      var props := LoadMetadata(DeclOf(classes, cls).fields);
      var w := ToJson(t, src, None);
      && w.result.Ok? && w.result.value.Obj?
      && var r := FromJson(w.tyson, w.result.value, Class(cls));
         && r.result.Ok? && r.result.value.Inst? && r.result.value.cls == cls
         && (forall j :: 0 <= j < |props| ==>
               props[j].key in r.result.value.fields && r.result.value.fields[props[j].key] == src.fields[props[j].key])
  {
    var t := New(None, classes, date);
    var props := LoadMetadata(DeclOf(classes, cls).fields);
    NewPrimsReady(classes, date);
    RegistryProperties.BuiltInChainResolves(classes, date, Token(Class(cls)).value);
    FlatClassRoundTrip(t, date, cls, props, src);
  }
}

=== FILE: token_properties.dfy ===
/**
 * Properties of type names, the recursive type hash and token hashes
 * (src/reflect/reflectionUtils.ts, src/reflect/typeToken.ts).
 */
module TokenProperties {
  import opened Wrappers
  import opened ReflectionUtils
  import opened TypeHash
  import opened TypeTokens

  /** Every array has the type name "Array", whatever its elements. */
  lemma ArrayTypeNameIgnoresElements(es1: seq<TypeDesc>, es2: seq<TypeDesc>)
    ensures GetTypeName(List(es1)) == GetTypeName(List(es2)) == ARRAY_TYPE
  {
  }

  /**
   * The shape of the recursive hash: a class hashes to its type name; an
   * array's hash is "Array:(", its parts, and ")".
   */
  lemma TypeHashShape(d: TypeDesc)
    ensures d.Class? ==> GetTypeHash(d) == GetTypeName(d)
    ensures d.List? ==> |GetTypeHash(d)| >= 8 && GetTypeHash(d)[..7] == "Array:(" && GetTypeHash(d)[|GetTypeHash(d)| - 1] == ')'
    ensures d.List? ==> GetTypeHash(d) == "Array:(" + HashParts(d, 0) + ")"
  {
  }

  /** Parts are joined by "+", with nothing before the first. */
  lemma HashPartsJoin(d: TypeDesc, i: nat)
    requires d.List? && i < |d.elems|
    ensures i == 0 ==> HashParts(d, i) == HashPart(d.elems[0]) + HashParts(d, 1)
    ensures i > 0 ==> HashParts(d, i) == "+" + HashPart(d.elems[i]) + HashParts(d, i + 1)
  {
  }

  /** A worked hash: a nested array contributes its own hash followed by one more ")". */
  lemma TypeHashExample()
    ensures GetTypeHash(List([Class("A"), List([Class("B")])])) == "Array:(A+Array:(B)))"
  {
    var inner := List([Class("B")]);
    var outer := List([Class("A"), inner]);
    assert HashParts(inner, 1) == "";
    assert GetTypeHash(inner) == "Array:(B)";
    assert HashParts(outer, 2) == "";
    assert HashParts(outer, 1) == "+" + "Array:(B)" + ")";
  }

  /**
   * The recursive hash is a function of the structure alone, and loses none
   * of it: well-named descriptors have equal hashes exactly when they are equal.
   */
  lemma TypeHashIdentifiesShape(d1: TypeDesc, d2: TypeDesc)
    requires WellNamed(d1) && WellNamed(d2)
    ensures GetTypeHash(d1) == GetTypeHash(d2) <==> d1 == d2
  {
    if GetTypeHash(d1) == GetTypeHash(d2) {
      HashInjective(d1, d2);
    }
  }

  /** A class's token hash: its name twice when basic, else its name and "Object". */
  lemma ClassTokenHash(n: string)
    ensures Token(Class(n)).Ok?
    ensures IsBasicType(n) ==> Token(Class(n)).value.hash == n + n
    ensures !IsBasicType(n) ==> Token(Class(n)).value.hash == n + OBJECT_TYPE
  {
  }

  /** An array's token hash is "Array" and the type name of element 0; later elements are ignored. */
  lemma ArrayTokenHash(es: seq<TypeDesc>)
    requires |es| > 0
    ensures Token(List(es)).Ok? && Token(List(es)).value.hash == ARRAY_TYPE + GetTypeName(es[0])
  {
  }

  /** `[A]` and `[A, B]` get the same token hash. */
  lemma TupleSharesArrayHash(a: TypeDesc, b: TypeDesc)
    ensures Token(List([a])).Ok? && Token(List([a, b])).Ok?
    ensures Token(List([a])).value.hash == Token(List([a, b])).value.hash
  {
  }

  /** Every array of arrays gets the token hash "ArrayArray", whatever the inner shapes. */
  lemma NestedArraysShareHash(es1: seq<TypeDesc>, es2: seq<TypeDesc>)
    ensures Token(List([List(es1)])).Ok? && Token(List([List(es2)])).Ok?
    ensures Token(List([List(es1)])).value.hash == Token(List([List(es2)])).value.hash == "ArrayArray"
  {
  }

  /**
   * So the token hash, unlike the recursive hash, does not identify the
   * shape: two different well-named shapes share a token hash.
   */
  lemma TokenHashLosesShape()
    ensures exists d1, d2 ::
              && WellNamed(d1) && WellNamed(d2) && d1 != d2
              && Token(d1).Ok? && Token(d2).Ok? && Token(d1).value.hash == Token(d2).value.hash
  {
    var d1 := List([List([Class("Number")])]);
    var d2 := List([List([Class("String")])]);
    NestedArraysShareHash([Class("Number")], [Class("String")]);
    assert d1.elems[0] != d2.elems[0] by {
      assert d1.elems[0].elems[0].name[0] == 'N';
      assert d2.elems[0].elems[0].name[0] == 'S';
    }
    assert WellNamed(d1) by { assert IsName("Number"); }
    assert WellNamed(d2) by { assert IsName("String"); }
  }

  /** `equalsByType` looks at type names only, so any two arrays are equal by type. */
  lemma EqualsByTypeComparesNames(tok: TypeToken, other: TypeDesc)
    ensures EqualsByType(tok, other) <==> GetTypeName(tok.typ) == GetTypeName(other)
    ensures tok.typ.List? && other.List? ==> EqualsByType(tok, other)
  {
  }
}

=== FILE: type_adapter.dfy ===
/**
 * Adapters and adapter factories (src/typeAdapter.ts,
 * src/typeAdapterFactory.ts). An adapter is a tag saying which converter
 * it is; the conversions themselves, and the null guard every adapter's
 * public `fromJson`/`toJson` applies, are in the Tyson module, because
 * object and array adapters re-enter the registry.
 */
module TypeAdapter {
  import opened Wrappers
  import opened Plain
  import opened Errors
  import opened ReflectionUtils
  import opened TypeTokens

  /**
   * The protected `_fromJson`/`_toJson` of an adapter whose code is not part
   * of this model: a user-written adapter, or the built-in Date adapter,
   * whose behaviour is JavaScript's `Date`.
   */
  datatype Codec = Codec(read: Value -> Result<Value, Error>, write: Value -> Result<Value, Error>)

  datatype PrimKind = BooleanKind | NumberKind | StringKind

  /** A recorded property: the field's key and its metadata. */
  datatype Prop = Prop(key: string, meta: PropMeta)

  datatype Adapter =
    /** BOOLEAN, NUMBER or STRING. */
    | Prim(kind: PrimKind)
    /** An ObjectTypeAdapter for class `cls` with the metadata it loaded when built. */
    | ObjectA(cls: string, props: seq<Prop>)
    /** An ArrayTypeAdapter holding the token of its element shape. */
    | ArrayA(elem: TypeToken)
    /** An adapter whose conversions are opaque: a user adapter, or DATE. */
    | Custom(id: string, codec: Codec)

  /** The factories the registry consults, in its chain. */
  datatype Factory =
    /** `newFactory` with a token: claims tokens with the same hash. */
    | ForToken(token: TypeToken, adapter: Adapter)
    /** `newFactory` with a class: claims tokens whose type name matches. */
    | ForClass(cls: TypeDesc, adapter: Adapter)
    /** ObjectTypeAdapter.FACTORY. */
    | ObjectFactory
    /** ArrayTypeAdapter.FACTORY. */
    | ArrayFactory
    /** Any other user-registered factory; it does not consult the registry. */
    | UserFactory(create: TypeToken -> Option<Adapter>)
}

=== FILE: type_adapters.dfy ===
/**
 * The built-in primitive adapters and `newFactory`
 * (src/adapters/typeAdapters.ts).
 */
module TypeAdapters {
  import opened Wrappers
  import opened Plain
  import opened Errors
  import opened ReflectionUtils
  import opened TypeTokens
  import opened TypeAdapter

  /** The `typeof` a primitive adapter accepts. */
  function Expected(k: PrimKind): string {
    match k
    case BooleanKind => "boolean"
    case NumberKind => "number"
    case StringKind => "string"
  }

  /** The class a primitive adapter is registered for. */
  function PrimClass(k: PrimKind): TypeDesc {
    match k
    case BooleanKind => Class(BOOLEAN_TYPE)
    case NumberKind => Class(NUMBER_TYPE)
    case StringKind => Class(STRING_TYPE)
  }

  /** Whether a value is of the primitive kind. */
  predicate IsKind(k: PrimKind, v: Value) {
    match k
    case BooleanKind => v.Bool?
    case NumberKind => v.Num?
    case StringKind => v.Str?
  }

  function MismatchMessage(k: PrimKind, v: Value): string {
    "Value '" + Display(v) + "' does not match the expected type: " + Expected(k) + "."
  }

  /** `fromJson` of BOOLEAN, NUMBER or STRING: a type check, then the value itself. */
  function PrimRead(k: PrimKind, v: Value): (r: Result<Value, Error>)
    ensures r.Ok? <==> IsKind(k, v)
    ensures r.Ok? ==> r.value == v
    ensures r.Err? ==> r.error == Deserialization(MismatchMessage(k, v), None)
  {
    if TypeOf(v) == Expected(k) then Ok(v)
    else Err(Deserialization(MismatchMessage(k, v), None))
  }

  /** `toJson` of BOOLEAN, NUMBER or STRING: the value itself, whatever it is. */
  function PrimWrite(k: PrimKind, v: Value): (r: Result<Value, Error>)
    ensures r.Ok? && r.value == v
    ensures IsKind(k, v) ==> PrimRead(k, r.value) == Ok(v)
  {
    Ok(v)
  }

  /** The answer of a factory built by `newFactory`. */
  function NewFactoryCreate(f: Factory, tok: TypeToken): (r: Option<Adapter>)
    requires f.ForToken? || f.ForClass?
    ensures f.ForToken? ==> (r.Some? <==> f.token.hash == tok.hash)
    ensures f.ForClass? ==> (r.Some? <==> GetTypeName(tok.typ) == GetTypeName(f.cls))
    ensures r.Some? ==> r.value == f.adapter
  {
    match f
    case ForToken(ft, a) => if ft.hash == tok.hash then Some(a) else None
    case ForClass(c, a) => if EqualsByType(tok, c) then Some(a) else None
  }

  /** BOOLEAN_FACTORY, NUMBER_FACTORY and STRING_FACTORY. */
  function PrimFactory(k: PrimKind): Factory {
    ForClass(PrimClass(k), Prim(k))
  }

  /** DATE_FACTORY, whose adapter is the supplied Date behaviour. */
  function DateFactory(date: Codec): Factory {
    ForClass(Class("Date"), Custom("Date", date))
  }
}

=== FILE: type_hash.dfy ===
/**
 * Facts about the recursive type hash of src/reflect/reflectionUtils.ts:
 * its shape, and that it loses no information: a parser recovers the
 * descriptor from its hash, so two well-named descriptors with the same
 * hash are equal.
 */
module TypeHash {
  import opened Wrappers
  import opened ReflectionUtils

  /** Characters a class name can hold: none of the hash's own punctuation. */
  predicate IsNameChar(c: char) {
    c != ':' && c != '(' && c != ')' && c != '+'
  }

  predicate IsName(n: string) {
    |n| > 0 && forall i :: 0 <= i < |n| ==> IsNameChar(n[i])
  }

  /** Every class named in the descriptor has a proper (identifier-like) name. */
  predicate WellNamed(d: TypeDesc)
    decreases d
  {
    match d
    case Class(n) => IsName(n)
    case List(es) => forall i :: 0 <= i < |es| ==> WellNamed(es[i])
  }

  /** Length of the longest prefix of name characters. */
  function NameLen(s: string): (k: nat)
    ensures k <= |s|
    ensures forall i :: 0 <= i < k ==> IsNameChar(s[i])
    ensures k < |s| ==> !IsNameChar(s[k])
  {
    if |s| == 0 || !IsNameChar(s[0]) then 0 else 1 + NameLen(s[1..])
  }

  /** Parses one hash off the front of s, returning the descriptor and what follows. */
  function ParseDesc(s: string): (r: Option<(TypeDesc, string)>)
    ensures r.Some? ==> |r.value.1| < |s|
    decreases |s|, 0
  {
    var k := NameLen(s);
    if k == 0 then None
    else
      var rest := s[k..];
      if s[..k] == ARRAY_TYPE && |rest| >= 2 && rest[0] == ':' && rest[1] == '(' then
        match ParseList(rest[2..])
        case None => None
        case Some(p) => Some((List(p.0), p.1))
      else Some((Class(s[..k]), rest))
  }

  /** Parses the element parts after "Array:(", through the closing ")". */
  function ParseList(s: string): (r: Option<(seq<TypeDesc>, string)>)
    ensures r.Some? ==> |r.value.1| < |s|
    decreases |s|, 2
  {
    if |s| > 0 && s[0] == ')' then Some(([], s[1..])) else ParseElems(s, [])
  }

  /** Parses one element part, then either "+" and more parts or the closing ")". */
  function ParseElems(s: string, acc: seq<TypeDesc>): (r: Option<(seq<TypeDesc>, string)>)
    ensures r.Some? ==> |r.value.1| < |s|
    decreases |s|, 1
  {
    match ParseDesc(s)
    case None => None
    case Some(p) =>
      var e := p.0;
      var after := p.1;
      if e.List? && !(|after| > 0 && after[0] == ')') then None
      else
        var tail := if e.List? then after[1..] else after;
        if |tail| > 0 && tail[0] == '+' then ParseElems(tail[1..], acc + [e])
        else if |tail| > 0 && tail[0] == ')' then Some((acc + [e], tail[1..]))
        else None
  }

  /** What may follow a hash inside an enclosing hash: nothing, "+" or ")". */
  predicate Stops(rest: string) {
    |rest| == 0 || rest[0] == ')' || rest[0] == '+'
  }

  lemma NameLenOfName(n: string, rest: string)
    requires IsName(n) && (|rest| == 0 || !IsNameChar(rest[0]))
    ensures NameLen(n + rest) == |n|
    decreases |n|
  {
    if |n| > 1 {
      assert (n + rest)[1..] == n[1..] + rest;
      NameLenOfName(n[1..], rest);
    } else {
      assert (n + rest)[1..] == rest;
    }
  }

  lemma ParseClass(n: string, rest: string)
    requires IsName(n) && Stops(rest)
    ensures ParseDesc(n + rest) == Some((Class(n), rest))
  {
    NameLenOfName(n, rest);
    assert (n + rest)[..|n|] == n;
    assert (n + rest)[|n|..] == rest;
  }

  lemma ParseArray(body: string)
    ensures ParseDesc(ARRAY_TYPE + ":(" + body)
         == match ParseList(body)
            case None => None
            case Some(p) => Some((List(p.0), p.1))
  {
    var s := ARRAY_TYPE + ":(" + body;
    assert s == ARRAY_TYPE + (":(" + body);
    NameLenOfName(ARRAY_TYPE, ":(" + body);
    assert s[..5] == ARRAY_TYPE;
    assert s[5..] == ":(" + body;
    assert s[5..][2..] == body;
  }

  /** Parsing a hash followed by a stop gives back the descriptor and the stop. */
  lemma {:induction false} ParseHashRoundTrip(d: TypeDesc, rest: string)
    requires WellNamed(d) && Stops(rest)
    ensures ParseDesc(GetTypeHash(d) + rest) == Some((d, rest))
    decreases d, 1
  {
    match d
    case Class(n) =>
      ParseClass(n, rest);
    case List(es) =>
      var body := HashParts(d, 0) + ")" + rest;
      assert GetTypeHash(d) + rest == ARRAY_TYPE + ":(" + body;
      ParseArray(body);
      ParseListRoundTrip(d, rest);
  }

  /** The element parts and closing ")" of a list parse back to its elements. */
  lemma {:induction false} ParseListRoundTrip(d: TypeDesc, rest: string)
    requires d.List? && WellNamed(d) && Stops(rest)
    ensures ParseList(HashParts(d, 0) + ")" + rest) == Some((d.elems, rest))
    decreases d, 0, |d.elems| + 2
  {
    if |d.elems| == 0 {
      var body := HashParts(d, 0) + ")" + rest;
      assert body == ")" + rest;
      assert body[1..] == rest;
    } else {
      ParseNonEmptyList(d, rest);
    }
  }

  /** A non-empty list's parts start with a name character, so the element loop takes over. */
  lemma {:induction false} ParseNonEmptyList(d: TypeDesc, rest: string)
    requires d.List? && |d.elems| > 0 && WellNamed(d) && Stops(rest)
    ensures ParseList(HashParts(d, 0) + ")" + rest) == Some((d.elems, rest))
    decreases d, 0, |d.elems| + 1
  {
    var body := HashParts(d, 0) + ")" + rest;
    var first := HashPart(d.elems[0]);
    HashPartStartsWithName(d.elems[0]);
    assert HashParts(d, 0) == first + HashParts(d, 1);
    assert body == first + HashParts(d, 1) + ")" + rest;
    assert body[0] == first[0];
    assert ParseList(body) == ParseElems(body, []);
    ParseElemsRoundTrip(d, 0, [], rest);
    assert [] + d.elems[0..] == d.elems;
  }

  lemma HashPartStartsWithName(e: TypeDesc)
    requires WellNamed(e)
    ensures |HashPart(e)| > 0 && IsNameChar(HashPart(e)[0])
  {
    if e.List? {
      assert HashPart(e)[0] == 'A';
    }
  }

  /** One step of ParseElems, once the element in front is known. */
  lemma ParseElemsStep(s: string, acc: seq<TypeDesc>, e: TypeDesc, tail: string)
    requires e.Class? ==> ParseDesc(s) == Some((e, tail))
    requires e.List? ==> ParseDesc(s) == Some((e, ")" + tail))
    requires |tail| > 0 && (tail[0] == '+' || tail[0] == ')')
    ensures ParseElems(s, acc)
         == if tail[0] == '+' then ParseElems(tail[1..], acc + [e]) else Some((acc + [e], tail[1..]))
  {
    if e.List? {
      assert (")" + tail)[1..] == tail;
    }
  }

  /** One element part followed by a stop: the part parses to its element, then the stop decides. */
  lemma ParseOnePart(e: TypeDesc, tail: string, acc: seq<TypeDesc>)
    requires WellNamed(e) && |tail| > 0 && (tail[0] == '+' || tail[0] == ')')
    ensures ParseElems(HashPart(e) + tail, acc)
         == if tail[0] == '+' then ParseElems(tail[1..], acc + [e]) else Some((acc + [e], tail[1..]))
    decreases e, 2
  {
    if e.List? {
      assert HashPart(e) + tail == GetTypeHash(e) + (")" + tail);
      ParseHashRoundTrip(e, ")" + tail);
    } else {
      ParseHashRoundTrip(e, tail);
    }
    ParseElemsStep(HashPart(e) + tail, acc, e, tail);
  }

  /** What follows the parts from position i: a "+" and the next part, or the closing ")". */
  lemma PartsTail(d: TypeDesc, i: nat, rest: string)
    requires d.List? && 0 < i <= |d.elems|
    ensures var tail := HashParts(d, i) + ")" + rest;
      && |tail| > 0
      && (i < |d.elems| ==> tail[0] == '+' && tail[1..] == HashPart(d.elems[i]) + HashParts(d, i + 1) + ")" + rest)
      && (i == |d.elems| ==> tail[0] == ')' && tail[1..] == rest)
  {
    if i < |d.elems| {
      var next := HashPart(d.elems[i]) + HashParts(d, i + 1);
      assert HashParts(d, i) == "+" + next;
      assert HashParts(d, i) + ")" + rest == "+" + (next + ")" + rest);
    } else {
      assert HashParts(d, i) + ")" + rest == ")" + rest;
    }
  }

  /** Parsing the parts from element i onwards recovers elements i.. in order. */
  lemma {:induction false} ParseElemsRoundTrip(d: TypeDesc, i: nat, acc: seq<TypeDesc>, rest: string)
    requires d.List? && i < |d.elems| && WellNamed(d) && Stops(rest)
    ensures ParseElems(HashPart(d.elems[i]) + HashParts(d, i + 1) + ")" + rest, acc)
         == Some((acc + d.elems[i..], rest))
    decreases d, 0, |d.elems| - i
  {
    var e := d.elems[i];
    var tail := HashParts(d, i + 1) + ")" + rest;
    assert HashPart(e) + HashParts(d, i + 1) + ")" + rest == HashPart(e) + tail;
    PartsTail(d, i + 1, rest);
    ParseOnePart(e, tail, acc);
    if i + 1 < |d.elems| {
      ParseElemsRoundTrip(d, i + 1, acc + [e], rest);
      assert acc + [e] + d.elems[i + 1..] == acc + d.elems[i..];
    } else {
      assert d.elems[i..] == [e];
    }
  }

  /** The hash is injective on well-named descriptors. */
  lemma HashInjective(d1: TypeDesc, d2: TypeDesc)
    requires WellNamed(d1) && WellNamed(d2)
    requires GetTypeHash(d1) == GetTypeHash(d2)
    ensures d1 == d2
  {
    ParseHashRoundTrip(d1, "");
    ParseHashRoundTrip(d2, "");
    assert GetTypeHash(d1) + "" == GetTypeHash(d1);
    assert GetTypeHash(d2) + "" == GetTypeHash(d2);
  }
}

=== FILE: type_token.dfy ===
/**
 * Type tokens (src/reflect/typeToken.ts): a descriptor together with a name
 * and the hash the adapter cache is keyed by.
 */
module TypeTokens {
  import opened Wrappers
  import opened Errors
  import opened ReflectionUtils

  datatype TypeToken = TypeToken(typ: TypeDesc, name: string, hash: string)

  /** The TypeError of calling `toString` on the missing element 0 of an empty array. */
  const NO_ELEMENT_ZERO := TypeError("Cannot read properties of undefined (reading 'toString')")

  /**
   * The generated name: for an array the type name of its element 0, for
   * anything else its own type name when basic and "Object" otherwise. An
   * empty array has no element 0; the source then calls `toString` on
   * `undefined`, which throws.
   */
  function GenerateName(d: TypeDesc): (r: Result<string, Error>)
    ensures r.Err? <==> d == List([])
    ensures r.Err? ==> r.error == NO_ELEMENT_ZERO
    ensures d.List? && |d.elems| > 0 ==> r == Ok(GetTypeName(d.elems[0]))
    ensures d.Class? && IsBasicType(d.name) ==> r == Ok(d.name)
    ensures d.Class? && !IsBasicType(d.name) ==> r == Ok(OBJECT_TYPE)
  {
    match d
    case List(es) =>
      if |es| == 0 then Err(NO_ELEMENT_ZERO)
      else Ok(GetTypeName(es[0]))
    case Class(n) => Ok(if IsBasicType(n) then n else OBJECT_TYPE)
  }

  /**
   * `new TypeToken(type, name)`: an explicit non-empty name is kept, otherwise
   * the generated one; the hash is the type name followed by the name.
   */
  function NewToken(d: TypeDesc, name: Option<string>): (r: Result<TypeToken, Error>)
    ensures r.Err? <==> d == List([]) && (name.None? || name.value == "")
    ensures r.Err? ==> r.error == NO_ELEMENT_ZERO
    ensures r.Ok? ==> r.value.typ == d && r.value.hash == GetTypeName(d) + r.value.name
    ensures name.Some? && name.value != "" ==> r == Ok(TypeToken(d, name.value, GetTypeName(d) + name.value))
  {
    if name.Some? && name.value != "" then Ok(TypeToken(d, name.value, GetTypeName(d) + name.value))
    else
      match GenerateName(d)
      case Err(e) => Err(e)
      case Ok(g) => Ok(TypeToken(d, g, GetTypeName(d) + g))
  }

  /** The token every caller in the library builds: no explicit name. */
  function Token(d: TypeDesc): Result<TypeToken, Error> {
    NewToken(d, None)
  }

  /** `equalsByType`: only the two type names are compared. */
  predicate EqualsByType(t: TypeToken, other: TypeDesc) {
    GetTypeName(t.typ) == GetTypeName(other)
  }
}

=== FILE: tyson.dfy ===
/**
 * The registry and the recursive conversion engine (src/tyson.ts), with the
 * null guard of src/typeAdapter.ts and the `_fromJson`/`_toJson` of the
 * object and array adapters. The registry's only mutable state, its adapter
 * cache, is threaded through every call: each operation returns its result
 * together with the registry after the call.
 */
module Tyson {
  import opened Wrappers
  import opened Plain
  import opened Errors
  import opened ReflectionUtils
  import opened TypeTokens
  import opened TypeAdapter
  import TypeAdapters
  import ObjectTypeAdapter
  import ArrayTypeAdapter

  /** What a builder hands the registry: its factories and, if it has one, a null setting. */
  datatype Builder = Builder(factories: seq<Factory>, serializeNulls: Option<bool>)

  /**
   * A registry: its factory chain, its cache from token hash to adapter,
   * its null setting, and the classes of the program (standing in for
   * reflection on class definitions).
   */
  datatype Tyson = Tyson(
    factories: seq<Factory>,
    cache: map<string, Adapter>,
    serializeNulls: bool,
    classes: map<string, ObjectTypeAdapter.ClassDecl>)

  /** The result of an operation and the registry after it. */
  datatype Step<T> = Step(result: Result<T, Error>, tyson: Tyson)

  const DEFAULT_SERIALIZE_NULLS := false

  /** The built-in factories, in the order the constructor appends them. */
  function BuiltInFactories(date: Codec): seq<Factory> {
    [ TypeAdapters.PrimFactory(BooleanKind),
      TypeAdapters.PrimFactory(NumberKind),
      TypeAdapters.PrimFactory(StringKind),
      TypeAdapters.DateFactory(date),
      ObjectFactory,
      ArrayFactory ]
  }

  /**
   * `new Tyson(builder)`: the builder's factories first, then the built-ins;
   * an empty cache; the builder's null setting, where an absent one reads as false.
   */
  function New(builder: Option<Builder>, classes: map<string, ObjectTypeAdapter.ClassDecl>, date: Codec): (t: Tyson)
    ensures t.cache == map[] && t.classes == classes
    ensures builder.None? ==> t.factories == BuiltInFactories(date) && t.serializeNulls == DEFAULT_SERIALIZE_NULLS
    ensures builder.Some? ==> t.factories == builder.value.factories + BuiltInFactories(date)
    ensures t.serializeNulls ==> builder.Some? && builder.value.serializeNulls == Some(true)
  {
    match builder
    case None => Tyson(BuiltInFactories(date), map[], DEFAULT_SERIALIZE_NULLS, classes)
    case Some(b) => Tyson(b.factories + BuiltInFactories(date), map[], b.serializeNulls.GetOr(false), classes)
  }

  /**
   * The registry after an operation still has the same chain, setting and
   * classes, and every cache entry it had, unchanged.
   */
  ghost predicate Extends(t: Tyson, t': Tyson) {
    && t'.factories == t.factories
    && t'.serializeNulls == t.serializeNulls
    && t'.classes == t.classes
    && forall h :: h in t.cache ==> h in t'.cache && t'.cache[h] == t.cache[h]
  }

  /** `factory.create(tyson, typeToken)`: an adapter, no answer, or a thrown error. */
  function Create(classes: map<string, ObjectTypeAdapter.ClassDecl>, f: Factory, tok: TypeToken): Result<Option<Adapter>, Error> {
    match f
    case ForToken(_, _) => Ok(TypeAdapters.NewFactoryCreate(f, tok))
    case ForClass(_, _) => Ok(TypeAdapters.NewFactoryCreate(f, tok))
    case ObjectFactory => Ok(ObjectTypeAdapter.Claim(classes, tok))
    case ArrayFactory => ArrayTypeAdapter.Claim(tok)
    case UserFactory(create) => Ok(create(tok))
  }

  /** Position k of the chain is the first factory that does not decline the token. */
  ghost predicate FirstAnswer(classes: map<string, ObjectTypeAdapter.ClassDecl>, fs: seq<Factory>, tok: TypeToken, k: nat) {
    && k < |fs|
    && Create(classes, fs[k], tok) != Ok(None)
    && forall i :: 0 <= i < k ==> Create(classes, fs[i], tok) == Ok(None)
  }

  /**
   * The chain walk: the answer of the first factory that does not decline
   * (an adapter, or the error it threw), or no answer when all decline.
   */
  function WalkChain(classes: map<string, ObjectTypeAdapter.ClassDecl>, fs: seq<Factory>, tok: TypeToken): (r: Result<Option<Adapter>, Error>)
    ensures r == Ok(None) <==> forall i :: 0 <= i < |fs| ==> Create(classes, fs[i], tok) == Ok(None)
    ensures r != Ok(None) ==> exists k: nat :: FirstAnswer(classes, fs, tok, k) && r == Create(classes, fs[k], tok)
  {
    if |fs| == 0 then Ok(None)
    else
      var c := Create(classes, fs[0], tok);
      if !(c.Ok? && c.value.None?) then
        assert FirstAnswer(classes, fs, tok, 0);
        c
      else
        var r := WalkChain(classes, fs[1..], tok);
        assert forall i :: 1 <= i < |fs| ==> fs[i] == fs[1..][i - 1];
        assert r != Ok(None) ==> exists k: nat :: FirstAnswer(classes, fs, tok, k) && r == Create(classes, fs[k], tok) by {
          if r != Ok(None) {
            var k: nat :| FirstAnswer(classes, fs[1..], tok, k) && r == Create(classes, fs[1..][k], tok);
            assert FirstAnswer(classes, fs, tok, k + 1);
          }
        }
        r
  }

  function CannotHandle(tok: TypeToken): Error {
    Failure("Tyson cannot handle " + tok.hash)
  }

  /**
   * `getAdapter`: a cached adapter is returned as it is; on a miss the chain
   * is walked and the first adapter found is cached under the token's hash;
   * when every factory declines, it fails and caches nothing.
   */
  function GetAdapter(t: Tyson, tok: TypeToken): (r: Step<Adapter>)
    ensures Extends(t, r.tyson)
    ensures tok.hash in t.cache ==> r.result == Ok(t.cache[tok.hash]) && r.tyson == t
    ensures r.result.Ok? ==> tok.hash in r.tyson.cache && r.tyson.cache[tok.hash] == r.result.value
    ensures r.result.Ok? ==> forall h :: h in r.tyson.cache ==> h in t.cache || h == tok.hash
    ensures r.result.Err? ==> r.tyson == t
    ensures tok.hash !in t.cache ==>
      (r.result == Err(CannotHandle(tok)) <==> forall i :: 0 <= i < |t.factories| ==> Create(t.classes, t.factories[i], tok) == Ok(None))
  {
    if tok.hash in t.cache then Step(Ok(t.cache[tok.hash]), t)
    else
      match WalkChain(t.classes, t.factories, tok)
      case Err(e) =>
        assert e != CannotHandle(tok) by {
          var k: nat :| FirstAnswer(t.classes, t.factories, tok, k) && Err(e) == Create(t.classes, t.factories[k], tok);
          assert t.factories[k].ArrayFactory?;
        }
        Step(Err(e), t)
      case Ok(None) => Step(Err(CannotHandle(tok)), t)
      case Ok(Some(a)) => Step(Ok(a), t.(cache := t.cache[tok.hash := a]))
  }

  // ---------------------------------------------------------------------
  // JSON to object

  /** An adapter's public `fromJson`: JSON null reads as undefined without running the adapter. */
  function Read(t: Tyson, a: Adapter, json: Value): (r: Step<Value>)
    ensures Extends(t, r.tyson)
    decreases json, 3
  {
    if json == Null then Step(Ok(Undefined), t) else ReadInner(t, a, json)
  }

  /** An adapter's protected `_fromJson`. */
  function ReadInner(t: Tyson, a: Adapter, json: Value): (r: Step<Value>)
    requires json != Null
    ensures Extends(t, r.tyson)
    decreases json, 2
  {
    match a
    case Prim(k) => Step(TypeAdapters.PrimRead(k, json), t)
    case Custom(_, codec) => Step(codec.read(json), t)
    case ObjectA(cls, props) =>
      ReadProps(t, cls, props, 0, json, ObjectTypeAdapter.FreshFields(ObjectTypeAdapter.DeclOf(t.classes, cls).fields))
    case ArrayA(elem) =>
      if json.Arr? then ReadElems(t, elem, json, 0, [])
      else Step(Err(TypeError("json is not iterable")), t)
  }

  /**
   * ObjectTypeAdapter `_fromJson`, from recorded property i onwards, with
   * `obj` the instance built so far.
   */
  function ReadProps(t: Tyson, cls: string, props: seq<Prop>, i: nat, json: Value, obj: map<string, Value>): (r: Step<Value>)
    requires i <= |props| && json != Null
    ensures Extends(t, r.tyson)
    ensures r.result.Ok? ==> r.result.value.Inst? && r.result.value.cls == cls
    decreases json, 1, |props| - i
  {
    if i == |props| then Step(Ok(Inst(cls, obj)), t)
    else
      var s := ReadProp(t, cls, props[i], json);
      match s.result
      case Err(e) => Step(Err(e), s.tyson)
      case Ok(None) => ReadProps(s.tyson, cls, props, i + 1, json, obj)
      case Ok(Some(x)) => ReadProps(s.tyson, cls, props, i + 1, json, obj[props[i].key := x])
  }

  /**
   * One iteration of ObjectTypeAdapter `_fromJson`: the value to store in
   * the property's field, or None when the property is skipped. A missing
   * required property fails; an `ignoreType` property takes the raw JSON
   * value; any other present one is converted by the adapter of its type,
   * a DeserializationError from it being replaced by one naming the property.
   */
  function ReadProp(t: Tyson, cls: string, p: Prop, json: Value): (r: Step<Option<Value>>)
    requires json != Null
    ensures Extends(t, r.tyson)
    decreases json, 0
  {
    var jsonKey := ObjectTypeAdapter.JsonKey(p);
    if json == Undefined then Step(Err(TypeError("Cannot read properties of undefined (reading '" + jsonKey + "')")), t)
    else
      match Token(p.meta.typ)
      case Err(e) => Step(Err(e), t)
      case Ok(tok) =>
        if p.meta.access == ToJsonOnly || !HasOwn(json, jsonKey) then
          if !HasOwn(json, jsonKey) && p.meta.required then
            Step(Err(Deserialization(ObjectTypeAdapter.RequiredMessage(p.key, cls), None)), t)
          else Step(Ok(None), t)
        else if p.meta.ignoreType then Step(Ok(Some(json.fields[jsonKey])), t)
        else
          var v := ReadAs(t, tok, json.fields[jsonKey]);
          match v.result
          case Err(e) => Step(Err(ObjectTypeAdapter.Rewrap(e, p.key, cls, jsonKey, json)), v.tyson)
          case Ok(x) => Step(Ok(Some(x)), v.tyson)
  }

  /** Resolves the adapter for a token, then reads the JSON value with it. */
  function ReadAs(t: Tyson, tok: TypeToken, json: Value): (r: Step<Value>)
    ensures Extends(t, r.tyson)
    ensures r.result.Ok? && json == Null ==> r.result.value == Undefined
    decreases json, 4
  {
    var s := GetAdapter(t, tok);
    match s.result
    case Err(e) => Step(Err(e), s.tyson)
    case Ok(a) => Read(s.tyson, a, json)
  }

  /**
   * ArrayTypeAdapter `_fromJson`, from element i onwards: each element is
   * read by the adapter the registry resolves for the element token.
   */
  function ReadElems(t: Tyson, elem: TypeToken, json: Value, i: nat, acc: seq<Value>): (r: Step<Value>)
    requires json.Arr? && i <= |json.items|
    ensures Extends(t, r.tyson)
    ensures r.result.Ok? ==> r.result.value.Arr? && |r.result.value.items| == |acc| + |json.items| - i
    decreases json, 1, |json.items| - i
  {
    if i == |json.items| then Step(Ok(Arr(acc)), t)
    else
      var s := GetAdapter(t, elem);
      match s.result
      case Err(e) => Step(Err(e), s.tyson)
      case Ok(a) =>
        var v := Read(s.tyson, a, json.items[i]);
        match v.result
        case Err(e) => Step(Err(e), v.tyson)
        case Ok(x) => ReadElems(v.tyson, elem, json, i + 1, acc + [x])
  }

  // ---------------------------------------------------------------------
  // Object to JSON

  /** An adapter's public `toJson`: null and undefined write as JSON null without running the adapter. */
  function Write(t: Tyson, a: Adapter, src: Value): (r: Step<Value>)
    ensures Extends(t, r.tyson)
    decreases src, 3
  {
    if src == Null || src == Undefined then Step(Ok(Null), t) else WriteInner(t, a, src)
  }

  /** An adapter's protected `_toJson`. */
  function WriteInner(t: Tyson, a: Adapter, src: Value): (r: Step<Value>)
    ensures Extends(t, r.tyson)
    decreases src, 2
  {
    match a
    case Prim(k) => Step(TypeAdapters.PrimWrite(k, src), t)
    case Custom(_, codec) => Step(codec.write(src), t)
    case ObjectA(_, props) => WriteProps(t, props, 0, src, map[])
    case ArrayA(elem) =>
      if src.Arr? then WriteElems(t, elem, src, 0, [])
      else Step(Err(TypeError("src is not iterable")), t)
  }

  /**
   * ObjectTypeAdapter `_toJson`, from recorded property i onwards, with
   * `out` the JSON object built so far.
   */
  function WriteProps(t: Tyson, props: seq<Prop>, i: nat, src: Value, out: map<string, Value>): (r: Step<Value>)
    requires i <= |props|
    ensures Extends(t, r.tyson)
    ensures r.result.Ok? ==> r.result.value.Obj?
    decreases src, 1, |props| - i
  {
    if i == |props| then Step(Ok(Obj(out)), t)
    else
      var s := WriteProp(t, props[i], src);
      match s.result
      case Err(e) => Step(Err(e), s.tyson)
      case Ok(None) => WriteProps(s.tyson, props, i + 1, src, out)
      case Ok(Some(x)) => WriteProps(s.tyson, props, i + 1, src, out[ObjectTypeAdapter.JsonKey(props[i]) := x])
  }

  /**
   * One iteration of ObjectTypeAdapter `_toJson`: the value to store under
   * the property's JSON key, or None when nothing is stored. A property the
   * source does not own or that is fromJson-only is skipped; an
   * `ignoreType` one is copied as it is; any other is converted by the
   * adapter of its type; a null result is dropped unless nulls are serialized.
   */
  function WriteProp(t: Tyson, p: Prop, src: Value): (r: Step<Option<Value>>)
    ensures Extends(t, r.tyson)
    decreases src, 0
  {
    if !HasOwn(src, p.key) || p.meta.access == FromJsonOnly then Step(Ok(None), t)
    else
      match Token(p.meta.typ)
      case Err(e) => Step(Err(e), t)
      case Ok(tok) =>
        var w := if p.meta.ignoreType then Step(Ok(src.fields[p.key]), t) else WriteAs(t, tok, src.fields[p.key]);
        match w.result
        case Err(e) => Step(Err(e), w.tyson)
        case Ok(x) => if x == Null && !t.serializeNulls then Step(Ok(None), w.tyson) else Step(Ok(Some(x)), w.tyson)
  }

  /** Resolves the adapter for a token, then writes the value with it. */
  function WriteAs(t: Tyson, tok: TypeToken, src: Value): (r: Step<Value>)
    ensures Extends(t, r.tyson)
    ensures r.result.Ok? && (src == Null || src == Undefined) ==> r.result.value == Null
    decreases src, 4
  {
    var s := GetAdapter(t, tok);
    match s.result
    case Err(e) => Step(Err(e), s.tyson)
    case Ok(a) => Write(s.tyson, a, src)
  }

  /** ArrayTypeAdapter `_toJson`, from element i onwards; every element is kept. */
  function WriteElems(t: Tyson, elem: TypeToken, src: Value, i: nat, acc: seq<Value>): (r: Step<Value>)
    requires src.Arr? && i <= |src.items|
    ensures Extends(t, r.tyson)
    ensures r.result.Ok? ==> r.result.value.Arr? && |r.result.value.items| == |acc| + |src.items| - i
    decreases src, 1, |src.items| - i
  {
    if i == |src.items| then Step(Ok(Arr(acc)), t)
    else
      var s := GetAdapter(t, elem);
      match s.result
      case Err(e) => Step(Err(e), s.tyson)
      case Ok(a) =>
        var w := Write(s.tyson, a, src.items[i]);
        match w.result
        case Err(e) => Step(Err(e), w.tyson)
        case Ok(x) => WriteElems(w.tyson, elem, src, i + 1, acc + [x])
  }

  // ---------------------------------------------------------------------
  // Entry points

  /** The shape `fromJson` asks for: a class requested for a JSON array becomes `[class]`. */
  function RequestedShape(json: Value, typ: TypeDesc): (d: TypeDesc)
    ensures json.Arr? && typ.Class? ==> d == List([typ])
    ensures !(json.Arr? && typ.Class?) ==> d == typ
  {
    if json.Arr? && !typ.List? then List([typ]) else typ
  }

  /** `tyson.fromJson(json, type)`. */
  function FromJson(t: Tyson, json: Value, typ: TypeDesc): (r: Step<Value>)
    ensures Extends(t, r.tyson)
  {
    match Token(RequestedShape(json, typ))
    case Err(e) => Step(Err(e), t)
    case Ok(tok) =>
      var s := GetAdapter(t, tok);
      match s.result
      case Err(e) => Step(Err(e), s.tyson)
      case Ok(a) => Read(s.tyson, a, json)
  }

  /** `src.constructor`: the class of a value; null and undefined have none. */
  function ConstructorOf(src: Value): (r: Option<TypeDesc>)
    ensures r.None? <==> src == Null || src == Undefined
    ensures r.Some? ==> r.value.Class?
  {
    match src
    case Undefined => None
    case Null => None
    case Bool(_) => Some(Class(BOOLEAN_TYPE))
    case Num(_) => Some(Class(NUMBER_TYPE))
    case Str(_) => Some(Class(STRING_TYPE))
    case Arr(_) => Some(Class(ARRAY_TYPE))
    case Obj(_) => Some(Class(OBJECT_TYPE))
    case Inst(c, _) => Some(Class(c))
  }

  /** The shape `toJson` converts by: the given type, else the value's constructor. */
  function WriteShape(src: Value, typ: Option<TypeDesc>): (r: Option<TypeDesc>)
    ensures typ.Some? ==> r == typ
    ensures typ.None? ==> r == ConstructorOf(src)
  {
    if typ.Some? then typ else ConstructorOf(src)
  }

  /** `tyson.toJson(src, type)`. */
  function ToJson(t: Tyson, src: Value, typ: Option<TypeDesc>): (r: Step<Value>)
    ensures Extends(t, r.tyson)
  {
    match WriteShape(src, typ)
    case None => Step(Err(TypeError("Cannot read properties of " + Display(src) + " (reading 'constructor')")), t)
    case Some(d) =>
      match Token(d)
      case Err(e) => Step(Err(e), t)
      case Ok(tok) =>
        var s := GetAdapter(t, tok);
        match s.result
        case Err(e) => Step(Err(e), s.tyson)
        case Ok(a) => Write(s.tyson, a, src)
  }
}

=== FILE: wrappers.dfy ===
/** Option and Result, the failure-carrying datatypes the rest of the model returns. */
module Wrappers {

  datatype Option<+T> = None | Some(value: T) {
    function GetOr(default: T): T {
      match this
      case Some(v) => v
      case None => default
    }
  }

  /** The outcome of an operation that may throw: a value, or the thrown error. */
  datatype Result<+T, +E> = Ok(value: T) | Err(error: E)
}
